=== FILE: README.md ===
# warrior: a Dafny model of the hardware-in-the-loop tester's driver and test runner

The warrior tester drives ten blade slots over a serial line. Each slot has two
PWM-capable ("PPS") pins, two analog pins and two digital pins. Test scripts are
registered with a runner that gates every test behind a set of "nominal" tests and
records every expectation check. This project models that core as immutable data and
pure functions and proves its properties:

- **Topology, Wire**: slots, pins and their two-character selectors (`slot-1` followed by
  the role letter), and the outbound command strings, with a decoder that reads every
  well-formed command back.
- **Framer**: the reader thread's loop body as a step over the receive buffer. It splits at
  `;`, dispatches on the `G`/`N`/`M` tag and resynchronises after each frame by dropping
  characters until a tag letter appears. Queues become the list of events produced, and a
  frame that makes Python raise, or a read that is not ASCII, ends the thread with the
  events queued before it kept.
- **Pwm, Driver**: the PWM channel table (nine channels for twenty PPS pins) and the pin
  operations. These are reads that correlate replies by selector and retry, digital writes,
  PWM writes and CAN sends. Each state is the table plus the serial output so far.
- **Can**: the criteria matcher and the receive loop of `get_can_message`, and the
  message `send_can_message` builds.
- **Recorder, Expect**: the per-test and per-expectation counters, the `equal` and
  `non_none` primitives, and `simple_analysis`.
- **Runner**: registration, the pass loop with its skip policy and nominal gate, and the
  clean-up and report after a keyboard interrupt. Test bodies, the outcomes of condition
  calls and interrupts during the gate's sleeps come from an environment. The recorder at the end is the replay of the executions the
  schedule performed.
- **Blade**: dual-channel blades, the DIGITAL/ANALOG output state machine and analog
  inputs.
- **Legacy, LegacyHilt, Proto**: the two prototype drivers. They share a prefix-search
  extractor that reads the port directly. `hilt.py` keeps a per-slot `[pps1, pps2]` PWM
  table and retries reads; `warrior.py` has single-shot reads and caller-chosen PWM
  channels.

Behaviours of the code that a reader might not expect, which the model keeps:

- A `G` or `N` frame that fails its length or digit check is logged and still queued. A
  frame that makes Python raise (`G` shorter than four characters, an `N` tail that is not
  an integer as `Text.ParseInt` reads it, an `M` frame without a comma, an empty frame) ends the reader thread. What
  earlier frames queued stays queued (`Framer.FaultKeepsEarlierEvents`). The length and
  digit checks run before the frame is taken apart, so a short `G` frame or an `N` frame
  whose tail is not an integer prints its error line and then raises
  (`Framer.PrintsErrorMatchesDispatch`, `Framer.BadAnalogFrameLogs`).
- `.decode('ascii')` raises on a read that holds a byte above 0x7f. That ends the reader
  thread before anything from that read is buffered, and later reads are never taken
  (`Framer.DecodeFaultStopsReader`, `Framer.DecodeFaultKeepsEarlierEvents`).
- Resynchronisation only happens after a frame. Garbage in front of a frame on a fresh
  buffer becomes part of that frame, so `"xyzG010;"` queues nothing
  (`Framer.GarbageBeforeFrameIsNotSkipped`). The same holds when a read ends right at a
  frame's `;`: untagged text at the start of the next read swallows the frame behind it,
  which the same bytes in one read would have delivered
  (`Framer.ReadBoundaryAfterFrameSkipsResync`, `Framer.OneReadResyncsAfterFrame`).
- A read that gets a timeout or a reply for another selector writes its request again on
  the next turn of the loop.
- A criterion key at the top level of a CAN message shadows the `data` payload.
- The nominal gate retries each nominal test on its own until it passes, in registration
  order.
- `execute` counts a pass at `start_test` and only takes it back on `AssertionError`.
  A test that is interrupted or raises anything else therefore stays counted as passed
  (`Runner.PerformCounts`).
- Only an `AssertionError` raised by an expectation carries the arguments `execute` prints.
  A failing bare `assert` in a test is counted as failed, and then printing `e.args[1][1]`
  raises `IndexError`, which ends the run without the clean-up
  (`Runner.BareAssertStopsRun`).
- `set.pop()` on what is left of `set(range(9))` gives the smallest free channel under
  CPython's ordering of small integers. The contracts state that the channel is free and
  minimal.

## Model

| member | source | states |
|---|---|---|
| Topology.MakeSlot | warrior/hilt.py:111-114 | a slot has two pins of each kind, index `j` of each carrying role letter `"pq"[j]`, `"ab"[j]`, `"de"[j]` |
| Topology.HiltSlots | warrior/hilt.py:110-115 | the driver builds ten slots, slot `i + 1` at list position `i` |
| Topology.SlotAt | warrior/hilt.py:124-125 | `hilt[n]` is slot `n` for 1..10, wraps around for -9..0 as Python's negative indexing does, and is an `IndexError` otherwise |
| Topology.HiltSlotPins | warrior/hilt.py:111-115 | every pin of every slot is a driver pin of that slot, and the three pins of one index are distinct |
| Topology.SelectorShape | warrior/hilt.py:36 | a driver pin's selector is two characters: the digit `slot - 1` and the role letter |
| Topology.SelectorInjective | warrior/hilt.py:46 | two driver pins have the same selector exactly when they are the same pin, so comparing a reply's selector identifies the pin |
| Text.IntStr | warrior/hilt.py:98 | `f"{channel}"` is the decimal text of the number, with a minus sign for negatives |
| Text.Pad2 | warrior/hilt.py:98 | `f"{value:02d}"` is exactly two digits reading back as the value for 0..99, and the plain decimal text outside that range |
| Text.ParseInt | warrior/hilt.py:182 | `int(text)` on a run of digits is their value, and it succeeds only on digits with an optional sign |
| Wire.HexBytesRoundTrip | warrior/hilt.py:133 | the payload as comma-joined `02X` bytes reads back as the same bytes and contains no `;` |
| Wire.DecodeEncode | warrior/hilt.py:36-54 | every outbound command with a two-character selector, one-digit channel, duty 0..99 and bytes below 256 reads back as itself |
| Wire.DecodeEncodePwm | warrior/hilt.py:94-98 | the PWM write `;b<sel><channel><duty:02d>;` reads back as its selector, channel and duty |
| Wire.DecodeEncodeCan | warrior/hilt.py:131-135 | `m<sid:03X>,<bytes>;` reads back as its identifier and payload |
| Wire.Encode | warrior/hilt.py:40-134 | every command ends with `;`; pin commands also start with `;`, and the CAN command starts with `m` (with `Wire.DecodeEncode`, the decoder reads every command back) |
| Wire.EncodeCanShape | warrior/hilt.py:134 | a CAN command starts with `m`, ends with `;` and holds the padded identifier, a comma and the bytes |
| Framer.DispatchFrameRoutes | warrior/hilt.py:175-188 | the tag picks the queue (`G` digital, `N` analog, `M` CAN); only `G` and `N` frames log; only the empty frame raises the `command[0]` IndexError; a tagged frame that does not raise is queued, and a frame with any other first character is dropped without a line |
| Framer.PrintsError | warrior/hilt.py:176-181 | only a `G` or `N` frame prints an error line (with `Framer.PrintsErrorMatchesDispatch`: exactly those whose length or digit check fails) |
| Framer.CanFrameIsRead | warrior/hilt.py:183-184 | an `M` frame is split at its first comma into the board id and the payload, which may hold further commas, and nothing is logged |
| Framer.CanFrameNeedsComma | warrior/hilt.py:183-184 | an `M` frame raises exactly when there is no comma after the tag |
| Framer.DigitalFrameIsRead | warrior/hilt.py:175-178 | a well-formed digital reply `G<sel><0 or 1>` queues exactly its selector and level and logs nothing |
| Framer.UnloggedDigitalFrameIsWellFormed | warrior/hilt.py:175-178 | a `G` frame that logs nothing is the well-formed frame of the reply it queues, so every malformed `G` frame that is queued logs an error line |
| Framer.AnalogFrameIsRead | warrior/hilt.py:179-182 | a well-formed analog reply `N<sel><five digits>` queues exactly its selector and the digits' value and logs nothing |
| Framer.UnloggedAnalogFrameIsWellFormed | warrior/hilt.py:179-182 | an `N` frame that logs nothing is a selector and five digits whose value is the queued reading, so every malformed `N` frame that is queued logs an error line |
| Framer.Resync | warrior/hilt.py:189-190 | the result is no longer than the input, is empty or starts with `G`, `N` or `M`, and every dropped character is not a tag |
| Framer.ResyncIsSuffix | warrior/hilt.py:189-190 | resynchronisation only drops characters from the front: the result is a suffix of the input |
| Framer.SplitFrame | warrior/hilt.py:171-174 | without a `;` nothing is split; otherwise the frame is exactly the text before the first `;` and the rest is the text after it |
| Framer.StepBuffer | warrior/hilt.py:170-190 | a step waits exactly when there is no `;`; otherwise it handles the frame before the first `;`: it stops exactly when that frame raises, with that frame's exception, and otherwise queues what the frame dispatches and keeps the resynchronised text after it, which is shorter than the buffer |
| Framer.Drain | warrior/hilt.py:170-190 | unless a frame raised, the inner loop leaves no `;` in the buffer; a buffer without `;` is left unchanged with nothing queued |
| Framer.Reader | warrior/hilt.py:167-190 | with no further read the reader is one pass of the inner loop; unless a frame raised, the buffer between reads never holds a `;` |
| Framer.OutcomeAt | warrior/hilt.py:171-188 | the outcome at each position is that frame's own dispatch and the error lines its checks print |
| Framer.OutcomesAppend | warrior/hilt.py:171-188 | the outcomes of consecutive runs of frames are those of each run, in order |
| Framer.FirstFault | warrior/hilt.py:171-188 | the position found is the first frame whose dispatch raises, every earlier frame dispatching |
| Framer.EventsAppend | warrior/hilt.py:171-188 | the events and error lines of consecutive runs of frames add up, in order |
| Framer.FirstFaultAppend | warrior/hilt.py:171-188 | the first raising frame of two runs of frames is in the first run if it has one |
| Framer.DrainFollowsFrames | warrior/hilt.py:170-190 | the inner loop queues the events of the frames before the first raising frame, each frame's in order, logs their error lines and then the raising frame's own line when its check printed one, and stops with that frame's exception; with none it keeps exactly the text after the last frame |
| Framer.ReaderFollowsFrames | warrior/hilt.py:167-190 | over successive reads, up to the first read that is not ASCII, the reader queues the events of all frames the reads deliver up to the first raising one, in order, and logs their error lines and the raising frame's own; it stops with that frame's exception, or else with `UnicodeDecodeError` when some read is not ASCII, and runs on otherwise |
| Framer.ReaderOneRead | warrior/hilt.py:167-170 | a single ASCII read is handled by exactly one pass of the inner loop; a read that is not ASCII stops the thread with the buffer untouched and nothing queued |
| Framer.DecodeFaultStopsReader | warrior/hilt.py:167-169 | a read holding a character above 0x7f raises `UnicodeDecodeError`: nothing more is queued or logged, the buffer is not extended and no later read is taken |
| Framer.DecodeFaultKeepsEarlierEvents | warrior/hilt.py:167-178 | the events a frame of an earlier read queued stay queued when a later read fails to decode |
| Framer.DrainAt | warrior/hilt.py:171-190 | on `frame + ";" + after` the frame's events come first, followed by the inner loop on the resynchronised `after` |
| Framer.DrainStopsAt | warrior/hilt.py:171-188 | on `frame + ";" + after` with a raising frame nothing is queued, the frame's error line is printed when its check fails, and the thread stops with that exception |
| Framer.PrintsErrorMatchesDispatch | warrior/hilt.py:175-188 | a dispatched frame logs exactly when its check prints; a raising frame has printed a line exactly when it is a short `G` frame or an `N` frame whose tail is no integer |
| Framer.BadAnalogFrameLogs | warrior/hilt.py:179-182 | `"N01x;"` prints its error line, queues nothing and stops the reader with the `ValueError` of `int` |
| Framer.FaultKeepsEarlierEvents | warrior/hilt.py:171-178 | on `"G010;G0;"` the reply `("01", False)` stays queued when the short `G0` frame stops the reader, after `G0` printed its error line |
| Framer.ReadBoundaryAfterFrameSkipsResync | warrior/hilt.py:167-190 | when a read ends at a frame's `;`, untagged text starting the next read becomes the next frame's tag, and that frame queues nothing |
| Framer.OneReadResyncsAfterFrame | warrior/hilt.py:167-190 | the same bytes in one read deliver both frames, the garbage between them being dropped |
| Framer.DrainRestStartsWithTag | warrior/hilt.py:189-190 | after at least one frame, the buffer is empty or starts with a tag letter |
| Framer.SplitAt | warrior/hilt.py:171-174 | a buffer `frame + ";" + after`, with no `;` in the frame, splits into exactly that frame and that rest |
| Framer.StepAt | warrior/hilt.py:171-190 | one step on `frame + ";" + after` dispatches exactly that frame and keeps the resynchronised `after` |
| Framer.ResyncDropsUntaggedPrefix | warrior/hilt.py:189-190 | resynchronisation drops exactly the untagged characters before the first tag |
| Framer.GarbageBeforeFrameIsNotSkipped | warrior/hilt.py:171-190 | on `"xyzG010;"` the frame is `"xyzG010"`, nothing is queued and the buffer is left empty |
| Framer.GarbageAfterFrameIsSkipped | warrior/hilt.py:174-190 | untagged garbage after a frame's `;` is dropped up to the next tag |
| Framer.ResyncedFrameIsRead | warrior/hilt.py:175-178 | `"G010;"` queues the digital reply `("01", False)` |
| Framer.LeadingTerminatorStopsReader | warrior/hilt.py:171-175 | a `;` at the front of the buffer makes an empty frame whose `command[0]` stops the reader before the frame behind it |
| Pwm.Release | warrior/hilt.py:35 | releasing a pin sets only its own entry to None, keeps every other entry, and keeps the table invariant |
| Pwm.FirstFree | warrior/hilt.py:85-91 | the channel picked is free and every smaller channel is held; 9 means none is left |
| Pwm.Allocate | warrior/hilt.py:84-92 | the pin's own entry is cleared first; allocation fails exactly when other pins hold all nine channels; otherwise the pin gets the smallest channel no other pin holds; no other entry changes; the invariant (channels below nine, never shared) is kept |
| Pwm.AssignKeepsWf | warrior/hilt.py:92 | giving a pin a channel no other pin holds keeps every channel held at most once |
| Pwm.HoldersAtMostNine | warrior/hilt.py:85-92 | under the invariant at most nine pins hold a channel |
| Pwm.TenthPinIsRefused | warrior/hilt.py:89-90 | when nine other pins hold channels, allocation raises "Out of PWM channels!" |
| Pwm.ReleaseFreesChannel | warrior/hilt.py:84-92 | after a pin lets its channel go, another pin's allocation succeeds |
| Driver.Correlate | warrior/hilt.py:39-49 | a read returns the value of the first reply whose selector is the requested one; every earlier timeout or mismatch led to another request |
| Driver.DigitalRead | warrior/hilt.py:34-49 | the pin's PWM entry is released, one `;d<sel>;` is written per attempt, and the value is the correlated reply's |
| Driver.AnalogRead | warrior/hilt.py:61-76 | as the digital read, with `;a<sel>;` requests and the raw code as the value |
| Driver.DigitalWrite | warrior/hilt.py:51-54 | the pin's entry is released and the level written is the value's truthiness, reading back as a digital write to that pin |
| Driver.Duty | warrior/hilt.py:97 | the duty is the floor of `voltage * 99 / 5`: the largest integer not above it |
| Driver.DutyRange | warrior/hilt.py:95-97 | a voltage in 0..5 gives a duty in 0..99 |
| Driver.DutyMonotone | warrior/hilt.py:97 | a higher voltage never gives a lower duty |
| Driver.AnalogWrite | warrior/hilt.py:83-98 | the table becomes the allocation's; on failure nothing is written and no warning is logged; on success the warning is logged exactly for voltages outside 0..5 and one PWM command with the channel and duty is written; the invariant is kept |
| Driver.PwmCommandText | warrior/hilt.py:97-98 | for a two-character selector, a channel below nine and a duty in 0..99, the PWM command is eight characters, `;b`, the selector, three digits and `;`, and reads back as that write |
| Driver.PwmCommandShape | warrior/hilt.py:94-98 | for a voltage in 0..5 the command is `;b`, the selector, the channel digit, two duty digits and `;`, and reads back as the intended write |
| Driver.SendCanRaw | warrior/hilt.py:131-135 | sending appends exactly one command, reading back as the identifier and bytes, and leaves the PWM table alone |
| Driver.OperationsKeepPwmWf | warrior/hilt.py:34-62 | reads and digital writes keep the PWM table invariant |
| Can.Holds | warrior/hilt.py:151-160 | a criterion can hold only for a key other than `data` that is present at the top level or in the payload |
| Can.MatchLoop | warrior/hilt.py:151-160 | the loop finishes without `break` exactly when every criterion holds, where a top-level key decides on its own and only an absent one is looked up in `data` |
| Can.MissingKeyNeverMatches | warrior/hilt.py:152-154 | a criterion on a key present neither at the top level nor in `data` rejects the message |
| Can.TopLevelShadowsPayload | warrior/hilt.py:152-158 | when the key is at the top level, the payload's value for it does not affect the verdict |
| Can.Receive | warrior/hilt.py:137-160 | the result is the first message arriving after the clear that meets all criteria, every earlier one failed them, and None means the deadline came or the arrivals ran out without a match |
| Can.BuildMessage | warrior/hilt.py:127-129 | the message has the given type, `board_id` "ANY" and `time` 0 unless the caller gives them, and every caller field as given |
| Recorder.StartTest | warrior/record.py:40-45 | `start_test` makes the test current, creates its entry on first use, counts one more execution and one more pass, and keeps the counters consistent |
| Recorder.FailedTest | warrior/record.py:47-48 | `failed_test` takes one pass off that test only, and is a `KeyError` for a test never started |
| Recorder.Count | warrior/record.py:36-38 | one check more, one pass more exactly when passed, the data appended; passes ≤ checks and history length = checks are kept |
| Recorder.RecordIn | warrior/record.py:33-38 | only the expectation with the given id changes, and is created on first use; the test's own counters are untouched |
| Recorder.Record | warrior/record.py:32-38 | `record` changes only the current test's entry, is a `KeyError` when no test of the current name was started, and keeps the counters consistent |
| Recorder.RecordCountsOnce | warrior/record.py:32-38 | afterwards the expectation exists, has one more check, one more pass exactly when passed, and its history ends with the data |
| Recorder.ExecutionKeepsWf | warrior/record.py:40-48 | `start_test` followed by at most one `failed_test` keeps 0 ≤ passes ≤ executions |
| Recorder.DetailOf | warrior/record.py:25 | the detail line names the test, line and kind of the expectation, and its percentage is `passes * 100 // checks`, the floor of the ratio as Python computes it for either sign of the divisor |
| Recorder.Details | warrior/record.py:22-25 | the detail lines are at most one per expectation, and dividing by zero happens exactly for a failing expectation never checked |
| Recorder.DetailsSingle | warrior/record.py:22-25 | one expectation gives no line when it always passed, a division by zero when it was never checked, and its detail line otherwise |
| Recorder.DetailsAppend | warrior/record.py:22-25 | the detail lines of consecutive expectations are each run's lines in order, and the report fails exactly when one run's report fails |
| Recorder.DetailsExactlyFailing | warrior/record.py:22-25 | an expectation gets a detail line exactly when its passes differ from its checks |
| Recorder.DetailLinesFail | warrior/record.py:23-25 | every detail line reports passes different from checks |
| Recorder.DetailPercentBelowHundred | warrior/record.py:25 | with consistent counters every detail percentage, a floor division, is in 0..99 |
| Recorder.SimpleAnalysis | warrior/record.py:20-25 | the summary line comes first with the floor percentage, then exactly the detail lines; no execution is a division by zero; consistent counters give a percentage in 0..100 |
| PyValue.ZeroTolerance | warrior/expect.py:14 | `tolerance != 0` is false exactly for `False`, `0` and `0.0` |
| Expect.Conclude | warrior/expect.py:17-19 | the outcome is recorded first; the call passes exactly when the check passed and raises `AssertionError` with the id exactly when it did not |
| Expect.WithinTolerance | warrior/expect.py:11-12 | `abs(actual - expected) <= tolerance` holds exactly when `actual` lies in the closed interval of radius `tolerance` around `expected` |
| Expect.Equal | warrior/expect.py:8-19 | with a numeric expected value the verdict is the tolerance check; with anything else a non-zero tolerance is a `ValueError` that records nothing, and a zero tolerance compares with `==` |
| Expect.NonNone | warrior/expect.py:21-26 | records under `("non_none", line)`, passes exactly when the data is not None, and raises exactly when it is None |
| Expect.EqualRecordsOnce | warrior/expect.py:9-19 | every call that is not a usage error counts exactly one more check of `("equal", line)` and raises exactly when that check did not add a pass |
| Expect.EqualAcceptsItself | warrior/expect.py:8-19 | with a zero tolerance of any numeric type, a value compared with itself passes: a finite number by the tolerance check, anything else by `==` (NaN and infinities are outside the model) |
| Expect.EqualScenarios | warrior/expect.py:10-16 | 5.2 against 5 within 0.3 passes, 5.5 fails, equal strings pass, and a tolerance on strings is a usage error leaving the recorder as it was |
| Runner.Register | warrior/runner.py:15-17 | the decorator appends the test and changes nothing else |
| Runner.Nominal | warrior/runner.py:20-22 | `nominal` appends only to the nominal tests |
| Runner.Conditional | warrior/runner.py:24-29 | `conditional` appends the test and stores its condition under its name, leaving every other test's condition as it was |
| Runner.RegistrationOrder | warrior/runner.py:15-29 | any registration history lists the tests (plain and conditional) and the nominal tests in registration order, repeated names included |
| Runner.ConditionIsLastRegistered | warrior/runner.py:24-29 | under any registration history a test's condition is the fixed or callable one of its last conditional registration, and the one it had before when there is none |
| Runner.UnconditionedTestRuns | warrior/runner.py:48 | a test never registered with a condition has the condition True, however it and other tests were registered |
| Runner.RecordAll | warrior/record.py:32-38 | a body's checks never change any test's name or counters, and keep the recorder consistent |
| Runner.StartedBody | warrior/runner.py:31-39 | after `start_test` and the body, `failed_test` finds the test, and both outcomes keep the recorder consistent |
| Runner.StartKeepsHealthy | warrior/record.py:40-45 | after `start_test` the test has at least one pass to take back |
| Runner.FailKeepsHealthy | warrior/record.py:47-48 | taking back a pass that was counted keeps the counters consistent |
| Runner.Perform | warrior/runner.py:31-41 | one execution on the recorder's side keeps the recorder consistent |
| Runner.Replay | warrior/runner.py:43-65 | any sequence of executions keeps the recorder consistent |
| Runner.PerformCounts | warrior/runner.py:31-41 | one execution counts one more execution of the test and one more pass unless the body raised `AssertionError` of either kind |
| Runner.Execute | warrior/runner.py:31-41 | `execute` returns True when the body returns and False on an expectation's `AssertionError`; a keyboard interrupt escapes it as an interrupt, and another `AssertionError` (whose report raises `IndexError`) or any other exception escapes it as a crash |
| Runner.BareAssertStopsRun | warrior/runner.py:38-40 | a bare failing `assert` is counted as a failure of its test and stops the run with no further event |
| Runner.Sleep | warrior/runner.py:56 | a sleep queues and runs nothing, and stops the loop with an interrupt exactly when one arrives during it |
| Runner.Gate | warrior/runner.py:54-56 | the gate runs only nominal tests, starting with the first one, and calls no condition |
| Runner.GateStep | warrior/runner.py:54-56 | a run that returns moves the gate to the next nominal test; a run that fails an expectation, followed by a sleep without interrupt, runs the same test again; the log is that run followed by the rest of the gate |
| Runner.GateHalts | warrior/runner.py:54-56 | when the bodies run out, a body raises, or an interrupt arrives in the sleep, the gate halts having logged at most one run |
| Runner.GateLog | warrior/runner.py:54-56 | a completed gate saw each nominal test pass exactly once, in registration order, its last run passing |
| Runner.GateHidesMain | warrior/runner.py:54-56 | no main test runs inside the gate |
| Runner.GateRetries | warrior/runner.py:54-56 | each failed nominal run is followed by a run of the same nominal test |
| Runner.Visit | warrior/runner.py:48-57 | a fixed condition is never called and the test is skipped exactly when it is falsy; a callable condition is called once, an interrupt or exception from the call stops the loop with nothing run, and otherwise the test is skipped exactly when the answer is falsy |
| Runner.PassConsumesAnswers | warrior/runner.py:47-50 | a completed pass calls each callable condition exactly once, in order |
| Runner.VisitLog | warrior/runner.py:48-57 | a completed visit shows the test once; when it ran, it came right after every nominal test passed in order |
| Runner.Pass | warrior/runner.py:47-57 | a pass only consumes condition answers and test bodies, never more than the environment holds |
| Runner.PassLog | warrior/runner.py:47-57 | a completed pass visits every test once, in registration order, whatever their verdicts |
| Runner.Loop | warrior/runner.py:46-57 | the passes of the loop together only consume condition answers and test bodies |
| Runner.LoopLog | warrior/runner.py:46-57 | without an interrupt the loop visits the tests round after round |
| Runner.Cleanup | warrior/runner.py:58-61 | after an interrupt each nominal test is executed exactly once more, in order, whatever its verdict |
| Runner.Report | warrior/runner.py:64-65 | a report that does not divide by zero has exactly one summary line per recorded test, in insertion order |
| Runner.OneSummary | warrior/record.py:20-25 | a test's own analysis names it in exactly one summary line |
| Runner.ReportSucceeds | warrior/runner.py:64-65 | when every recorded test was started and its counters are consistent, the report divides by zero nowhere |
| Runner.Run | warrior/runner.py:43-65 | the run keeps the recorder consistent; when interrupted it runs each nominal once and reports every recorded test once |
| Runner.RunReplays | warrior/runner.py:43-65 | the final recorder is the replay of every execution of the loop and the clean-up, in order |
| Blade.DualChannel | warrior/blade.py:6-17 | the two objects are bound to index 0 and index 1 of the slot's `pps`, `an` and `d` lists |
| Blade.DualChannelPins | warrior/blade.py:13-17 | on a tester slot the two channels are made of that slot's pins and share no selector |
| Blade.NewOutput | warrior/blade.py:22-28 | an output starts in DIGITAL mode and writes False to its `d` pin |
| Blade.SetMode | warrior/blade.py:30-32 | `mode(m)` stores `m` and writes its truth value to the `d` pin |
| Blade.Set | warrior/blade.py:34-42 | in DIGITAL mode a non-bool is a `TypeError` and a bool is a digital write on the PPS pin; in ANALOG mode a non-number is a `TypeError` and a number is an analog write; any other mode does nothing |
| Blade.AnalogSetThenDigitalReleases | warrior/blade.py:34-42 | setting True in ANALOG mode writes duty 19 on a claimed channel, and a later digital set releases it |
| Blade.AnalogInputs | warrior/blade.py:47-53 | the two analog inputs are bound to index 0 and index 1 of the slot's `pps`, `an` and `d` lists, and creating them sends nothing |
| Blade.AnalogInputPins | warrior/blade.py:47-53 | on a tester slot the inputs measure through that slot's analog and PPS pins, and the two inputs share no selector |
| Blade.SetConnected | warrior/blade.py:55-56 | `set_connected(v)` is exactly one digital write of `v` on the `d` pin |
| Legacy.PinSelectorInjective | hilt.py:28 | on the tester's slots distinct (slot, pin) pairs have distinct selectors |
| Legacy.Extract | warrior.py:53-64 | with no prefix the buffer is discarded; otherwise it is cut to the first prefix, and with a `;` the reply is the text after the prefix character up to it and the buffer keeps what follows |
| Legacy.ExtractFindsReply | hilt.py:86-99 | a reply behind prefix-free garbage is returned exactly and only the text after its `;` is kept |
| Legacy.Nom | hilt.py:77-99 | the extractor uses at most the reads it is given and returns a reply exactly when it used one |
| Legacy.ExtractKeepsPartial | hilt.py:91-95 | an unterminated reply is kept in the buffer from its prefix on |
| Legacy.NomJoinsSplitReply | hilt.py:77-99 | a reply split over two reads is put together from the cached buffer |
| Legacy.Accepts | hilt.py:32-43 | an accepted reply is three characters (digital) or seven (analog) after a two-character selector |
| Legacy.Replies | hilt.py:26-99 | successive `_nom_until` calls, each with a fresh buffer, return at most one reply per read, and no reply holds a `;` |
| Legacy.DigitalAcceptsExactly | hilt.py:32 | the digital validator accepts exactly the selector followed by `0` or `1` |
| Legacy.AnalogReading | hilt.py:43-46 | an accepted analog reply's tail is what `int` reads, below 100000 |
| LegacyHilt.InitialTable | hilt.py:18 | the table starts with slots 1..10, each `[None, None]` |
| LegacyHilt.InitialTableWf | hilt.py:18 | the initial table holds no channel |
| LegacyHilt.SetPwm | hilt.py:20-24 | `_set_pwm` updates the first entry for PPS1 and the second for PPS2 of that slot only, does nothing for other pins, and raises `KeyError` for a missing slot |
| LegacyHilt.AnalogWrite | hilt.py:53-70 | the pin is released, then the smallest channel in 0..8 not recorded anywhere is taken; `KeyError` exactly when none remain or the slot is missing, a missing slot leaving the table as it was and an exhausted pool leaving the release in place; the command carries the channel and duty; out-of-range voltages are only logged |
| LegacyHilt.AnalogWriteKeepsWf | hilt.py:53-64 | a write keeps every recorded channel below nine and recorded once |
| LegacyHilt.UnrecordedChannelIsReused | hilt.py:20-24 | a write on a non-PPS pin records nothing, so the next such write gets the same channel |
| LegacyHilt.FirstWriteGetsChannelZero | hilt.py:55-63 | on the fresh table a PPS pin of a tester slot gets channel 0 |
| LegacyHilt.Poll | hilt.py:29-35 | the accepted reply is the first valid one among the successive replies, one request per attempt; without one every reply was invalid |
| LegacyHilt.DigitalRead | hilt.py:26-35 | the pin is released, one `;d<sel>;` per attempt, and the value is whether the accepted reply ends in `1` |
| LegacyHilt.AnalogRead | hilt.py:37-46 | the pin is released, one `;a<sel>;` per attempt, and the value is the raw reading below 100000 |
| LegacyHilt.DigitalWrite | hilt.py:48-51 | the pin is released and the write reads back as its truthiness |
| Proto.DigitalRead | warrior.py:17-24 | one request; the value is given exactly for a reply the validator accepts, and an invalid reply is None |
| Proto.AnalogRead | warrior.py:26-33 | one request; the value is `int(res[2:])` exactly for an accepted reply |
| Proto.DigitalWrite | warrior.py:35-37 | the command reads back as a digital write of the value's truthiness |
| Proto.AnalogWrite | warrior.py:39-43 | the warning is printed exactly for values outside 0..99; for a value in 0..99, a slot in 1..SlotCount and a one-digit channel the command reads back as the caller's channel and value |
| Proto.SingleShotAgreesWithRetry | warrior.py:17-24 | a reply the single-shot read accepts is what the retrying read returns after one request |
| Proto.InvalidAnalogIsRetried | hilt.py:40-45 | a reply the single-shot read rejects makes the retrying read ask again |
| Proto.AllocatedWriteMatches | hilt.py:66-70 | the retrying driver's PWM write is this driver's command for the channel it picked and the voltage's duty |

## Left out

- Serial I/O, the thread itself, its serial reads and the three queues. The reads are a sequence of `serial.read` results, each queue is the sequence of what was put on it, and the initial `serial.read(4096)` flush is not modelled.
- Port discovery, `sys.exit` and the command-line `main`: glue around the driver.
- The CAN codec (`parsley` encode, parse and format): an external library. Identifiers, payload bytes and decoded messages are inputs, and an `M` frame yields its identifier and payload text.
- Float conversions (raw code to volts, blade current and voltage scalings). The duty formula is an idealised `real` floor.
- The `inspect.stack` caller lookup: the call-site line is a parameter.
- The terminal UI and its log lines: a logged error is a flag on the result.
- The endless loops and the time their sleeps take. The run loop is bounded by a number of passes; the gate and the reads end when the environment's bodies, sleeps or reads run out.
- Runner.Run: a keyboard interrupt is modelled where the run waits or runs user code: inside a test body, a condition call or the gate's sleep. One that lands between the runner's own statements (in `start_test`, say, or while `execute` prints) is not represented.
- Runner.Run: reports Unfinished when the environment runs dry, which the endless loop never does.
- `get_can_message` deadlines are an arrival marker, not a clock.
- The `_nom_until` validator parameter: every caller uses the default that accepts everything.
- The `_nom_until` timeout: no caller passes one. Its deadline compares `time.time()` with a `time.monotonic()` value.
- Each `_nom_until` call starts with an empty buffer, so text read after a reply is lost at the next call; the model discards it the same way.
- Text.ParseInt: accepts only ASCII digits with an optional sign, not the whitespace, underscores or other Unicode digits `int` also takes. In the framer this means an `N` frame whose tail `int` would still read, such as `N0a 1234` or `N0a1_234`, stops the modelled reader with `BadAnalogNumber`, where the thread logs the error line, queues `("0a", 1234)` and reads on.
- LegacyHilt.AnalogWrite: requires the table invariant (channels below nine, none recorded twice). Without it `unused_channels.remove` would itself raise `KeyError`.
- Pwm.Allocate: requires the same invariant for the `pwm_channels` map.
- Legacy.Nom: reads are assumed to be ASCII. The `UnicodeDecodeError` that `.decode('ascii')` in `_nom_until` and `nom_until` raises out of the read call on a byte above 0x7f is not represented, so neither are the driver calls it escapes from.
- Expect.Equal: numbers are exact reals. Python floats are IEEE doubles: NaN and infinities are not values of the model (with them `abs(actual - expected) <= tolerance` is false, so comparing `nan` or `inf` with itself fails), and the difference is not rounded (`equal(1.0, -2**-60, tolerance=1.0)` passes in Python, since `1.0 + 2**-60 == 1.0`, but not in the model).
- Proto.AnalogWrite: the value is an integer. `f"{value:02d}"` on a float raises `ValueError`, which the model does not represent.
- The root `blade.py`: a superseded prototype whose channels share one set of pins.
- Test scripts and packaging.

=== FILE: blade.dfy ===
/** Blades: the boards that sit in a slot. A dual-channel blade splits its slot into two
    channels, each made of the index-0 or the index-1 pin of every kind. */
module Blade {
  import opened Wrappers
  import opened PyValue
  import opened Topology
  import opened Wire
  import opened Pwm
  import opened Driver

  /** One channel of a dual-channel blade: its PWM-capable, analog and digital pin. */
  datatype Channel = Channel(pps: PinId, an: PinId, d: PinId)

  /** The pins of one index of a slot. */
  function ChannelOf(slot: Slot, index: nat): (r: Channel)
    requires index < 2 && |slot.pps| == 2 && |slot.an| == 2 && |slot.d| == 2
  {
    Channel(slot.pps[index], slot.an[index], slot.d[index])
  }

  /** `DualChannel(slot)`: the two channels of a slot, index 0 first. */
  function DualChannel(slot: Slot): (r: seq<Channel>)
    requires |slot.pps| == 2 && |slot.an| == 2 && |slot.d| == 2
    ensures |r| == 2 && r[0] == ChannelOf(slot, 0) && r[1] == ChannelOf(slot, 1)
  {
    [ChannelOf(slot, 0), ChannelOf(slot, 1)]
  }

  /** On slot `n` of the tester, channel `i` is made of slot `n`'s pins with the role letters of
      index `i`, and the two channels share no pin and no selector. */
  lemma DualChannelPins(n: int, i: nat)
    requires 1 <= n <= SlotCount && i < 2
    ensures var chans := DualChannel(HiltSlots()[n - 1]);
      && chans[i] == Channel(PinId(n, RoleLetter(Pps, i)), PinId(n, RoleLetter(Analog, i)), PinId(n, RoleLetter(Digital, i)))
      && IsHiltPin(chans[i].pps) && IsHiltPin(chans[i].an) && IsHiltPin(chans[i].d)
      && Selector(chans[0].d) != Selector(chans[1].d)
      && Selector(chans[0].pps) != Selector(chans[1].pps)
  {
    var chans := DualChannel(HiltSlots()[n - 1]);
    HiltSlotPins(n - 1, 0);
    HiltSlotPins(n - 1, 1);
    SelectorInjective(chans[0].d, chans[1].d);
    SelectorInjective(chans[0].pps, chans[1].pps);
  }

  /** The two modes of an output: `Output.DIGITAL` is `False` and `Output.ANALOG` is `True`.
      The mode is compared by identity, so only these two values select a behaviour. */
  const DigitalMode: Value := VBool(false)
  const AnalogMode: Value := VBool(true)

  /** An output channel and its current mode. */
  datatype Output = Output(channel: Channel, mode: Value)

  datatype Made = Made(hilt: Hilt, output: Output)

  /** `Output(...)` for one channel: digital mode, and the select line driven low. */
  function NewOutput(h: Hilt, channel: Channel): (r: Made)
    ensures r.output == Output(channel, DigitalMode)
    ensures r.hilt.sent == h.sent + [";e" + Selector(channel.d) + "0;"]
    ensures r.hilt.pwm == Release(h.pwm, channel.d)
  {
    assert ";e" + Selector(channel.d) + "0" + ";" == ";e" + Selector(channel.d) + "0;";
    Made(DigitalWrite(h, channel.d, DigitalMode), Output(channel, DigitalMode))
  }

  /** `Output.mode(m)`: store the mode and drive the select line with its truth value. */
  function SetMode(h: Hilt, out: Output, mode: Value): (r: Made)
    ensures r.output == out.(mode := mode)
    ensures r.hilt.sent == h.sent + [";e" + Selector(out.channel.d) + (if Truthy(mode) then "1" else "0") + ";"]
    ensures r.hilt.pwm == Release(h.pwm, out.channel.d)
  {
    Made(DigitalWrite(h, out.channel.d, mode), out.(mode := mode))
  }

  /** Errors `Output.set` raises: a value of the wrong type for the mode, or the `KeyError`
      of an exhausted PWM pool. */
  datatype SetError = TypeError | OutOfPwmChannels

  /** What `set` did: wrote, did nothing (a mode that is neither constant), or raised. */
  datatype SetOutcome = Written | Ignored | Raised(error: SetError)

  datatype Setting = Setting(hilt: Hilt, outcome: SetOutcome, warned: bool)

  /** `Output.set(value)`: in digital mode a boolean goes to the PWM-capable pin as a digital
      level; in analog mode a number (a boolean included) goes to it as a voltage. */
  function Set(h: Hilt, out: Output, value: Value): (r: Setting)
    requires PwmWf(h.pwm)
    ensures r.outcome == Ignored <==> out.mode != DigitalMode && out.mode != AnalogMode
    ensures r.outcome == Raised(TypeError) <==>
              (out.mode == DigitalMode && !value.VBool?) || (out.mode == AnalogMode && !IsNumber(value))
    ensures r.outcome.Raised? || r.outcome == Ignored ==> !r.warned
    ensures r.outcome == Raised(TypeError) || r.outcome == Ignored ==> r.hilt == h
    ensures out.mode == DigitalMode && value.VBool? ==>
              r.outcome == Written && r.hilt == DigitalWrite(h, out.channel.pps, value)
    ensures out.mode == AnalogMode && IsNumber(value) ==>
              var w := AnalogWrite(h, out.channel.pps, NumValue(value));
              r.hilt == w.hilt && r.warned == w.warned && (r.outcome == Written <==> w.result.Ok?)
    ensures PwmWf(r.hilt.pwm)
  {
    if out.mode == DigitalMode then
      if !value.VBool? then Setting(h, Raised(TypeError), false)
      else Setting(DigitalWrite(h, out.channel.pps, value), Written, false)
    else if out.mode == AnalogMode then
      if !IsNumber(value) then Setting(h, Raised(TypeError), false)
      else
        var w := AnalogWrite(h, out.channel.pps, NumValue(value));
        if w.result.Err? then Setting(w.hilt, Raised(OutOfPwmChannels), false)
        else Setting(w.hilt, Written, w.warned)
    else Setting(h, Ignored, false)
  }

  /** In analog mode a boolean is a voltage: `True` asks for duty 19 (one volt), and the
      channel stays claimed until a digital write on the pin releases it. */
  lemma AnalogSetThenDigitalReleases(h: Hilt, out: Output)
    requires PwmWf(h.pwm) && IsHiltPin(out.channel.pps) && out.mode == AnalogMode
    requires Set(h, out, VBool(true)).outcome == Written
    ensures var s := Set(h, out, VBool(true));
      && s.hilt.pwm[out.channel.pps].Some?
      && Decode(s.hilt.sent[|s.hilt.sent| - 1]) == Some(PwmWriteReq(Selector(out.channel.pps), s.hilt.pwm[out.channel.pps].value, 19))
      && var d := Set(s.hilt, out.(mode := DigitalMode), VBool(false));
         d.outcome == Written && d.hilt.pwm[out.channel.pps].None?
  {
    var w := AnalogWrite(h, out.channel.pps, 1.0);
    assert Duty(1.0) == 19;
    PwmCommandShape(h, out.channel.pps, 1.0);
  }

  /** `AnalogInput(slot)`: the slot's two channels as inputs, index 0 first; creating them
      sends nothing, so the driver is not involved. */
  function AnalogInputs(slot: Slot): (r: seq<Channel>)
    requires |slot.pps| == 2 && |slot.an| == 2 && |slot.d| == 2
    ensures |r| == 2
    ensures forall i :: 0 <= i < 2 ==> r[i].pps == slot.pps[i] && r[i].an == slot.an[i] && r[i].d == slot.d[i]
  {
    DualChannel(slot)
  }

  /** On slot `n` of the tester, the analog inputs measure through the slot's own analog and
      PWM-capable pins, and the two inputs are told apart by every selector they use. */
  lemma AnalogInputPins(n: int)
    requires 1 <= n <= SlotCount
    ensures var ins := AnalogInputs(HiltSlots()[n - 1]);
      && (forall i :: 0 <= i < 2 ==>
            ins[i].an == PinId(n, RoleLetter(Analog, i)) && ins[i].pps == PinId(n, RoleLetter(Pps, i))
            && IsHiltPin(ins[i].an) && IsHiltPin(ins[i].pps) && IsHiltPin(ins[i].d))
      && Selector(ins[0].an) != Selector(ins[1].an)
      && Selector(ins[0].pps) != Selector(ins[1].pps)
      && Selector(ins[0].d) != Selector(ins[1].d)
  {
    var ins := AnalogInputs(HiltSlots()[n - 1]);
    HiltSlotPins(n - 1, 0);
    HiltSlotPins(n - 1, 1);
    SelectorInjective(ins[0].an, ins[1].an);
    SelectorInjective(ins[0].pps, ins[1].pps);
    SelectorInjective(ins[0].d, ins[1].d);
  }

  /** `AnalogInput.set_connected(value)`: drive the channel's select line; the command reads
      back as a digital write of the value's truth to that pin. */
  function SetConnected(h: Hilt, input: Channel, value: Value): (r: Hilt)
    ensures r.pwm == Release(h.pwm, input.d)
    ensures |r.sent| == |h.sent| + 1 && r.sent[..|h.sent|] == h.sent
    ensures IsHiltPin(input.d) ==>
              Decode(r.sent[|h.sent|]) == Some(DigitalWriteReq(Selector(input.d), Truthy(value)))
  {
    DigitalWrite(h, input.d, value)
  }
}

=== FILE: can.dfy ===
/** The CAN side of the driver: building an outgoing message from defaults and keyword
    fields, and waiting for an inbound message that meets a set of criteria. Encoding and
    decoding of messages belong to an external codec and are not modelled. */
module Can {
  import opened Wrappers
  import opened PyValue

  /** A decoded message: its top-level fields (`msg_type`, `board_id`, `time`, ...) and
      the named fields of its `data` payload. */
  datatype CanMsg = CanMsg(fields: map<string, Value>, data: map<string, Value>)

  /** Keyword criteria, in the order they were passed. */
  type Criteria = seq<(string, Value)>

  /** One criterion: a top-level key decides on its own and shadows the payload; only a key
      absent at the top level is looked up in the payload; a key in neither fails. The
      top-level `data` entry is the payload dictionary itself, which no scalar equals. */
  predicate Holds(m: CanMsg, key: string, expected: Value)
    ensures Holds(m, key, expected) ==> key != "data" && (key in m.fields || key in m.data)
  {
    if key == "data" then false
    else if key in m.fields then PyEq(m.fields[key], expected)
    else key in m.data && PyEq(m.data[key], expected)
  }

  /** The `for k, v in kwargs.items()` loop with its `break`s and `else: return msg`,
      from criterion `i` on. */
  function MatchLoop(m: CanMsg, criteria: Criteria, i: nat): (r: bool)
    requires i <= |criteria|
    ensures r <==> forall j :: i <= j < |criteria| ==> Holds(m, criteria[j].0, criteria[j].1)
    decreases |criteria| - i
  {
    if i == |criteria| then true
    else
      var k := criteria[i].0;
      var v := criteria[i].1;
      if k != "data" && k !in m.fields then
        if k !in m.data then false
        else if !PyEq(m.data[k], v) then false
        else MatchLoop(m, criteria, i + 1)
      else if k == "data" then false
      else if !PyEq(m.fields[k], v) then false
      else MatchLoop(m, criteria, i + 1)
  }

  predicate Matches(m: CanMsg, criteria: Criteria) {
    MatchLoop(m, criteria, 0)
  }

  /** A criterion on a key the message lacks everywhere can never be met. */
  lemma MissingKeyNeverMatches(m: CanMsg, criteria: Criteria, j: nat)
    requires j < |criteria|
    requires criteria[j].0 !in m.fields && criteria[j].0 !in m.data
    ensures !Matches(m, criteria)
  {
  }

  /** A top-level key shadows the payload: the payload's value for that key is never consulted. */
  lemma TopLevelShadowsPayload(m: CanMsg, key: string, expected: Value, payloadValue: Value)
    requires key != "data" && key in m.fields
    ensures Holds(CanMsg(m.fields, m.data[key := payloadValue]), key, expected) == Holds(m, key, expected)
  {
  }

  /** What the inbound queue yields after it has been cleared: a message, or the deadline. */
  datatype Arrival = Message(msg: CanMsg) | Deadline

  datatype Wait = Wait(consumed: nat, found: Option<CanMsg>)

  /** `get_can_message`: the first message, arriving after the queue clear, that meets all
      criteria; None when the deadline comes first (or the arrivals run out). */
  function Receive(arrivals: seq<Arrival>, criteria: Criteria): (r: Wait)
    ensures r.consumed <= |arrivals|
    ensures forall j :: 0 <= j < r.consumed - 1 ==>
              arrivals[j].Message? && !Matches(arrivals[j].msg, criteria)
    ensures r.found.Some? ==>
              r.consumed >= 1 && arrivals[r.consumed - 1] == Message(r.found.value)
              && Matches(r.found.value, criteria)
    ensures r.found.None? ==>
              (r.consumed >= 1 && arrivals[r.consumed - 1] == Deadline)
              || (r.consumed == |arrivals| && forall j :: 0 <= j < |arrivals| ==>
                    arrivals[j].Message? && !Matches(arrivals[j].msg, criteria))
  {
    if |arrivals| == 0 then Wait(0, None)
    else match arrivals[0]
      case Deadline => Wait(1, None)
      case Message(m) =>
        if Matches(m, criteria) then Wait(1, Some(m))
        else
          var rest := Receive(arrivals[1..], criteria);
          Wait(rest.consumed + 1, rest.found)
  }

  /** The message `send_can_message` hands to the codec: the caller's fields over the
      defaults `board_id = "ANY"` and `time = 0`, with the given message type. */
  function BuildMessage(msgType: string, kwargs: map<string, Value>): (msg: map<string, Value>)
    requires "msg_type" !in kwargs
    ensures msg.Keys == kwargs.Keys + {"msg_type", "board_id", "time"}
    ensures msg["msg_type"] == VStr(msgType)
    ensures msg["board_id"] == if "board_id" in kwargs then kwargs["board_id"] else VStr("ANY")
    ensures msg["time"] == if "time" in kwargs then kwargs["time"] else VInt(0)
    ensures forall k :: k in kwargs ==> msg[k] == kwargs[k]
  {
    map["msg_type" := VStr(msgType), "board_id" := VStr("ANY"), "time" := VInt(0)] + kwargs
  }
}

=== FILE: driver.dfy ===
/** The pin operations of the driver: correlated reads, digital writes and PWM writes,
    over an explicit state (the PWM table and the commands written so far). The reply
    queues are replaced by the sequence of what each blocking `get` returned. */
module Driver {
  import opened Wrappers
  import opened Text
  import opened PyValue
  import opened Topology
  import opened Wire
  import opened Pwm

  /** The driver's mutable state: the PWM table and the serial output written so far. */
  datatype Hilt = Hilt(pwm: PwmTable, sent: seq<string>)

  const Fresh: Hilt := Hilt(EmptyTable, [])

  /** What one `get(timeout=0.5)` on a reply queue produced. */
  datatype QueueItem<T> = Timeout | Reply(sel: string, value: T)

  predicate Answers<T>(item: QueueItem<T>, sel: string) {
    item.Reply? && item.sel == sel
  }

  /** How many `get`s a read made and the value it returned (None: the items ran out). */
  datatype Correlation<T> = Correlation(attempts: nat, value: Option<T>)

  /** The retry loop of a read: every timeout and every reply for another selector leads to
      another request; the first reply for this selector is returned. */
  function Correlate<T>(sel: string, items: seq<QueueItem<T>>): (r: Correlation<T>)
    ensures r.attempts <= |items|
    ensures forall j :: 0 <= j < r.attempts - 1 ==> !Answers(items[j], sel)
    ensures r.value.Some? ==> r.attempts >= 1 && items[r.attempts - 1] == Reply(sel, r.value.value)
    ensures r.value.None? ==> r.attempts == |items| && forall j :: 0 <= j < |items| ==> !Answers(items[j], sel)
  {
    if |items| == 0 then Correlation(0, None)
    else if Answers(items[0], sel) then Correlation(1, Some(items[0].value))
    else
      var rest := Correlate(sel, items[1..]);
      Correlation(rest.attempts + 1, rest.value)
  }

  /** `n` copies of one command. */
  function Repeat(cmd: string, n: nat): (s: seq<string>)
    ensures |s| == n && forall j :: 0 <= j < n ==> s[j] == cmd
  {
    seq(n, _ => cmd)
  }

  /** The result of a read: the new state and the value (None if the replies ran out). */
  datatype Read<T> = Read(hilt: Hilt, value: Option<T>)

  /** `Pin.digital_read`: release the pin's PWM entry, then request until a `G` reply for
      this pin's selector arrives; one `;d<sel>;` is written per `get`. */
  function DigitalRead(h: Hilt, pin: PinId, items: seq<QueueItem<bool>>): (r: Read<bool>)
    ensures r.hilt.pwm == Release(h.pwm, pin)
    ensures var c := Correlate(Selector(pin), items);
      r.value == c.value && r.hilt.sent == h.sent + Repeat(Encode(DigitalReadReq(Selector(pin))), c.attempts)
  {
    var c := Correlate(Selector(pin), items);
    Read(Hilt(Release(h.pwm, pin), h.sent + Repeat(Encode(DigitalReadReq(Selector(pin))), c.attempts)), c.value)
  }

  /** `AnalogPin.analog_read`, up to the conversion of the raw code to volts. */
  function AnalogRead(h: Hilt, pin: PinId, items: seq<QueueItem<int>>): (r: Read<int>)
    ensures r.hilt.pwm == Release(h.pwm, pin)
    ensures var c := Correlate(Selector(pin), items);
      r.value == c.value && r.hilt.sent == h.sent + Repeat(Encode(AnalogReadReq(Selector(pin))), c.attempts)
  {
    var c := Correlate(Selector(pin), items);
    Read(Hilt(Release(h.pwm, pin), h.sent + Repeat(Encode(AnalogReadReq(Selector(pin))), c.attempts)), c.value)
  }

  /** `Pin.digital_write`: release the pin's PWM entry, then write the level by truthiness. */
  function DigitalWrite(h: Hilt, pin: PinId, value: Value): (r: Hilt)
    ensures r.pwm == Release(h.pwm, pin)
    ensures r.sent == h.sent + [";e" + Selector(pin) + (if Truthy(value) then "1" else "0") + ";"]
    ensures IsHiltPin(pin) ==> Decode(r.sent[|h.sent|]) == Some(DigitalWriteReq(Selector(pin), Truthy(value)))
  {
    assert IsHiltPin(pin) ==>
             Decode(Encode(DigitalWriteReq(Selector(pin), Truthy(value)))) == Some(DigitalWriteReq(Selector(pin), Truthy(value))) by {
      if IsHiltPin(pin) {
        SelectorShape(pin);
        DecodeEncode(DigitalWriteReq(Selector(pin), Truthy(value)));
      }
    }
    Hilt(Release(h.pwm, pin), h.sent + [Encode(DigitalWriteReq(Selector(pin), Truthy(value)))])
  }

  /** `int(voltage * 99 // 5)`, with the voltage idealised as a real. */
  function Duty(voltage: real): (r: int)
    ensures r as real <= voltage * 99.0 / 5.0 < r as real + 1.0
  {
    (voltage * 99.0 / 5.0).Floor
  }

  /** Voltages in 0..5 give duties in 0..99. */
  lemma DutyRange(voltage: real)
    requires 0.0 <= voltage <= 5.0
    ensures 0 <= Duty(voltage) <= 99
  {
  }

  /** The duty never decreases as the voltage rises. */
  lemma DutyMonotone(v: real, w: real)
    requires v <= w
    ensures Duty(v) <= Duty(w)
  {
    assert v * 99.0 / 5.0 <= w * 99.0 / 5.0;
  }

  /** The outcome of a PWM write: the new state, the allocation error if any, and whether
      the out-of-range warning was logged. */
  datatype Write = Write(hilt: Hilt, result: Result<nat, PwmError>, warned: bool)

  /** `PPSPin.analog_write`: allocate a channel (the release persists even when the pool is
      exhausted), warn about a voltage outside 0..5 without rejecting it, and write
      `;b<sel><channel><duty:02d>;`. */
  function AnalogWrite(h: Hilt, pin: PinId, voltage: real): (r: Write)
    requires PwmWf(h.pwm)
    ensures var a := Allocate(h.pwm, pin);
      r.hilt.pwm == a.table && r.result == a.channel
    ensures r.result.Err? ==> r.hilt.sent == h.sent && !r.warned
    ensures r.result.Ok? ==>
              r.warned == (voltage < 0.0 || voltage > 5.0)
              && r.hilt.sent == h.sent + [Encode(PwmWriteReq(Selector(pin), r.result.value, Duty(voltage)))]
    ensures PwmWf(r.hilt.pwm)
  {
    var a := Allocate(h.pwm, pin);
    if a.channel.Err? then Write(Hilt(a.table, h.sent), a.channel, false)
    else
      var warned := voltage < 0.0 || voltage > 5.0;
      Write(Hilt(a.table, h.sent + [Encode(PwmWriteReq(Selector(pin), a.channel.value, Duty(voltage)))]), a.channel, warned)
  }

  /** For a voltage in 0..5 the PWM command is eight characters, `;b`, the selector, the
      channel digit, two duty digits and `;`, and it reads back as the intended command. */
  lemma PwmCommandShape(h: Hilt, pin: PinId, voltage: real)
    requires PwmWf(h.pwm) && IsHiltPin(pin) && 0.0 <= voltage <= 5.0
    requires AnalogWrite(h, pin, voltage).result.Ok?
    ensures var r := AnalogWrite(h, pin, voltage);
      var cmd := r.hilt.sent[|r.hilt.sent| - 1];
      |cmd| == 8 && cmd[..2] == ";b" && cmd[2..4] == Selector(pin) && cmd[7] == ';'
      && IsDigits(cmd[4..7])
      && Decode(cmd) == Some(PwmWriteReq(Selector(pin), r.result.value, Duty(voltage)))
  {
    var r := AnalogWrite(h, pin, voltage);
    DutyRange(voltage);
    SelectorShape(pin);
    PwmCommandText(Selector(pin), r.result.value, Duty(voltage));
  }

  lemma PwmCommandText(sel: string, c: nat, d: int)
    requires |sel| == 2 && c < ChannelCount && 0 <= d <= 99
    ensures var cmd := Encode(PwmWriteReq(sel, c, d));
      |cmd| == 8 && cmd[..2] == ";b" && cmd[2..4] == sel && cmd[7] == ';'
      && IsDigits(cmd[4..7])
      && Decode(cmd) == Some(PwmWriteReq(sel, c, d))
  {
    var cmd := Encode(PwmWriteReq(sel, c, d));
    assert cmd == ";b" + sel + IntStr(c) + Pad2(d) + ";";
    assert cmd[4..7] == IntStr(c) + Pad2(d);
    DecodeEncode(PwmWriteReq(sel, c, d));
  }

  /** `send_can_message_raw`: the codec's identifier and payload, written as
      `m<sid:03X>,<bytes as 02X joined by commas>;`. */
  function SendCanRaw(h: Hilt, sid: nat, data: seq<nat>): (r: Hilt)
    requires forall i :: 0 <= i < |data| ==> data[i] < 256
    ensures r.pwm == h.pwm
    ensures |r.sent| == |h.sent| + 1 && r.sent[..|h.sent|] == h.sent
    ensures Decode(r.sent[|h.sent|]) == Some(CanSend(sid, data))
  {
    DecodeEncode(CanSend(sid, data));
    Hilt(h.pwm, h.sent + [Encode(CanSend(sid, data))])
  }

  /** Every pin operation keeps the PWM table invariant. */
  lemma OperationsKeepPwmWf(h: Hilt, pin: PinId, v: Value, bitems: seq<QueueItem<bool>>, aitems: seq<QueueItem<int>>)
    requires PwmWf(h.pwm)
    ensures PwmWf(DigitalRead(h, pin, bitems).hilt.pwm)
    ensures PwmWf(AnalogRead(h, pin, aitems).hilt.pwm)
    ensures PwmWf(DigitalWrite(h, pin, v).pwm)
  {
  }
}

=== FILE: expect.dfy ===
/** The expectation primitives tests call. Each records its outcome under (kind, call-site
    line) before raising on failure; the call-site line is passed in. */
module Expect {
  import opened Wrappers
  import opened PyValue
  import opened Recorder

  /** Exceptions an expectation can raise other than an assertion failure. */
  datatype PyError =
    | ValueError  // a non-zero tolerance with a non-numeric expected value: a usage error
    | TypeError   // `abs(actual - expected) <= tolerance` on operands that are not numbers
    | KeyError    // `record` with no started test

  /** How a call ends: normally, with `AssertionError(message, id)`, or with another exception. */
  datatype Outcome = Passed | AssertionFailure(id: ExpectationId) | Raised(error: PyError)

  /** The recorder afterwards and how the call ended. */
  datatype Checked = Checked(rec: Recorder, outcome: Outcome)

  /** Record the verdict, then raise `AssertionError` if it failed. */
  function Conclude(rec: Recorder, id: ExpectationId, passed: bool, data: AttemptData): (r: Checked)
    ensures Record(rec, id, passed, data).Err? ==> r == Checked(rec, Raised(PyError.KeyError))
    ensures Record(rec, id, passed, data).Ok? ==>
              r.rec == Record(rec, id, passed, data).value
              && (r.outcome == Passed <==> passed)
              && (!passed <==> r.outcome == AssertionFailure(id))
  {
    match Record(rec, id, passed, data)
    case Err(_) => Checked(rec, Raised(PyError.KeyError))
    case Ok(r) => Checked(r, if passed then Passed else AssertionFailure(id))
  }

  /** The numeric verdict `abs(actual - expected) <= tolerance`. */
  predicate WithinTolerance(actual: Value, expected: Value, tolerance: Value)
    requires IsNumber(actual) && IsNumber(expected) && IsNumber(tolerance)
    ensures WithinTolerance(actual, expected, tolerance) <==>
              NumValue(expected) - NumValue(tolerance) <= NumValue(actual) <= NumValue(expected) + NumValue(tolerance)
  {
    var diff := NumValue(actual) - NumValue(expected);
    (if diff < 0.0 then -diff else diff) <= NumValue(tolerance)
  }

  /** `expect.equal(actual, expected, tolerance)` called from source line `line`. */
  function Equal(rec: Recorder, actual: Value, expected: Value, tolerance: Value, line: int): (r: Checked)
    // numbers: the verdict is the tolerance check (operands that are not numbers raise TypeError)
    ensures IsNumber(expected) && !(IsNumber(actual) && IsNumber(tolerance)) ==> r == Checked(rec, Raised(TypeError))
    ensures IsNumber(expected) && IsNumber(actual) && IsNumber(tolerance) ==>
              r == Conclude(rec, ExpectationId("equal", line), WithinTolerance(actual, expected, tolerance),
                            EqualData(actual, expected, tolerance))
    // anything else: a non-zero tolerance is a usage error and records nothing
    ensures !IsNumber(expected) && !PyEq(tolerance, VInt(0)) ==> r == Checked(rec, Raised(ValueError))
    ensures !IsNumber(expected) && PyEq(tolerance, VInt(0)) ==>
              r == Conclude(rec, ExpectationId("equal", line), PyEq(actual, expected), EqualData(actual, expected, tolerance))
  {
    var id := ExpectationId("equal", line);
    if IsNumber(expected) then
      if !IsNumber(actual) || !IsNumber(tolerance) then Checked(rec, Raised(TypeError))
      else Conclude(rec, id, WithinTolerance(actual, expected, tolerance), EqualData(actual, expected, tolerance))
    else if !PyEq(tolerance, VInt(0)) then Checked(rec, Raised(ValueError))
    else Conclude(rec, id, PyEq(actual, expected), EqualData(actual, expected, tolerance))
  }

  function EqualData(actual: Value, expected: Value, tolerance: Value): (r: AttemptData) {
    map["actual" := actual, "expected" := expected, "tolerance" := tolerance]
  }

  /** `expect.non_none(data)` called from source line `line`. */
  function NonNone(rec: Recorder, data: Value, line: int): (r: Checked)
    ensures (forall j :: 0 <= j < |rec.results| ==> rec.results[j].test != rec.current) ==>
              r == Checked(rec, Raised(PyError.KeyError))
    ensures (exists j :: 0 <= j < |rec.results| && rec.results[j].test == rec.current) ==>
              r.rec == Record(rec, ExpectationId("non_none", line), data != VNone, map["data" := data]).value
              && (r.outcome == Passed <==> data != VNone)
              && (r.outcome == AssertionFailure(ExpectationId("non_none", line)) <==> data == VNone)
  {
    Conclude(rec, ExpectationId("non_none", line), data != VNone, map["data" := data])
  }

  /** Every call that is not a usage or type error counts exactly one more check of
      `("equal", line)` in the current test, and raises exactly when that check failed. */
  lemma EqualRecordsOnce(rec: Recorder, actual: Value, expected: Value, tolerance: Value, line: int)
    requires RecorderWf(rec)
    requires exists j :: 0 <= j < |rec.results| && rec.results[j].test == rec.current
    requires IsNumber(expected) ==> IsNumber(actual) && IsNumber(tolerance)
    requires !IsNumber(expected) ==> PyEq(tolerance, VInt(0))
    ensures var r := Equal(rec, actual, expected, tolerance, line);
      var i := FindTest(rec.results, rec.current);
      var id := ExpectationId("equal", line);
      var k := FindExpectation(rec.results[i].expectations, id);
      var k' := FindExpectation(r.rec.results[i].expectations, id);
      && r.outcome != Raised(PyError.KeyError)
      && k' >= 0
      && r.rec.results[i].expectations[k'].checks == (if k >= 0 then rec.results[i].expectations[k].checks else 0) + 1
      && (r.outcome.AssertionFailure? <==>
            r.rec.results[i].expectations[k'].passes == (if k >= 0 then rec.results[i].expectations[k].passes else 0))
  {
    var r := Equal(rec, actual, expected, tolerance, line);
    var i := FindTest(rec.results, rec.current);
    var id := ExpectationId("equal", line);
    var passed := if IsNumber(expected) then WithinTolerance(actual, expected, tolerance) else PyEq(actual, expected);
    var data := EqualData(actual, expected, tolerance);
    assert r == Conclude(rec, id, passed, data);
    RecordCountsOnce(rec.results[i], id, passed, data);
  }

  /** With a zero tolerance of any numeric type, a value compared with itself passes, whether
      it is a number or not. */
  lemma EqualAcceptsItself(rec: Recorder, v: Value, tolerance: Value, line: int)
    requires exists j :: 0 <= j < |rec.results| && rec.results[j].test == rec.current
    requires PyEq(tolerance, VInt(0))
    ensures Equal(rec, v, v, tolerance, line).outcome == Passed
  {
    ZeroTolerance(tolerance);
    PyEqEquivalence(v, v, v);
  }

  /** The scenarios: 5.2 against 5 within 0.3 passes, 5.5 against 5 within 0.3 fails,
      equal strings with no tolerance pass, and unequal strings with a tolerance are a
      usage error that leaves the recorder untouched. */
  lemma EqualScenarios(rec: Recorder)
    ensures WithinTolerance(VReal(5.2), VInt(5), VReal(0.3))
    ensures !WithinTolerance(VReal(5.5), VInt(5), VReal(0.3))
    ensures PyEq(VStr("E_NOMINAL"), VStr("E_NOMINAL"))
    ensures Equal(rec, VStr("A"), VStr("B"), VReal(0.1), 7) == Checked(rec, Raised(ValueError))
  {
  }
}

=== FILE: framer.dfy ===
/** The inbound framer (the reader thread's loop body): it splits the receive buffer at `;`,
    dispatches each frame on its tag letter, and resynchronises by dropping leading
    characters until a tag letter appears. Queues become the returned event list. */
module Framer {
  import opened Wrappers
  import opened Text

  /** What a frame puts on one of the three inbound queues. */
  datatype Inbound =
    | DigitalReply(sel: string, level: bool)
    | AnalogReply(sel: string, code: int)
    | CanFrame(sid: string, payload: string)

  /** Exceptions that escape the loop body and end the reader thread. */
  datatype ReaderFault =
    | EmptyFrame        // `command[0]` on an empty frame: IndexError
    | ShortDigitalFrame // `command[3]` on a `G` frame shorter than four characters: IndexError
    | BadAnalogNumber   // `int(command[3:])` on a non-number: ValueError
    | NoCanSeparator    // `command[1:].split(",", 1)` without a comma cannot be unpacked: ValueError
    | NotAscii          // `.decode('ascii')` on a read holding a byte above 0x7f: UnicodeDecodeError

  /** A dispatched frame: the event it enqueues (if any) and whether an error line was logged. */
  datatype Dispatch = Dispatch(event: Option<Inbound>, logged: bool)

  predicate IsTag(c: char) {
    c == 'G' || c == 'N' || c == 'M'
  }

  /** Routes one frame (the text before a `;`) by its first character. */
  function DispatchFrame(command: string): (r: Result<Dispatch, ReaderFault>)
  {
    if |command| == 0 then Err(EmptyFrame)
    else if command[0] == 'G' then
      var logged := |command| != 4 || (command[3] != '0' && command[3] != '1');
      if |command| < 4 then Err(ShortDigitalFrame)
      else Ok(Dispatch(Some(DigitalReply(Slice(command, 1, 3), command[3] == '1')), logged))
    else if command[0] == 'N' then
      var tail := Slice(command, 3, |command|);
      var logged := |command| != 8 || !IsDigits(tail);
      match ParseInt(tail)
      case None => Err(BadAnalogNumber)
      case Some(code) => Ok(Dispatch(Some(AnalogReply(Slice(command, 1, 3), code)), logged))
    else if command[0] == 'M' then
      var rest := command[1..];
      var k := FindChar(rest, ',');
      if k < 0 then Err(NoCanSeparator)
      else Ok(Dispatch(Some(CanFrame(rest[..k], rest[k + 1..])), false))
    else Ok(Dispatch(None, false))
  }

  /** How frames are routed: the tag picks the queue, only `G` and `N` frames can log, only
      the empty frame raises `EmptyFrame`, a tagged frame that does not raise is queued, and
      a frame with any other first character is dropped silently. */
  lemma DispatchFrameRoutes(command: string)
    ensures DispatchFrame(command) == Err(EmptyFrame) <==> |command| == 0
    ensures |command| > 0 && !IsTag(command[0]) ==> DispatchFrame(command) == Ok(Dispatch(None, false))
    ensures var r := DispatchFrame(command);
      r.Ok? && r.value.event.Some? ==>
        && |command| > 0
        && (r.value.event.value.DigitalReply? <==> command[0] == 'G')
        && (r.value.event.value.AnalogReply? <==> command[0] == 'N')
        && (r.value.event.value.CanFrame? <==> command[0] == 'M')
    ensures var r := DispatchFrame(command);
      r.Ok? && r.value.logged ==> |command| > 0 && (command[0] == 'G' || command[0] == 'N')
    ensures var r := DispatchFrame(command);
      r.Ok? && |command| > 0 && IsTag(command[0]) ==> r.value.event.Some?
  {
  }

  /** Whether handling a frame prints an error line. The checks on `G` and `N` frames run
      before the reply is taken apart, so a frame that then raises has printed its line. */
  predicate PrintsError(command: string)
    ensures PrintsError(command) ==> |command| > 0 && (command[0] == 'G' || command[0] == 'N')
  {
    if |command| == 0 then false
    else if command[0] == 'G' then |command| != 4 || (command[3] != '0' && command[3] != '1')
    else if command[0] == 'N' then |command| != 8 || !IsDigits(Slice(command, 3, |command|))
    else false
  }

  function ErrorLines(command: string): (r: nat) {
    if PrintsError(command) then 1 else 0
  }

  /** The error line goes with the frame, whether it dispatches or raises: a frame that is
      queued logs exactly when the check prints, and of the raising frames exactly the short
      `G` frames and the `N` frames whose tail is no integer have printed a line. */
  lemma PrintsErrorMatchesDispatch(command: string)
    ensures DispatchFrame(command).Ok? ==> (DispatchFrame(command).value.logged <==> PrintsError(command))
    ensures DispatchFrame(command).Err? ==>
              (PrintsError(command) <==> DispatchFrame(command).error in {ShortDigitalFrame, BadAnalogNumber})
  {
    if |command| > 0 && command[0] == 'N' {
      var tail := Slice(command, 3, |command|);
      if IsDigits(tail) {
        assert ParseInt(tail).Some?;
      }
    }
  }

  /** The digital reply frame the board sends for a selector and a level, without its `;`. */
  function DigitalFrame(sel: string, level: bool): (r: string) {
    "G" + sel + (if level then "1" else "0")
  }

  /** A well-formed digital reply is queued as the selector and level it carries, and
      nothing is logged. */
  lemma DigitalFrameIsRead(sel: string, level: bool)
    requires |sel| == 2
    ensures DispatchFrame(DigitalFrame(sel, level)) == Ok(Dispatch(Some(DigitalReply(sel, level)), false))
  {
    var c := DigitalFrame(sel, level);
    assert c[1..3] == sel;
  }

  /** Conversely, a `G` frame that logs nothing is the well-formed frame of the reply it
      queues; every other `G` frame that is queued logs an error line. */
  lemma UnloggedDigitalFrameIsWellFormed(c: string)
    requires |c| > 0 && c[0] == 'G'
    requires DispatchFrame(c).Ok? && !DispatchFrame(c).value.logged
    ensures var e := DispatchFrame(c).value.event;
      e.Some? && e.value.DigitalReply? && |e.value.sel| == 2 && c == DigitalFrame(e.value.sel, e.value.level)
  {
    assert Slice(c, 1, 3) == c[1..3];
    assert |c| == 4 && DispatchFrame(c).value.event == Some(DigitalReply(c[1..3], c[3] == '1'));
    if c[3] == '1' {
      assert c == "G" + c[1..3] + "1";
    } else {
      assert c == "G" + c[1..3] + "0";
    }
  }

  /** A well-formed analog reply (a selector and five digits) is queued as the selector and
      the digits' value, and nothing is logged. */
  lemma AnalogFrameIsRead(sel: string, digits: string)
    requires |sel| == 2 && |digits| == 5 && IsDigits(digits)
    ensures DispatchFrame("N" + sel + digits) == Ok(Dispatch(Some(AnalogReply(sel, DigitsValue(digits))), false))
  {
    var c := "N" + sel + digits;
    assert c[0] == 'N' && |c| == 8;
    assert Slice(c, 1, 3) == sel;
    assert Slice(c, 3, |c|) == digits;
  }

  /** Conversely, an `N` frame that logs nothing is a selector followed by five digits whose
      value is the reading it queues. */
  lemma UnloggedAnalogFrameIsWellFormed(c: string)
    requires |c| > 0 && c[0] == 'N'
    requires DispatchFrame(c).Ok? && !DispatchFrame(c).value.logged
    ensures var e := DispatchFrame(c).value.event;
      && e.Some? && e.value.AnalogReply? && |e.value.sel| == 2
      && |c| == 8 && IsDigits(c[3..]) && c == "N" + e.value.sel + c[3..] && e.value.code == DigitsValue(c[3..])
  {
    assert |c| == 8 && Slice(c, 3, |c|) == c[3..];
    assert c == "N" + c[1..3] + c[3..];
  }

  /** A CAN frame is split at its first comma into the board id and the payload, which may
      itself hold commas, and nothing is logged. */
  lemma CanFrameIsRead(sid: string, payload: string)
    requires forall j :: 0 <= j < |sid| ==> sid[j] != ','
    ensures DispatchFrame("M" + sid + "," + payload) == Ok(Dispatch(Some(CanFrame(sid, payload)), false))
  {
    var c := "M" + sid + "," + payload;
    var rest := c[1..];
    assert rest == sid + "," + payload;
    assert rest[|sid|] == ',';
    assert FindChar(rest, ',') == |sid|;
    assert rest[..|sid|] == sid && rest[|sid| + 1..] == payload;
  }

  /** A CAN frame without a comma cannot be unpacked and stops the reader; an `M` frame that
      is queued always had one. */
  lemma CanFrameNeedsComma(c: string)
    requires |c| > 0 && c[0] == 'M'
    ensures DispatchFrame(c).Err? <==> forall j :: 1 <= j < |c| ==> c[j] != ','
  {
    var rest := c[1..];
    assert forall j :: 0 <= j < |rest| ==> rest[j] == c[j + 1];
    if FindChar(rest, ',') < 0 {
      assert forall j :: 1 <= j < |c| ==> c[j] == rest[j - 1];
    } else {
      var k := FindChar(rest, ',');
      assert c[k + 1] == ',';
    }
  }

  /** Drops leading characters until the buffer is empty or starts with a tag letter. */
  function Resync(s: string): (r: string)
    ensures |r| <= |s|
    ensures |r| == 0 || IsTag(r[0])
    ensures forall j :: 0 <= j < |s| - |r| ==> !IsTag(s[j])
  {
    if |s| == 0 || IsTag(s[0]) then s else Resync(s[1..])
  }

  /** Resynchronisation only drops characters from the front. */
  lemma {:induction false} ResyncIsSuffix(s: string)
    ensures Resync(s) == s[|s| - |Resync(s)|..]
    decreases |s|
  {
    if |s| > 0 && !IsTag(s[0]) {
      ResyncIsSuffix(s[1..]);
      assert s[1..][|s| - 1 - |Resync(s)|..] == s[|s| - |Resync(s)|..];
    }
  }

  /** The result of one turn of the inner loop. */
  datatype Step =
    | Waiting                                                  // no `;` in the buffer: break out, read more
    | Framed(frame: string, dispatch: Dispatch, rest: string)
    | Stopped(frame: string, fault: ReaderFault, rest: string) // the reader thread died on this frame

  /** Splits at the first `;`: the frame before it and the text after it. */
  function SplitFrame(buf: string): (r: Option<(string, string)>)
    ensures FindChar(buf, ';') < 0 <==> r.None?
    ensures r.Some? ==>
              var end := FindChar(buf, ';');
              0 <= end < |buf| && r.value.0 == buf[..end] && r.value.1 == buf[end + 1..]
              && (forall j :: 0 <= j < |r.value.0| ==> r.value.0[j] != ';')
  {
    var end := FindChar(buf, ';');
    if end < 0 then None else Some((buf[..end], buf[end + 1..]))
  }

  /** One turn: split at the first `;`, dispatch the frame, resynchronise what follows. */
  function StepBuffer(buf: string): (r: Step)
    ensures SplitFrame(buf).None? <==> r.Waiting?
    ensures !r.Waiting? ==> r.frame == SplitFrame(buf).value.0
    ensures r.Stopped? <==> SplitFrame(buf).Some? && DispatchFrame(SplitFrame(buf).value.0).Err?
    ensures r.Framed? ==> DispatchFrame(r.frame) == Ok(r.dispatch)
    ensures r.Stopped? ==> DispatchFrame(r.frame) == Err(r.fault) && r.rest == SplitFrame(buf).value.1
    ensures r.Framed? ==>
              r.rest == Resync(SplitFrame(buf).value.1) && |r.rest| < |buf|
  {
    var split := SplitFrame(buf);
    if split.None? then Waiting
    else
      var command := split.value.0;
      var after := split.value.1;
      var dispatch := DispatchFrame(command);
      if dispatch.Err? then Stopped(command, dispatch.error, after)
      else
        Framed(command, dispatch.value, Resync(after))
  }

  /** What the reader has done so far: the events it queued in order, the error lines it
      logged, the buffer it holds, and the exception that ended it, if one did. */
  datatype Drained = Drained(events: seq<Inbound>, logs: nat, rest: string, fault: Option<ReaderFault>)

  /** The inner loop: handle frames until no `;` is left or a frame raises. What was queued
      before the raising frame stays queued. */
  function Drain(buf: string): (r: Drained)
    ensures r.fault.None? ==> forall j :: 0 <= j < |r.rest| ==> r.rest[j] != ';'
    ensures SplitFrame(buf).None? ==> r == Drained([], 0, buf, None)
    decreases |buf|
  {
    var step := StepBuffer(buf);
    if step.Waiting? then Drained([], 0, buf, None)
    else if step.Stopped? then Drained([], ErrorLines(step.frame), step.rest, Some(step.fault))
    else
      var tail := Drain(step.rest);
      var d := step.dispatch;
      Drained(Queued(d) + tail.events, Logged(d) + tail.logs, tail.rest, tail.fault)
  }

  /** The events one dispatched frame puts on the queues. */
  function Queued(d: Dispatch): (r: seq<Inbound>) {
    if d.event.Some? then [d.event.value] else []
  }

  function Logged(d: Dispatch): (r: nat) {
    if d.logged then 1 else 0
  }

  /** A read the ASCII codec accepts: no character above 0x7f. */
  predicate IsAscii(s: string) {
    forall j :: 0 <= j < |s| ==> s[j] as int < 0x80
  }

  predicate AllAscii(chunks: seq<string>) {
    forall i :: 0 <= i < |chunks| ==> IsAscii(chunks[i])
  }

  /** The reader thread over a sequence of `read` results: every event queued in arrival
      order, including those queued before the exception that stopped the thread. A read
      that does not decode as ASCII raises before it is added to the buffer. */
  function Reader(buf: string, chunks: seq<string>): (r: Drained)
    ensures r.fault.None? ==> forall j :: 0 <= j < |r.rest| ==> r.rest[j] != ';'
    ensures |chunks| == 0 ==> r == Drain(buf)
    decreases |chunks|
  {
    if |chunks| == 0 then Drain(buf)
    else if !IsAscii(chunks[0]) then Drained([], 0, buf, Some(NotAscii))
    else
      var d := Drain(buf + chunks[0]);
      if d.fault.Some? then d
      else
        var t := Reader(d.rest, chunks[1..]);
        Drained(d.events + t.events, d.logs + t.logs, t.rest, t.fault)
  }

  // ----- A reference reading: cut the frames first, then dispatch them one by one -----

  /** The frames the inner loop cuts from a buffer, in order and whatever they say, and the
      text left once no `;` remains. */
  function Frames(buf: string): (r: (seq<string>, string))
    ensures forall j :: 0 <= j < |r.1| ==> r.1[j] != ';'
    decreases |buf|
  {
    match SplitFrame(buf)
    case None => ([], buf)
    case Some((frame, after)) =>
      var t := Frames(Resync(after));
      ([frame] + t.0, t.1)
  }

  /** The frames cut from successive reads: each read's frames, then the next read's,
      starting from what the previous read left, up to the first read that is not ASCII. */
  function ReadFrames(buf: string, chunks: seq<string>): (r: seq<string>)
    decreases |chunks|
  {
    if |chunks| == 0 then Frames(buf).0
    else if !IsAscii(chunks[0]) then []
    else
      var f := Frames(buf + chunks[0]);
      f.0 + ReadFrames(f.1, chunks[1..])
  }

  /** What the reference reading makes of one frame: its dispatch and the error lines its
      checks print. */
  datatype Outcome = Outcome(dispatch: Result<Dispatch, ReaderFault>, lines: nat)

  function OutcomeOf(frame: string): (r: Outcome) {
    Outcome(DispatchFrame(frame), ErrorLines(frame))
  }

  /** The outcome of every frame, frame by frame. */
  function Outcomes(frames: seq<string>): (r: seq<Outcome>)
    ensures |r| == |frames|
  {
    if |frames| == 0 then [] else [OutcomeOf(frames[0])] + Outcomes(frames[1..])
  }

  /** Outcomes are taken frame by frame, so they distribute over concatenation. */
  lemma {:induction false} OutcomesAppend(a: seq<string>, b: seq<string>)
    ensures Outcomes(a + b) == Outcomes(a) + Outcomes(b)
    decreases |a|
  {
    if |a| == 0 {
      assert a + b == b;
    } else {
      assert (a + b)[1..] == a[1..] + b;
      OutcomesAppend(a[1..], b);
    }
  }

  /** The outcome at a position is that of the frame at that position. */
  lemma {:induction false} OutcomeAt(frames: seq<string>, j: nat)
    requires j < |frames|
    ensures Outcomes(frames)[j] == OutcomeOf(frames[j])
    decreases j
  {
    if j > 0 {
      OutcomeAt(frames[1..], j - 1);
    }
  }

  /** The position of the first outcome that raises, or the number of outcomes. */
  function FirstFault(os: seq<Outcome>): (k: nat)
    ensures k <= |os|
    ensures forall j :: 0 <= j < k ==> os[j].dispatch.Ok?
    ensures k < |os| ==> os[k].dispatch.Err?
  {
    if |os| == 0 || os[0].dispatch.Err? then 0
    else 1 + FirstFault(os[1..])
  }

  /** The events of outcomes that all dispatch: each one's in turn. */
  function Events(os: seq<Outcome>): (r: seq<Inbound>)
    requires forall j :: 0 <= j < |os| ==> os[j].dispatch.Ok?
  {
    if |os| == 0 then []
    else Events(os[..|os| - 1]) + Queued(os[|os| - 1].dispatch.value)
  }

  /** The error lines outcomes that all dispatch log. */
  function Logs(os: seq<Outcome>): (r: nat)
    requires forall j :: 0 <= j < |os| ==> os[j].dispatch.Ok?
  {
    if |os| == 0 then 0
    else Logs(os[..|os| - 1]) + Logged(os[|os| - 1].dispatch.value)
  }

  /** Events and log lines of consecutive runs of frames add up. */
  lemma {:induction false} EventsAppend(a: seq<Outcome>, b: seq<Outcome>)
    requires forall j :: 0 <= j < |a| ==> a[j].dispatch.Ok?
    requires forall j :: 0 <= j < |b| ==> b[j].dispatch.Ok?
    ensures forall j :: 0 <= j < |a + b| ==> (a + b)[j].dispatch.Ok?
    ensures Events(a + b) == Events(a) + Events(b)
    ensures Logs(a + b) == Logs(a) + Logs(b)
    decreases |b|
  {
    if |b| > 0 {
      var b' := b[..|b| - 1];
      assert (a + b)[..|a + b| - 1] == a + b';
      assert (a + b)[|a + b| - 1] == b[|b| - 1];
      EventsAppend(a, b');
    } else {
      assert a + b == a;
    }
  }

  /** The first raising outcome is determined by the two properties `FirstFault` promises. */
  lemma FirstFaultIsLeast(os: seq<Outcome>, k: nat)
    requires k <= |os|
    requires forall j :: 0 <= j < k ==> os[j].dispatch.Ok?
    requires k < |os| ==> os[k].dispatch.Err?
    ensures FirstFault(os) == k
  {
  }

  /** The first raising frame of two runs is in the first run if it has one. */
  lemma FirstFaultAppend(a: seq<Outcome>, b: seq<Outcome>)
    ensures FirstFault(a + b) ==
              if FirstFault(a) < |a| then FirstFault(a) else |a| + FirstFault(b)
  {
    var ka := FirstFault(a);
    var ab := a + b;
    if ka < |a| {
      assert ab[ka] == a[ka];
      assert forall j :: 0 <= j < ka ==> ab[j] == a[j];
      FirstFaultIsLeast(ab, ka);
    } else {
      var kb := FirstFault(b);
      assert forall j :: 0 <= j < |a| ==> ab[j] == a[j];
      assert forall j :: 0 <= j < kb ==> ab[|a| + j] == b[j];
      assert |a| + kb < |ab| ==> ab[|a| + kb] == b[kb];
      FirstFaultIsLeast(ab, |a| + kb);
    }
  }

  /** The reference reading of a run of outcomes: the events and log lines of those before
      the first raising one, in order, then that one's own error lines and exception; when
      none raises, the reading ends with `end`. */
  predicate Follows(d: Drained, os: seq<Outcome>, end: Option<ReaderFault>) {
    var k := FirstFault(os);
    && d.events == Events(os[..k])
    && d.logs == Logs(os[..k]) + (if k < |os| then os[k].lines else 0)
    && (k < |os| ==> d.fault == Some(os[k].dispatch.error))
    && (k == |os| ==> d.fault == end)
  }

  /** What the reader did is the reference reading of `frames`. */
  predicate FollowsFrames(d: Drained, frames: seq<string>, end: Option<ReaderFault>) {
    Follows(d, Outcomes(frames), end)
  }

  /** An outcome that dispatches, in front of outcomes already read. */
  lemma FollowsPrepend(o: Outcome, x: Dispatch, t: Drained, os: seq<Outcome>, end: Option<ReaderFault>)
    requires o.dispatch == Ok(x) && Follows(t, os, end)
    ensures Follows(Drained(Queued(x) + t.events, Logged(x) + t.logs, t.rest, t.fault), [o] + os, end)
  {
    var k := FirstFault(os);
    FirstFaultAppend([o], os);
    assert ([o] + os)[..1 + k] == [o] + os[..k];
    EventsAppend([o], os[..k]);
    assert [o][..0] == [];
    if k < |os| {
      assert ([o] + os)[1 + k] == os[k];
    }
  }

  /** A read that raised: outcomes of later reads make no difference. */
  lemma FollowsAppendFault(d: Drained, a: seq<Outcome>, b: seq<Outcome>, end: Option<ReaderFault>)
    requires Follows(d, a, None) && d.fault.Some?
    ensures Follows(d, a + b, end)
  {
    FirstFaultAppend(a, b);
    var ka := FirstFault(a);
    assert (a + b)[..ka] == a[..ka];
    assert (a + b)[ka] == a[ka];
  }

  /** A read that did not raise, followed by the next read's result. */
  lemma FollowsAppendClean(d: Drained, a: seq<Outcome>, t: Drained, b: seq<Outcome>, end: Option<ReaderFault>)
    requires Follows(d, a, None) && d.fault.None? && Follows(t, b, end)
    ensures Follows(Drained(d.events + t.events, d.logs + t.logs, t.rest, t.fault), a + b, end)
  {
    FirstFaultAppend(a, b);
    var ab := a + b;
    var kb := FirstFault(b);
    assert FirstFault(a) == |a| && a[..|a|] == a;
    assert ab[..|a| + kb] == a + b[..kb];
    EventsAppend(a, b[..kb]);
    if |a| + kb < |ab| {
      assert ab[|a| + kb] == b[kb];
    }
  }

  /** A buffer with a frame: its frames are that frame and the frames of the rest. */
  lemma FramesStep(buf: string)
    requires SplitFrame(buf).Some?
    ensures Frames(buf).0 == [SplitFrame(buf).value.0] + Frames(Resync(SplitFrame(buf).value.1)).0
    ensures Frames(buf).1 == Frames(Resync(SplitFrame(buf).value.1)).1
  {
  }

  /** The inner loop is the reference reading of its buffer; when no frame raises it keeps
      exactly the text after the last frame. */
  lemma {:induction false} DrainFollowsFrames(buf: string)
    ensures FollowsFrames(Drain(buf), Frames(buf).0, None)
    ensures Drain(buf).fault.None? ==> Drain(buf).rest == Frames(buf).1
    decreases |buf|
  {
    var s := StepBuffer(buf);
    if s.Waiting? {
      assert Frames(buf) == ([], buf);
    } else if s.Stopped? {
      StoppedFollowsFrames(buf);
    } else {
      DrainFollowsFrames(s.rest);
      FramedFollowsFrames(buf);
    }
  }

  /** The base case of `DrainFollowsFrames`: the first frame raises. */
  lemma StoppedFollowsFrames(buf: string)
    requires StepBuffer(buf).Stopped?
    ensures FollowsFrames(Drain(buf), Frames(buf).0, None)
  {
    var s := StepBuffer(buf);
    FramesStep(buf);
    var fs := Frames(buf).0;
    assert Drain(buf) == Drained([], ErrorLines(s.frame), s.rest, Some(s.fault));
    assert fs[0] == s.frame;
    OutcomeAt(fs, 0);
    var os := Outcomes(fs);
    assert FirstFault(os) == 0;
    assert os[..0] == [];
  }

  /** The step of `DrainFollowsFrames`: a first frame that dispatches goes in front. */
  lemma FramedFollowsFrames(buf: string)
    requires StepBuffer(buf).Framed?
    requires FollowsFrames(Drain(StepBuffer(buf).rest), Frames(StepBuffer(buf).rest).0, None)
    requires Drain(StepBuffer(buf).rest).fault.None? ==>
               Drain(StepBuffer(buf).rest).rest == Frames(StepBuffer(buf).rest).1
    ensures FollowsFrames(Drain(buf), Frames(buf).0, None)
    ensures Drain(buf).fault.None? ==> Drain(buf).rest == Frames(buf).1
  {
    var s := StepBuffer(buf);
    FramesStep(buf);
    DrainFramed(buf);
    OutcomesAppend([s.frame], Frames(s.rest).0);
    assert Outcomes([s.frame]) == [OutcomeOf(s.frame)];
    FollowsPrepend(OutcomeOf(s.frame), s.dispatch, Drain(s.rest), Outcomes(Frames(s.rest).0), None);
  }

  /** Over successive reads the reader is the reference reading of all the frames the reads
      deliver. */
  lemma {:induction false} ReaderFollowsFrames(buf: string, chunks: seq<string>)
    ensures FollowsFrames(Reader(buf, chunks), ReadFrames(buf, chunks),
                          if AllAscii(chunks) then None else Some(NotAscii))
    decreases |chunks|
  {
    if |chunks| == 0 {
      DrainFollowsFrames(buf);
    } else if !IsAscii(chunks[0]) {
      assert !AllAscii(chunks);
      assert ReadFrames(buf, chunks) == [];
      assert Reader(buf, chunks) == Drained([], 0, buf, Some(NotAscii));
    } else {
      var f := Frames(buf + chunks[0]);
      var d := Drain(buf + chunks[0]);
      var end := if AllAscii(chunks[1..]) then None else Some(NotAscii);
      assert AllAscii(chunks) <==> AllAscii(chunks[1..]) by {
        assert forall i :: 1 <= i < |chunks| ==> chunks[i] == chunks[1..][i - 1];
      }
      DrainFollowsFrames(buf + chunks[0]);
      ReaderFollowsFrames(f.1, chunks[1..]);
      var later := ReadFrames(f.1, chunks[1..]);
      OutcomesAppend(f.0, later);
      if d.fault.Some? {
        FollowsAppendFault(d, Outcomes(f.0), Outcomes(later), end);
      } else {
        FollowsAppendClean(d, Outcomes(f.0), Reader(f.1, chunks[1..]), Outcomes(later), end);
      }
    }
  }

  /** After every frame the buffer is empty or starts with a tag letter. */
  lemma {:induction false} DrainRestStartsWithTag(buf: string)
    requires FindChar(buf, ';') >= 0
    requires Drain(buf).fault.None?
    ensures var rest := Drain(buf).rest; |rest| == 0 || IsTag(rest[0])
    decreases |buf|
  {
    match StepBuffer(buf)
    case Framed(_, d, rest) =>
      if FindChar(rest, ';') >= 0 {
        DrainRestStartsWithTag(rest);
      }
  }

  /** Splitting a frame that has no `;` in it off the front of a buffer. */
  lemma SplitAt(frame: string, after: string)
    requires forall j :: 0 <= j < |frame| ==> frame[j] != ';'
    ensures SplitFrame(frame + ";" + after) == Some((frame, after))
  {
    var buf := frame + ";" + after;
    assert buf[|frame|] == ';';
    assert forall j :: 0 <= j < |frame| ==> buf[j] == frame[j];
    assert buf[..|frame|] == frame;
    assert buf[|frame| + 1..] == after;
  }

  /** One turn on a buffer holding a complete frame. */
  lemma StepAt(frame: string, after: string)
    requires forall j :: 0 <= j < |frame| ==> frame[j] != ';'
    requires DispatchFrame(frame).Ok?
    ensures StepBuffer(frame + ";" + after) == Framed(frame, DispatchFrame(frame).value, Resync(after))
  {
    SplitAt(frame, after);
  }

  /** Resynchronisation drops exactly the untagged characters in front of the first tag. */
  lemma {:induction false} ResyncDropsUntaggedPrefix(g: string, t: string)
    requires forall j :: 0 <= j < |g| ==> !IsTag(g[j])
    requires |t| == 0 || IsTag(t[0])
    ensures Resync(g + t) == t
    decreases |g|
  {
    if |g| > 0 {
      assert (g + t)[1..] == g[1..] + t;
      ResyncDropsUntaggedPrefix(g[1..], t);
    } else {
      assert g + t == t;
    }
  }

  /** Resynchronisation is driven by tags, not by terminators: garbage in front of a
      frame travels with it into one frame whose tag is the garbage, so nothing is queued
      and the buffer is left empty. */
  lemma GarbageBeforeFrameIsNotSkipped()
    ensures StepBuffer("xyzG010;") == Framed("xyzG010", Dispatch(None, false), "")
  {
    var frame := "xyzG010";
    assert frame[0] == 'x';
    DispatchFrameRoutes(frame);
    StepAt(frame, "");
    assert frame + ";" + "" == "xyzG010;";
  }

  /** Once a frame has ended, untagged garbage after it is dropped up to the next tag letter ... */
  lemma GarbageAfterFrameIsSkipped(frame: string, garbage: string, next: string)
    requires forall j :: 0 <= j < |frame| ==> frame[j] != ';'
    requires DispatchFrame(frame).Ok?
    requires forall j :: 0 <= j < |garbage| ==> !IsTag(garbage[j])
    requires |next| == 0 || IsTag(next[0])
    ensures StepBuffer(frame + ";" + (garbage + next)) == Framed(frame, DispatchFrame(frame).value, next)
  {
    StepAt(frame, garbage + next);
    ResyncDropsUntaggedPrefix(garbage, next);
  }

  /** ... and the frame found there is read. */
  lemma ResyncedFrameIsRead()
    ensures StepBuffer("G010;") == Framed("G010", Dispatch(Some(DigitalReply("01", false)), false), "")
  {
    SplitAt("G010", "");
    assert "G010" + ";" + "" == "G010;";
    DigitalFrameIsRead("01", false);
    assert DigitalFrame("01", false) == "G010";
  }

  /** A stray terminator at the front of a fresh buffer stops the reader. */
  lemma LeadingTerminatorStopsReader()
    ensures Drain(";G011;") == Drained([], 0, "G011;", Some(EmptyFrame))
  {
    SplitAt("", "G011;");
    assert "" + ";" + "G011;" == ";G011;";
    assert StepBuffer(";G011;") == Stopped("", EmptyFrame, "G011;");
    assert ErrorLines("") == 0;
  }

  /** One turn of the inner loop on a buffer whose first frame dispatches. */
  lemma DrainFramed(buf: string)
    requires StepBuffer(buf).Framed?
    ensures var s := StepBuffer(buf); var t := Drain(s.rest);
      Drain(buf) == Drained(Queued(s.dispatch) + t.events, Logged(s.dispatch) + t.logs, t.rest, t.fault)
  {
  }

  /** One read that leaves the reader running, followed by the later reads. */
  lemma ReaderCons(buf: string, chunk: string, more: seq<string>)
    requires IsAscii(chunk) && Drain(buf + chunk).fault.None?
    ensures var d := Drain(buf + chunk); var t := Reader(d.rest, more);
      Reader(buf, [chunk] + more) == Drained(d.events + t.events, d.logs + t.logs, t.rest, t.fault)
  {
    assert ([chunk] + more)[0] == chunk;
    assert ([chunk] + more)[1..] == more;
  }

  /** A read that is not ASCII ends the thread: the buffer is left as it was, nothing more is
      queued and no later read is taken. */
  lemma DecodeFaultStopsReader(buf: string, chunk: string, more: seq<string>)
    requires !IsAscii(chunk)
    ensures Reader(buf, [chunk] + more) == Drained([], 0, buf, Some(NotAscii))
  {
    assert ([chunk] + more)[0] == chunk;
  }

  /** Concatenated text is ASCII exactly when both parts are. */
  lemma AsciiAppend(a: string, b: string)
    ensures IsAscii(a + b) <==> IsAscii(a) && IsAscii(b)
  {
    if IsAscii(a + b) {
      assert forall j :: 0 <= j < |a| ==> a[j] == (a + b)[j];
      assert forall j :: 0 <= j < |b| ==> b[j] == (a + b)[|a| + j];
    }
  }

  /** The inner loop on a buffer that starts with a complete frame that dispatches. */
  lemma DrainAt(buf: string, frame: string, after: string)
    requires forall j :: 0 <= j < |frame| ==> frame[j] != ';'
    requires DispatchFrame(frame).Ok? && buf == frame + ";" + after
    ensures var x := DispatchFrame(frame).value; var t := Drain(Resync(after));
      Drain(buf) == Drained(Queued(x) + t.events, Logged(x) + t.logs, t.rest, t.fault)
  {
    StepAt(frame, after);
    DrainFramed(buf);
  }

  /** The inner loop on a buffer that starts with a complete frame that raises. */
  lemma DrainStopsAt(buf: string, frame: string, after: string)
    requires forall j :: 0 <= j < |frame| ==> frame[j] != ';'
    requires DispatchFrame(frame).Err? && buf == frame + ";" + after
    ensures Drain(buf) == Drained([], ErrorLines(frame), after, Some(DispatchFrame(frame).error))
  {
    SplitAt(frame, after);
  }

  /** One complete frame that dispatches, alone in the buffer. */
  lemma DrainOneFrame(buf: string, frame: string)
    requires forall j :: 0 <= j < |frame| ==> frame[j] != ';'
    requires DispatchFrame(frame).Ok? && buf == frame + ";"
    ensures var x := DispatchFrame(frame).value;
      Drain(buf) == Drained(Queued(x), Logged(x), "", None)
  {
    var x := DispatchFrame(frame).value;
    assert frame + ";" + "" == buf;
    DrainAt(buf, frame, "");
    var t := Drain(Resync(""));
    assert t == Drained([], 0, "", None) by {
      assert Resync("") == "";
      assert FindChar("", ';') < 0;
    }
    assert Queued(x) + t.events == Queued(x);
  }

  /** A frame that dispatches followed by one that raises: the first frame's events stay. */
  lemma DrainFrameThenFault(frame: string, bad: string)
    requires forall j :: 0 <= j < |frame| ==> frame[j] != ';'
    requires forall j :: 0 <= j < |bad| ==> bad[j] != ';'
    requires DispatchFrame(frame).Ok? && DispatchFrame(bad).Err?
    requires |bad| > 0 && IsTag(bad[0])
    ensures var x := DispatchFrame(frame).value;
      Drain(frame + ";" + (bad + ";")) ==
        Drained(Queued(x), Logged(x) + ErrorLines(bad), "", Some(DispatchFrame(bad).error))
  {
    var after := bad + ";";
    assert after[0] == bad[0];
    DrainTaggedAt(frame, after);
    assert bad + ";" + "" == after;
    DrainStopsAt(after, bad, "");
    assert Queued(DispatchFrame(frame).value) + [] == Queued(DispatchFrame(frame).value);
  }

  /** A frame that dispatches followed by text that starts with a tag: nothing is dropped. */
  lemma DrainTaggedAt(frame: string, after: string)
    requires forall j :: 0 <= j < |frame| ==> frame[j] != ';'
    requires DispatchFrame(frame).Ok?
    requires |after| > 0 && IsTag(after[0])
    ensures var x := DispatchFrame(frame).value; var t := Drain(after);
      Drain(frame + ";" + after) == Drained(Queued(x) + t.events, Logged(x) + t.logs, t.rest, t.fault)
  {
    assert Resync(after) == after;
    DrainAt(frame + ";" + after, frame, after);
  }

  /** A raising frame does not take back what earlier frames queued: the digital reply before
      the short `G0` frame stays queued, and the `G0` frame's error line is printed before it
      raises. */
  lemma FaultKeepsEarlierEvents()
    ensures Drain("G010;G0;") == Drained([DigitalReply("01", false)], 1, "", Some(ShortDigitalFrame))
  {
    var g, bad := "G010", "G0";
    DigitalFrameIsRead("01", false);
    assert DigitalFrame("01", false) == g;
    assert DispatchFrame(bad) == Err(ShortDigitalFrame);
    assert ErrorLines(bad) == 1;
    assert "G010;G0;" == g + ";" + (bad + ";");
    DrainFrameThenFault(g, bad);
  }

  /** Two reads: a frame that dispatches in the first, and a frame that dispatches right at
      the start of the second. */
  lemma ReadTwoFrames(f1: string, f2: string)
    requires forall j :: 0 <= j < |f1| ==> f1[j] != ';'
    requires forall j :: 0 <= j < |f2| ==> f2[j] != ';'
    requires IsAscii(f1) && IsAscii(f2)
    requires DispatchFrame(f1).Ok? && DispatchFrame(f2).Ok?
    ensures Reader("", [f1 + ";", f2 + ";"]).events ==
              Queued(DispatchFrame(f1).value) + Queued(DispatchFrame(f2).value)
  {
    var c1, c2 := f1 + ";", f2 + ";";
    AsciiAppend(f1, ";");
    AsciiAppend(f2, ";");
    assert "" + c1 == c1 && "" + c2 == c2;
    DrainOneFrame(c1, f1);
    ReaderTwoChunks("", c1, c2);
    DrainOneFrame(c2, f2);
  }

  /** Two reads, the first of which drains without raising. */
  lemma ReaderTwoChunks(buf: string, c1: string, c2: string)
    requires IsAscii(c1) && IsAscii(c2) && Drain(buf + c1).fault.None?
    ensures var d := Drain(buf + c1);
      Reader(buf, [c1, c2]).events == d.events + Drain(d.rest + c2).events
  {
    ReaderCons(buf, c1, [c2]);
    assert [c1] + [c2] == [c1, c2];
    ReaderOneRead(Drain(buf + c1).rest, c2);
  }

  /** A single read is handled by one pass of the inner loop. */
  lemma ReaderOneRead(buf: string, chunk: string)
    ensures Reader(buf, [chunk]) ==
              if IsAscii(chunk) then Drain(buf + chunk) else Drained([], 0, buf, Some(NotAscii))
  {
    var d := Drain(buf + chunk);
    if !IsAscii(chunk) {
      DecodeFaultStopsReader(buf, chunk, []);
      assert [chunk] + [] == [chunk];
    } else if d.fault.None? {
      assert [chunk][1..] == [];
      assert Reader(d.rest, []) == Drained([], 0, d.rest, None);
      assert d.events + [] == d.events;
    }
  }

  /** Resynchronisation happens only right after a frame, inside one read: when a read ends
      exactly at a frame's `;`, untagged text at the start of the next read is not dropped; it
      becomes the tag of the next frame, which then queues nothing ... */
  lemma ReadBoundaryAfterFrameSkipsResync(f1: string, g: string, f2: string)
    requires forall j :: 0 <= j < |f1| ==> f1[j] != ';'
    requires forall j :: 0 <= j < |g| ==> g[j] != ';' && !IsTag(g[j])
    requires forall j :: 0 <= j < |f2| ==> f2[j] != ';'
    requires IsAscii(f1) && IsAscii(g) && IsAscii(f2)
    requires DispatchFrame(f1).Ok? && |g| > 0
    ensures Reader("", [f1 + ";", g + f2 + ";"]).events == Queued(DispatchFrame(f1).value)
  {
    var f := g + f2;
    AsciiAppend(g, f2);
    assert f[0] == g[0];
    assert DispatchFrame(f) == Ok(Dispatch(None, false));
    assert forall j :: 0 <= j < |f| ==> f[j] != ';' by {
      assert forall j :: |g| <= j < |f| ==> f[j] == f2[j - |g|];
    }
    ReadTwoFrames(f1, f);
    assert Queued(Dispatch(None, false)) == [];
  }

  /** A single ASCII read into an empty buffer is drained as it stands. */
  lemma ReaderFromEmpty(chunk: string)
    requires IsAscii(chunk)
    ensures Reader("", [chunk]) == Drain(chunk)
  {
    ReaderOneRead("", chunk);
    assert "" + chunk == chunk;
  }

  /** ... while the same bytes arriving in a single read deliver both frames. */
  lemma OneReadResyncsAfterFrame(f1: string, g: string, f2: string)
    requires forall j :: 0 <= j < |f1| ==> f1[j] != ';'
    requires forall j :: 0 <= j < |g| ==> !IsTag(g[j])
    requires forall j :: 0 <= j < |f2| ==> f2[j] != ';'
    requires IsAscii(f1) && IsAscii(g) && IsAscii(f2)
    requires DispatchFrame(f1).Ok? && DispatchFrame(f2).Ok? && |f2| > 0 && IsTag(f2[0])
    ensures Reader("", [f1 + ";" + g + f2 + ";"]).events ==
              Queued(DispatchFrame(f1).value) + Queued(DispatchFrame(f2).value)
  {
    ResyncBuffer(f1, g, f2);
    ReaderFromEmpty(f1 + ";" + (g + (f2 + ";")));
    DrainFrameGarbageFrame(f1, g, f2);
  }

  /** The single read of `OneReadResyncsAfterFrame`, regrouped as a frame and what follows it. */
  lemma ResyncBuffer(f1: string, g: string, f2: string)
    requires IsAscii(f1) && IsAscii(g) && IsAscii(f2)
    ensures f1 + ";" + g + f2 + ";" == f1 + ";" + (g + (f2 + ";"))
    ensures IsAscii(f1 + ";" + (g + (f2 + ";")))
  {
    assert f1 + ";" + g + f2 + ";" == (f1 + ";" + g) + (f2 + ";");
    AsciiAppend(f2, ";");
    AsciiAppend(g, f2 + ";");
    AsciiAppend(f1, ";");
    AsciiAppend(f1 + ";", g + (f2 + ";"));
  }

  /** A frame, untagged garbage and a second frame drain to both frames' events. */
  lemma DrainFrameGarbageFrame(f1: string, g: string, f2: string)
    requires forall j :: 0 <= j < |f1| ==> f1[j] != ';'
    requires forall j :: 0 <= j < |g| ==> !IsTag(g[j])
    requires forall j :: 0 <= j < |f2| ==> f2[j] != ';'
    requires DispatchFrame(f1).Ok? && DispatchFrame(f2).Ok? && |f2| > 0 && IsTag(f2[0])
    ensures Drain(f1 + ";" + (g + (f2 + ";"))).events ==
              Queued(DispatchFrame(f1).value) + Queued(DispatchFrame(f2).value)
  {
    var after := g + (f2 + ";");
    DrainAt(f1 + ";" + after, f1, after);
    assert (f2 + ";")[0] == f2[0];
    ResyncDropsUntaggedPrefix(g, f2 + ";");
    DrainOneFrame(f2 + ";", f2);
  }

  /** An `N` frame whose tail is no integer prints its error line, then raises. */
  lemma BadAnalogFrameLogs()
    ensures Drain("N01x;") == Drained([], 1, "", Some(BadAnalogNumber))
  {
    var bad := "N01x";
    assert Slice(bad, 3, |bad|) == "x";
    assert ParseInt("x") == None;
    assert DispatchFrame(bad) == Err(BadAnalogNumber);
    assert ErrorLines(bad) == 1;
    assert bad + ";" + "" == "N01x;";
    DrainStopsAt("N01x;", bad, "");
  }

  /** A read that is not ASCII ends the thread after the frames of earlier reads were queued:
      those events stay on the queues. */
  lemma DecodeFaultKeepsEarlierEvents(f1: string, c: string)
    requires forall j :: 0 <= j < |f1| ==> f1[j] != ';'
    requires IsAscii(f1) && !IsAscii(c) && DispatchFrame(f1).Ok?
    ensures var x := DispatchFrame(f1).value;
      Reader("", [f1 + ";", c]) == Drained(Queued(x), Logged(x), "", Some(NotAscii))
  {
    var c1 := f1 + ";";
    AsciiAppend(f1, ";");
    DrainOneFrame("" + c1, f1);
    ReaderCons("", c1, [c]);
    DecodeFaultStopsReader("", c, []);
    assert [c] + [] == [c];
    assert [c1] + [c] == [f1 + ";", c];
    assert Queued(DispatchFrame(f1).value) + [] == Queued(DispatchFrame(f1).value);
  }
}

=== FILE: legacy.dfy ===
/** What the two prototype drivers share: the pin enumeration, the selector, the prefix-search
    reply extractor that reads the serial port directly, and the reply validators. */
module Legacy {
  import opened Wrappers
  import opened Text
  import opened Topology

  /** The pin enumeration; each member's value is its role letter. */
  datatype Pin = D1 | D2 | AN1 | AN2 | PPS1 | PPS2

  function Letter(pin: Pin): (r: char) {
    match pin
    case D1 => 'd'
    case D2 => 'e'
    case AN1 => 'a'
    case AN2 => 'b'
    case PPS1 => 'p'
    case PPS2 => 'q'
  }

  /** `f"{slot - 1}{pin.value}"`: the same address the current driver uses for that pin. */
  function PinSelector(slot: int, pin: Pin): (r: string) {
    Selector(PinId(slot, Letter(pin)))
  }

  /** Distinct pins of the enumeration in the tester's slots have distinct selectors. */
  lemma PinSelectorInjective(slot: int, pin: Pin, slot': int, pin': Pin)
    requires 1 <= slot <= SlotCount && 1 <= slot' <= SlotCount
    ensures PinSelector(slot, pin) == PinSelector(slot', pin') <==> slot == slot' && pin == pin'
  {
    SelectorInjective(PinId(slot, Letter(pin)), PinId(slot', Letter(pin')));
  }

  /** The buffer after a scan, and the reply if one was complete. */
  datatype Scan = Scan(result: Option<string>, buf: string)

  /** The inner loop of the extractor: drop everything before the first occurrence of the
      prefix (the whole buffer if there is none); with a `;` after it, the reply is the text
      from one past the prefix's first character up to that `;`, and the buffer keeps what
      follows. */
  function Extract(buf: string, prefix: string): (r: Scan)
    ensures FindSub(buf, prefix) < 0 ==> r == Scan(None, "")
    ensures FindSub(buf, prefix) >= 0 ==>
              var b := buf[FindSub(buf, prefix)..];
              && (FindChar(b, ';') < 0 ==> r == Scan(None, b))
              && (FindChar(b, ';') >= 0 ==>
                    r == Scan(Some(Slice(b, 1, FindChar(b, ';'))), b[FindChar(b, ';') + 1..]))
    ensures |r.buf| < |buf| || (r.result.None? && r.buf == buf) || r.buf == ""
    ensures r.result.Some? ==> ';' !in r.result.value
  {
    var start := FindSub(buf, prefix);
    if start < 0 then Scan(None, "")
    else
      var b := buf[start..];
      var end := FindChar(b, ';');
      if end < 0 then Scan(None, b)
      else Scan(Some(Slice(b, 1, end)), b[end + 1..])
  }

  /** A reply behind garbage free of the prefix letter is found, and only the text after its
      `;` is kept. */
  lemma ExtractFindsReply(garbage: string, c: char, body: string, tail: string)
    requires c != ';' && c !in garbage && ';' !in body
    ensures Extract(garbage + [c] + body + ";" + tail, [c]) == Scan(Some(body), tail)
  {
    var buf := garbage + [c] + body + ";" + tail;
    FirstOccurrence(garbage, c, body + ";" + tail);
    assert buf == garbage + [c] + (body + ";" + tail);
    var b := buf[|garbage|..];
    assert b == [c] + body + ";" + tail;
    assert b[1 + |body|] == ';';
    forall k | 0 <= k < 1 + |body|
      ensures b[k] != ';'
    {
      if k > 0 {
        assert b[k] == body[k - 1];
      }
    }
    assert FindChar(b, ';') == 1 + |body|;
    assert b[1..1 + |body|] == body;
    assert b[1 + |body| + 1..] == tail;
    assert Slice(b, 1, 1 + |body|) == body;
    assert buf[FindSub(buf, [c])..] == b;
  }

  /** The first occurrence of a one-character prefix is the first occurrence of the character. */
  lemma FirstOccurrence(garbage: string, c: char, rest: string)
    requires c !in garbage
    ensures FindSub(garbage + [c] + rest, [c]) == |garbage|
  {
    var s := garbage + [c] + rest;
    assert OccursAt(s, [c], |garbage|) by {
      assert s[|garbage|..|garbage| + 1] == [c];
    }
    forall j | 0 <= j < |garbage|
      ensures !OccursAt(s, [c], j)
    {
      assert s[j] == garbage[j];
    }
  }

  /** What the extractor returned and how many reads of the port it used. */
  datatype Nommed = Nommed(result: Option<string>, buf: string, used: nat)

  /** `_nom_until(prefix)` / `nom_until(cmd)` over the successive results of `serial.read`:
      empty reads are skipped, the buffer survives between reads within one call. Running out
      of reads stands for the call still waiting. Reads are taken to be ASCII text. */
  function Nom(buf: string, chunks: seq<string>, prefix: string): (r: Nommed)
    ensures r.used <= |chunks|
    ensures r.result.Some? <==> r.used > 0
    ensures r.result.Some? ==> ';' !in r.result.value
    decreases |chunks|
  {
    if |chunks| == 0 then Nommed(None, buf, 0)
    else if chunks[0] == "" then Later(Nom(buf, chunks[1..], prefix))
    else
      var s := Extract(buf + chunks[0], prefix);
      if s.result.Some? then Nommed(s.result, s.buf, 1)
      else Later(Nom(s.buf, chunks[1..], prefix))
  }

  function Later(n: Nommed): (r: Nommed) {
    if n.result.Some? then n.(used := n.used + 1) else n
  }

  /** A reply whose `;` has not arrived yet is kept from its prefix on. */
  lemma ExtractKeepsPartial(garbage: string, c: char, body: string)
    requires c != ';' && c !in garbage && ';' !in body
    ensures Extract(garbage + [c] + body, [c]) == Scan(None, [c] + body)
  {
    var buf := garbage + [c] + body;
    FirstOccurrence(garbage, c, body);
    var b := buf[|garbage|..];
    assert b == [c] + body;
    forall k | 0 <= k < |b|
      ensures b[k] != ';'
    {
      if k > 0 {
        assert b[k] == body[k - 1];
      }
    }
  }

  /** A reply split over two reads is put together: the buffer carries the first part. */
  lemma NomJoinsSplitReply(garbage: string, c: char, body1: string, body2: string, tail: string)
    requires c != ';' && c !in garbage && ';' !in body1 && ';' !in body2
    ensures Nom("", [garbage + [c] + body1, body2 + ";" + tail], [c]) == Nommed(Some(body1 + body2), tail, 2)
  {
    PartialFirstRead(garbage, c, body1, body2 + ";" + tail);
    ReplyCompletes(c, body1, body2, tail);
  }

  lemma PartialFirstRead(garbage: string, c: char, body1: string, second: string)
    requires c != ';' && c !in garbage && ';' !in body1
    ensures Nom("", [garbage + [c] + body1, second], [c]) == Later(Nom([c] + body1, [second], [c]))
  {
    var first := garbage + [c] + body1;
    assert "" + first == first;
    assert [first, second] == [first] + [second];
    ExtractKeepsPartial(garbage, c, body1);
    NomRead("", first, [second], [c]);
  }

  lemma ReplyCompletes(c: char, body1: string, body2: string, tail: string)
    requires c != ';' && ';' !in body1 && ';' !in body2
    ensures Nom([c] + body1, [body2 + ";" + tail], [c]) == Nommed(Some(body1 + body2), tail, 1)
  {
    var second := body2 + ";" + tail;
    assert [c] + body1 + second == [] + [c] + (body1 + body2) + ";" + tail;
    ExtractFindsReply([], c, body1 + body2, tail);
    assert [second] == [second] + [];
    NomRead([c] + body1, second, [], [c]);
  }

  /** One non-empty read: either it completes a reply or the call reads on. */
  lemma NomRead(buf: string, chunk: string, rest: seq<string>, prefix: string)
    requires chunk != ""
    ensures var s := Extract(buf + chunk, prefix);
      Nom(buf, [chunk] + rest, prefix) ==
        if s.result.Some? then Nommed(s.result, s.buf, 1) else Later(Nom(s.buf, rest, prefix))
  {
    assert ([chunk] + rest)[1..] == rest;
  }

  /** The two kinds of reply the prototype drivers read: digital (`D`) and analog (`A`). */
  datatype Kind = DigitalKind | AnalogKind

  function Prefix(kind: Kind): (r: string) {
    match kind
    case DigitalKind => "D"
    case AnalogKind => "A"
  }

  /** The reply validators: three characters, the selector and a `0`/`1` for digital; seven
      characters, the selector and five digits for analog. */
  predicate Accepts(kind: Kind, res: string, sel: string)
    ensures Accepts(kind, res, sel) ==> |sel| == 2 && |res| == (if kind.DigitalKind? then 3 else 7)
  {
    match kind
    case DigitalKind => |res| == 3 && res[..2] == sel && res[2] in "01"
    case AnalogKind => |res| == 7 && res[..2] == sel && IsDigits(res[2..])
  }

  /** For a two-character selector the digital validator accepts exactly two replies. */
  lemma DigitalAcceptsExactly(res: string, sel: string)
    requires |sel| == 2
    ensures Accepts(DigitalKind, res, sel) <==> res == sel + "0" || res == sel + "1"
  {
    if res == sel + "0" || res == sel + "1" {
      assert res[..2] == sel;
    }
    if Accepts(DigitalKind, res, sel) {
      assert res == res[..2] + [res[2]];
    }
  }

  /** An accepted analog reply carries a reading below 100000, which is what `int` makes of it. */
  lemma AnalogReading(res: string, sel: string)
    requires Accepts(AnalogKind, res, sel)
    ensures ParseInt(res[2..]) == Some(DigitsValue(res[2..]))
    ensures DigitsValue(res[2..]) < 100000
  {
    DigitsBelow(res[2..]);
    assert Pow10(5) == 100000;
  }

  /** A string of `n` digits has a value below ten to the `n`. */
  lemma {:induction false} DigitsBelow(s: string)
    requires forall i :: 0 <= i < |s| ==> IsDigit(s[i])
    ensures DigitsValue(s) < Pow10(|s|)
    decreases |s|
  {
    if |s| > 0 {
      DigitsBelow(s[..|s| - 1]);
    }
  }

  function Pow10(n: nat): (r: nat) {
    if n == 0 then 1 else 10 * Pow10(n - 1)
  }

  /** The replies a sequence of extractor calls returns, each call starting with an empty
      buffer and reading on from where the previous one stopped. */
  function Replies(chunks: seq<string>, prefix: string): (r: seq<string>)
    ensures |r| <= |chunks|
    ensures forall k :: 0 <= k < |r| ==> ';' !in r[k]
    decreases |chunks|
  {
    var n := Nom("", chunks, prefix);
    if n.result.None? then [] else [n.result.value] + Replies(chunks[n.used..], prefix)
  }
}

=== FILE: legacy_hilt.dfy ===
/** The prototype driver of the root `hilt.py`: pins addressed by slot number and enumeration member, a PWM
    table with one `[pps1, pps2]` pair per slot, reads that retry until a valid reply, and
    replies pulled straight from the port by the prefix-search extractor. */
module LegacyHilt {
  import opened Wrappers
  import opened Text
  import opened PyValue
  import opened Topology
  import opened Wire
  import Pwm
  import Driver
  import opened Legacy

  /** A slot's entry: the channels held by its first and its second PPS pin. */
  datatype Pair = Pair(pps1: Option<nat>, pps2: Option<nat>)

  type Table = map<int, Pair>

  /** `{slot + 1: [None, None] for slot in range(10)}`. */
  function InitialTable(): (t: Table)
    ensures forall s :: s in t <==> 1 <= s <= SlotCount
    ensures forall s :: s in t ==> t[s] == Pair(None, None)
  {
    EmptySlots(SlotCount)
  }

  /** Slots 1 to `n`, each with an empty pair. */
  function EmptySlots(n: nat): (t: Table)
    ensures forall s :: s in t <==> 1 <= s <= n
    ensures forall s :: s in t ==> t[s] == Pair(None, None)
  {
    if n == 0 then map[] else EmptySlots(n - 1)[n := Pair(None, None)]
  }

  predicate IsPps(pin: Pin) {
    pin == PPS1 || pin == PPS2
  }

  /** A lookup of a slot the table does not have. */
  datatype TableError = KeyError

  /** `_set_pwm(slot, pin, value)`: the pair's first entry for `PPS1`, its second for `PPS2`,
      and nothing at all (not even a lookup) for the other pins. */
  function SetPwm(t: Table, slot: int, pin: Pin, value: Option<nat>): (r: Result<Table, TableError>)
    ensures r.Err? <==> IsPps(pin) && slot !in t
    ensures !IsPps(pin) ==> r == Ok(t)
    ensures r.Ok? ==> r.value.Keys == t.Keys && forall s :: s in t && s != slot ==> r.value[s] == t[s]
    ensures r.Ok? && pin == PPS1 ==> r.value[slot] == Pair(value, t[slot].pps2)
    ensures r.Ok? && pin == PPS2 ==> r.value[slot] == Pair(t[slot].pps1, value)
  {
    if pin == PPS1 then
      if slot !in t then Err(KeyError) else Ok(t[slot := t[slot].(pps1 := value)])
    else if pin == PPS2 then
      if slot !in t then Err(KeyError) else Ok(t[slot := t[slot].(pps2 := value)])
    else Ok(t)
  }

  function Channels(p: Pair): (r: set<nat>) {
    (if p.pps1.Some? then {p.pps1.value} else {}) + (if p.pps2.Some? then {p.pps2.value} else {})
  }

  /** Every channel some slot records. */
  function Held(t: Table): (r: set<nat>) {
    set s, c | s in t && c in Channels(t[s]) :: c
  }

  /** The states the driver reaches: recorded channels are below nine and none is recorded
      twice, so removing each recorded channel from the pool never fails. */
  predicate TableWf(t: Table) {
    && (forall s :: s in t ==> forall c :: c in Channels(t[s]) ==> c < Pwm.ChannelCount)
    && (forall s :: s in t && t[s].pps1.Some? && t[s].pps2.Some? ==> t[s].pps1.value != t[s].pps2.value)
    && (forall s, s' :: s in t && s' in t && s != s' ==> Channels(t[s]) !! Channels(t[s']))
  }

  lemma InitialTableWf()
    ensures TableWf(InitialTable()) && Held(InitialTable()) == {}
  {
  }

  /** Why `analog_write` raised `KeyError`: a PPS pin of a slot the table lacks, or an
      exhausted pool. */
  datatype WriteError = MissingSlot | OutOfPwmChannels

  datatype LegacyWrite = LegacyWrite(table: Table, sent: seq<string>, channel: Result<nat, WriteError>, warned: bool)

  /** `analog_write(slot, pin, voltage)`: release the pin's own entry, take the smallest channel
      no slot records, record it (for a PPS pin only), warn about a voltage outside 0..5 without
      rejecting it, and send the PWM command. */
  function AnalogWrite(t: Table, slot: int, pin: Pin, voltage: real): (r: LegacyWrite)
    requires TableWf(t)
    ensures r.channel == Err(MissingSlot) <==> IsPps(pin) && slot !in t
    ensures r.channel.Err? ==> r.sent == [] && !r.warned
    // a missing slot raises before the table changes; an exhausted pool raises after the pin's
    // entry was released, and that release stays
    ensures r.channel == Err(MissingSlot) ==> r.table == t
    ensures r.channel == Err(OutOfPwmChannels) ==>
              SetPwm(t, slot, pin, None).Ok? && r.table == SetPwm(t, slot, pin, None).value
    ensures r.channel != Err(MissingSlot) ==>
              var released := SetPwm(t, slot, pin, None).value;
              && (r.channel == Err(OutOfPwmChannels) <==> forall k :: 0 <= k < Pwm.ChannelCount ==> k in Held(released))
              && (r.channel.Ok? ==>
                    && r.channel.value < Pwm.ChannelCount
                    && r.channel.value !in Held(released)
                    && (forall k :: 0 <= k < r.channel.value ==> k in Held(released))
                    && r.table == SetPwm(released, slot, pin, Some(r.channel.value)).value
                    && r.warned == (voltage < 0.0 || voltage > 5.0)
                    && r.sent == [Encode(PwmWriteReq(PinSelector(slot, pin), r.channel.value, Driver.Duty(voltage)))])
    ensures !IsPps(pin) ==> r.table == t
  {
    var released := SetPwm(t, slot, pin, None);
    if released.Err? then LegacyWrite(t, [], Err(MissingSlot), false)
    else
      var t1 := released.value;
      var c := Pwm.FirstFree(Held(t1), 0);
      if c == Pwm.ChannelCount then LegacyWrite(t1, [], Err(OutOfPwmChannels), false)
      else
        var t2 := SetPwm(t1, slot, pin, Some(c)).value;
        LegacyWrite(t2, [Encode(PwmWriteReq(PinSelector(slot, pin), c, Driver.Duty(voltage)))], Ok(c), voltage < 0.0 || voltage > 5.0)
  }

  /** `analog_write` keeps the table consistent: the channel it records is one no slot held. */
  lemma AnalogWriteKeepsWf(t: Table, slot: int, pin: Pin, voltage: real)
    requires TableWf(t)
    ensures TableWf(AnalogWrite(t, slot, pin, voltage).table)
  {
    var released := SetPwm(t, slot, pin, None);
    if released.Ok? && IsPps(pin) {
      var t1 := released.value;
      ReleaseKeepsWf(t, slot, pin);
      var r := AnalogWrite(t, slot, pin, voltage);
      if r.channel.Ok? {
        RecordKeepsWf(t1, slot, pin, r.channel.value);
      }
    }
  }

  lemma ReleaseKeepsWf(t: Table, slot: int, pin: Pin)
    requires TableWf(t) && SetPwm(t, slot, pin, None).Ok?
    ensures TableWf(SetPwm(t, slot, pin, None).value)
  {
    var r := SetPwm(t, slot, pin, None).value;
    if IsPps(pin) {
      assert Channels(r[slot]) <= Channels(t[slot]);
    }
  }

  lemma RecordKeepsWf(t: Table, slot: int, pin: Pin, c: nat)
    requires TableWf(t) && IsPps(pin) && slot in t && c < Pwm.ChannelCount && c !in Held(t)
    requires pin == PPS1 ==> t[slot].pps1.None?
    requires pin == PPS2 ==> t[slot].pps2.None?
    ensures TableWf(SetPwm(t, slot, pin, Some(c)).value)
  {
    var r := SetPwm(t, slot, pin, Some(c)).value;
    assert Channels(r[slot]) == Channels(t[slot]) + {c};
  }

  /** On a pin that is not a PPS pin the channel is taken but never recorded, so the next
      such write is handed the same channel. */
  lemma UnrecordedChannelIsReused(t: Table, slot: int, pin: Pin, slot': int, pin': Pin, v: real, v': real)
    requires TableWf(t) && !IsPps(pin) && !IsPps(pin')
    ensures var first := AnalogWrite(t, slot, pin, v);
      first.table == t && AnalogWrite(first.table, slot', pin', v').channel == first.channel
  {
  }

  /** On the fresh table every PPS pin of a tester slot is handed channel 0. */
  lemma FirstWriteGetsChannelZero(slot: int, pin: Pin, v: real)
    requires 1 <= slot <= SlotCount && IsPps(pin)
    ensures AnalogWrite(InitialTable(), slot, pin, v).channel == Ok(0)
  {
    InitialTableWf();
    var released := SetPwm(InitialTable(), slot, pin, None).value;
    assert forall s :: s in released ==> released[s] == Pair(None, None);
    assert Held(released) == {};
  }

  /** The attempts a retrying read made and the reply it accepted. */
  datatype Polled = Polled(attempts: nat, reply: Option<string>)

  /** The retry loop of `digital_read` / `analog_read`: request, extract a reply with the
      kind's prefix, and ask again until the validator accepts one. Each attempt is one
      request; running out of reads ends the model with no reply. */
  function Poll(kind: Kind, sel: string, chunks: seq<string>): (r: Polled)
    ensures r.attempts >= 1
    ensures var rs := Replies(chunks, Prefix(kind));
      && (r.reply.Some? ==>
            && r.attempts <= |rs|
            && rs[r.attempts - 1] == r.reply.value
            && Accepts(kind, r.reply.value, sel)
            && forall k :: 0 <= k < r.attempts - 1 ==> !Accepts(kind, rs[k], sel))
      && (r.reply.None? ==>
            r.attempts == |rs| + 1 && forall k :: 0 <= k < |rs| ==> !Accepts(kind, rs[k], sel))
    decreases |chunks|
  {
    var n := Nom("", chunks, Prefix(kind));
    if n.result.None? then Polled(1, None)
    else if Accepts(kind, n.result.value, sel) then Polled(1, n.result)
    else
      var p := Poll(kind, sel, chunks[n.used..]);
      var rs := Replies(chunks, Prefix(kind));
      assert rs == [n.result.value] + Replies(chunks[n.used..], Prefix(kind));
      Polled(p.attempts + 1, p.reply)
  }

  datatype LegacyRead<T> = LegacyRead(table: Table, sent: seq<string>, value: Option<T>)

  /** `digital_read(slot, pin)`: release the pin, then request until a reply of the selector
      with a `0`/`1` arrives; the value is whether it was `1`. */
  function DigitalRead(t: Table, slot: int, pin: Pin, chunks: seq<string>): (r: Result<LegacyRead<bool>, TableError>)
    ensures r.Err? <==> IsPps(pin) && slot !in t
    ensures r.Ok? ==>
              var p := Poll(DigitalKind, PinSelector(slot, pin), chunks);
              && r.value.table == SetPwm(t, slot, pin, None).value
              && r.value.sent == Driver.Repeat(Encode(DigitalReadReq(PinSelector(slot, pin))), p.attempts)
              && (r.value.value.Some? <==> p.reply.Some?)
              && (1 <= slot <= SlotCount && r.value.value.Some? ==>
                    p.reply.value == PinSelector(slot, pin) + (if r.value.value.value then "1" else "0"))
  {
    var released := SetPwm(t, slot, pin, None);
    if released.Err? then Err(released.error)
    else
      var sel := PinSelector(slot, pin);
      var p := Poll(DigitalKind, sel, chunks);
      assert 1 <= slot <= SlotCount && p.reply.Some? ==>
               p.reply.value == sel + (if p.reply.value[2] == '1' then "1" else "0") by {
        if 1 <= slot <= SlotCount && p.reply.Some? {
          SelectorShape(PinId(slot, Letter(pin)));
          DigitalAcceptsExactly(p.reply.value, sel);
        }
      }
      Ok(LegacyRead(released.value, Driver.Repeat(Encode(DigitalReadReq(sel)), p.attempts),
                    if p.reply.Some? then Some(p.reply.value[2] == '1') else None))
  }

  /** `analog_read(slot, pin)`: as `digital_read`, with five digits after the selector; the
      value is the raw reading (the conversion to volts is left out). */
  function AnalogRead(t: Table, slot: int, pin: Pin, chunks: seq<string>): (r: Result<LegacyRead<int>, TableError>)
    ensures r.Err? <==> IsPps(pin) && slot !in t
    ensures r.Ok? ==>
              var p := Poll(AnalogKind, PinSelector(slot, pin), chunks);
              && r.value.table == SetPwm(t, slot, pin, None).value
              && r.value.sent == Driver.Repeat(Encode(AnalogReadReq(PinSelector(slot, pin))), p.attempts)
              && (r.value.value.Some? <==> p.reply.Some?)
              && (r.value.value.Some? ==>
                    0 <= r.value.value.value < 100000 && ParseInt(p.reply.value[2..]) == r.value.value)
  {
    var released := SetPwm(t, slot, pin, None);
    if released.Err? then Err(released.error)
    else
      var sel := PinSelector(slot, pin);
      var p := Poll(AnalogKind, sel, chunks);
      assert p.reply.Some? ==>
               0 <= DigitsValue(p.reply.value[2..]) < 100000
               && ParseInt(p.reply.value[2..]) == Some(DigitsValue(p.reply.value[2..])) by {
        if p.reply.Some? {
          AnalogReading(p.reply.value, sel);
        }
      }
      Ok(LegacyRead(released.value, Driver.Repeat(Encode(AnalogReadReq(sel)), p.attempts),
                    if p.reply.Some? then Some(DigitsValue(p.reply.value[2..])) else None))
  }

  /** `digital_write(slot, pin, value)`: release the pin and send its truth value. */
  function DigitalWrite(t: Table, slot: int, pin: Pin, value: Value): (r: Result<(Table, string), TableError>)
    ensures r.Err? <==> IsPps(pin) && slot !in t
    ensures r.Ok? ==> r.value.0 == SetPwm(t, slot, pin, None).value
    ensures r.Ok? && 1 <= slot <= SlotCount ==>
              Decode(r.value.1) == Some(DigitalWriteReq(PinSelector(slot, pin), Truthy(value)))
  {
    var released := SetPwm(t, slot, pin, None);
    if released.Err? then Err(released.error)
    else
      var cmd := Encode(DigitalWriteReq(PinSelector(slot, pin), Truthy(value)));
      assert 1 <= slot <= SlotCount ==>
               Decode(cmd) == Some(DigitalWriteReq(PinSelector(slot, pin), Truthy(value))) by {
        if 1 <= slot <= SlotCount {
          SelectorShape(PinId(slot, Letter(pin)));
          DecodeEncode(DigitalWriteReq(PinSelector(slot, pin), Truthy(value)));
        }
      }
      Ok((released.value, cmd))
  }
}

=== FILE: proto.dfy ===
/** The prototype driver of the root `warrior.py`: single-shot reads that give up on an unexpected reply, and
    writes where the caller picks the PWM channel itself. */
module Proto {
  import opened Wrappers
  import opened Text
  import opened PyValue
  import opened Topology
  import opened Wire
  import Driver
  import opened Legacy
  import LegacyHilt

  /** What one single-shot read produced: nothing yet (the call is still waiting for a reply
      with the kind's prefix), a reply the validator rejected (`None` in the driver), or a value. */
  datatype Reply<T> = NoReply | Invalid(res: string) | Valid(value: T)

  /** A read: the one request it writes and what came of it. */
  datatype Shot<T> = Shot(sent: string, reply: Reply<T>)

  /** `digital_read(slot, pin)`: one request, one extracted `D` reply, checked once. */
  function DigitalRead(slot: int, pin: Pin, chunks: seq<string>): (r: Shot<bool>)
    ensures r.sent == Encode(DigitalReadReq(PinSelector(slot, pin)))
    ensures var n := Nom("", chunks, "D");
      && (r.reply.NoReply? <==> n.result.None?)
      && (r.reply.Valid? <==> n.result.Some? && Accepts(DigitalKind, n.result.value, PinSelector(slot, pin)))
      && (r.reply.Invalid? ==> r.reply.res == n.result.value)
    ensures 1 <= slot <= SlotCount && r.reply.Valid? ==>
              Nom("", chunks, "D").result == Some(PinSelector(slot, pin) + (if r.reply.value then "1" else "0"))
  {
    var sel := PinSelector(slot, pin);
    var n := Nom("", chunks, "D");
    var sent := Encode(DigitalReadReq(sel));
    if n.result.None? then Shot(sent, NoReply)
    else if !Accepts(DigitalKind, n.result.value, sel) then Shot(sent, Invalid(n.result.value))
    else
      assert 1 <= slot <= SlotCount ==> n.result.value == sel + (if n.result.value[2] == '1' then "1" else "0") by {
        if 1 <= slot <= SlotCount {
          SelectorShape(PinId(slot, Letter(pin)));
          DigitalAcceptsExactly(n.result.value, sel);
        }
      }
      Shot(sent, Valid(n.result.value[2] == '1'))
  }

  /** `analog_read(slot, pin)`: as `digital_read` with an `A` reply of five digits; the value
      is `int` of the digits. */
  function AnalogRead(slot: int, pin: Pin, chunks: seq<string>): (r: Shot<int>)
    ensures r.sent == Encode(AnalogReadReq(PinSelector(slot, pin)))
    ensures var n := Nom("", chunks, "A");
      && (r.reply.NoReply? <==> n.result.None?)
      && (r.reply.Valid? <==> n.result.Some? && Accepts(AnalogKind, n.result.value, PinSelector(slot, pin)))
      && (r.reply.Invalid? ==> r.reply.res == n.result.value)
      && (r.reply.Valid? ==> 0 <= r.reply.value < 100000 && ParseInt(n.result.value[2..]) == Some(r.reply.value))
  {
    var sel := PinSelector(slot, pin);
    var n := Nom("", chunks, "A");
    var sent := Encode(AnalogReadReq(sel));
    if n.result.None? then Shot(sent, NoReply)
    else if !Accepts(AnalogKind, n.result.value, sel) then Shot(sent, Invalid(n.result.value))
    else
      AnalogReading(n.result.value, sel);
      Shot(sent, Valid(DigitsValue(n.result.value[2..])))
  }

  /** `digital_write(slot, pin, value)`: `;e<selector>1;` for a truthy value, `...0;` otherwise. */
  function DigitalWrite(slot: int, pin: Pin, value: Value): (cmd: string)
    ensures 1 <= slot <= SlotCount ==> Decode(cmd) == Some(DigitalWriteReq(PinSelector(slot, pin), Truthy(value)))
  {
    var c := Encode(DigitalWriteReq(PinSelector(slot, pin), Truthy(value)));
    assert 1 <= slot <= SlotCount ==> Decode(c) == Some(DigitalWriteReq(PinSelector(slot, pin), Truthy(value))) by {
      if 1 <= slot <= SlotCount {
        SelectorShape(PinId(slot, Letter(pin)));
        DecodeEncode(DigitalWriteReq(PinSelector(slot, pin), Truthy(value)));
      }
    }
    c
  }

  /** The text `analog_write` sends and whether it printed the out-of-range warning. */
  datatype AnalogCommand = AnalogCommand(cmd: string, warned: bool)

  /** `analog_write(slot, pin, channel, value)`: the caller's channel and value are written as
      given; a value outside 0..99 is only reported. */
  function AnalogWrite(slot: int, pin: Pin, channel: nat, value: int): (r: AnalogCommand)
    ensures r.warned <==> value < 0 || value > 99
    ensures 1 <= slot <= SlotCount && channel < 10 && !r.warned ==>
              Decode(r.cmd) == Some(PwmWriteReq(PinSelector(slot, pin), channel, value))
  {
    var c := Encode(PwmWriteReq(PinSelector(slot, pin), channel, value));
    assert 1 <= slot <= SlotCount && channel < 10 && 0 <= value <= 99 ==>
             Decode(c) == Some(PwmWriteReq(PinSelector(slot, pin), channel, value)) by {
      if 1 <= slot <= SlotCount && channel < 10 && 0 <= value <= 99 {
        SelectorShape(PinId(slot, Letter(pin)));
        DecodeEncode(PwmWriteReq(PinSelector(slot, pin), channel, value));
      }
    }
    AnalogCommand(c, value < 0 || value > 99)
  }

  /** A reply the single-shot digital read accepts is the one the retrying driver returns
      after a single request. */
  lemma SingleShotAgreesWithRetry(t: LegacyHilt.Table, slot: int, pin: Pin, chunks: seq<string>)
    requires !LegacyHilt.IsPps(pin) || slot in t
    requires DigitalRead(slot, pin, chunks).reply.Valid?
    ensures var r := LegacyHilt.DigitalRead(t, slot, pin, chunks);
      && r.Ok?
      && r.value.sent == [DigitalRead(slot, pin, chunks).sent]
      && r.value.value == Some(DigitalRead(slot, pin, chunks).reply.value)
  {
    var sel := PinSelector(slot, pin);
    var n := Nom("", chunks, "D");
    assert LegacyHilt.Poll(DigitalKind, sel, chunks) == LegacyHilt.Polled(1, n.result);
  }

  /** A reply the single-shot analog read rejects makes the retrying driver ask again. */
  lemma InvalidAnalogIsRetried(t: LegacyHilt.Table, slot: int, pin: Pin, chunks: seq<string>)
    requires !LegacyHilt.IsPps(pin) || slot in t
    requires AnalogRead(slot, pin, chunks).reply.Invalid?
    ensures LegacyHilt.AnalogRead(t, slot, pin, chunks).Ok?
    ensures |LegacyHilt.AnalogRead(t, slot, pin, chunks).value.sent| >= 2
  {
    var sel := PinSelector(slot, pin);
    var n := Nom("", chunks, "A");
    var p := LegacyHilt.Poll(AnalogKind, sel, chunks);
    assert Replies(chunks, "A")[0] == n.result.value;
  }

  /** The retrying driver's `analog_write` sends what this driver sends for the channel it
      picked and the duty of the voltage. */
  lemma AllocatedWriteMatches(t: LegacyHilt.Table, slot: int, pin: Pin, voltage: real)
    requires LegacyHilt.TableWf(t)
    requires LegacyHilt.AnalogWrite(t, slot, pin, voltage).channel.Ok?
    ensures var w := LegacyHilt.AnalogWrite(t, slot, pin, voltage);
      w.sent == [AnalogWrite(slot, pin, w.channel.value, Driver.Duty(voltage)).cmd]
  {
  }
}

=== FILE: pwm.dfy ===
/** The PWM channel allocation table: nine physical PWM channels shared by the twenty
    PPS pins. An entry maps a pin to the channel it drives, or to None once the pin has
    been read or written digitally. */
module Pwm {
  import opened Wrappers
  import opened Topology

  const ChannelCount: nat := 9

  type PwmTable = map<PinId, Option<nat>>

  /** The table the driver starts with: no entries at all. */
  const EmptyTable: PwmTable := map[]

  /** Channels held by pins other than `p`. */
  function HeldByOthers(t: PwmTable, p: PinId): (r: set<nat>) {
    set q | q in t && q != p && t[q].Some? :: t[q].value
  }

  /** Pins that currently drive a channel. */
  function Holders(t: PwmTable): (r: set<PinId>) {
    set q | q in t && t[q].Some?
  }

  /** The reachable-state invariant: every held channel is one of the nine, and no channel
      is held by two pins. */
  predicate PwmWf(t: PwmTable) {
    && (forall q :: q in t && t[q].Some? ==> t[q].value < ChannelCount)
    && (forall q, q' :: q in t && q' in t && q != q' && t[q].Some? && t[q'].Some? ==> t[q].value != t[q'].value)
  }

  /** `pwm_channels[pin] = None`: the pin stops driving PWM; nothing else changes. */
  function Release(t: PwmTable, p: PinId): (r: PwmTable)
    ensures p in r && r[p] == None
    ensures r.Keys == t.Keys + {p}
    ensures forall q :: q in t && q != p ==> r[q] == t[q]
    ensures PwmWf(t) ==> PwmWf(r)
  {
    t[p := None]
  }

  /** The smallest channel in `c .. 8` not in `held`, or 9 when there is none
      (the order in which a fresh `set(range(9))` pops its members). */
  function FirstFree(held: set<nat>, c: nat): (r: nat)
    requires c <= ChannelCount
    ensures c <= r <= ChannelCount
    ensures r < ChannelCount ==> r !in held
    ensures forall k :: c <= k < r ==> k in held
    decreases ChannelCount - c
  {
    if c == ChannelCount then ChannelCount
    else if c !in held then c
    else FirstFree(held, c + 1)
  }

  datatype PwmError = OutOfChannels

  /** The table after an allocation attempt (changed even when it fails) and the outcome. */
  datatype Allocation = Allocation(table: PwmTable, channel: Result<nat, PwmError>)

  /** The allocation half of `analog_write`: release the pin's own entry, then take a
      channel no other pin holds, failing with "Out of PWM channels!" when none is left. */
  function Allocate(t: PwmTable, p: PinId): (r: Allocation)
    requires PwmWf(t)
    ensures r.table.Keys == t.Keys + {p}
    ensures forall q :: q in t && q != p ==> r.table[q] == t[q]
    ensures r.channel.Err? <==> forall c :: 0 <= c < ChannelCount ==> c in HeldByOthers(t, p)
    ensures r.channel.Err? ==> r.table[p] == None
    ensures r.channel.Ok? ==>
              var c := r.channel.value;
              c < ChannelCount && c !in HeldByOthers(t, p) && r.table[p] == Some(c)
              && forall k :: 0 <= k < c ==> k in HeldByOthers(t, p)
    ensures PwmWf(r.table)
  {
    var released := Release(t, p);
    var c := FirstFree(HeldByOthers(t, p), 0);
    if c == ChannelCount then Allocation(released, Err(OutOfChannels))
    else
      AssignKeepsWf(t, p, c);
      Allocation(released[p := Some(c)], Ok(c))
  }

  /** Giving `p` a channel no other pin holds keeps the invariant. */
  lemma AssignKeepsWf(t: PwmTable, p: PinId, c: nat)
    requires PwmWf(t)
    requires c < ChannelCount && c !in HeldByOthers(t, p)
    ensures PwmWf(t[p := Some(c)])
  {
    var r := t[p := Some(c)];
    forall q | q in r && q != p && r[q].Some?
      ensures r[q].value != c
    {
      assert r[q] == t[q];
      assert t[q].value in HeldByOthers(t, p);
    }
  }

  /** An injection from a finite set into another is no larger than its target. */
  lemma {:induction false} InjectionBound(a: set<PinId>, t: PwmTable, b: set<nat>)
    requires forall q :: q in a ==> q in t && t[q].Some? && t[q].value in b
    requires forall q, q' :: q in a && q' in a && q != q' ==> t[q].value != t[q'].value
    ensures |a| <= |b|
    decreases |a|
  {
    if a != {} {
      var q :| q in a;
      var a' := a - {q};
      var b' := b - {t[q].value};
      forall q' | q' in a'
        ensures t[q'].value in b'
      {
        assert t[q'].value != t[q].value;
      }
      InjectionBound(a', t, b');
    }
  }

  function Range(n: nat): (s: set<nat>)
    ensures forall c: nat :: c in s <==> c < n
    ensures |s| == n
  {
    if n == 0 then
      var e: set<nat> := {};
      e
    else
      var s := Range(n - 1) + {n - 1};
      assert n - 1 !in Range(n - 1);
      s
  }

  lemma {:induction false} SubsetCard(a: set<nat>, b: set<nat>)
    requires a <= b
    ensures |a| <= |b|
    decreases |a|
  {
    if a != {} {
      var x :| x in a;
      SubsetCard(a - {x}, b - {x});
    }
  }

  /** At most nine pins drive a channel at any time. */
  lemma HoldersAtMostNine(t: PwmTable)
    requires PwmWf(t)
    ensures |Holders(t)| <= ChannelCount
  {
    InjectionBound(Holders(t), t, Range(ChannelCount));
  }

  /** A subset of 0..8 with nine members is all of 0..8. */
  lemma {:induction false} FullSubset(s: set<nat>)
    requires forall c :: c in s ==> c < ChannelCount
    requires |s| >= ChannelCount
    ensures forall c :: 0 <= c < ChannelCount ==> c in s
  {
    FullSubsetOf(s, ChannelCount);
  }

  lemma FullSubsetOf(s: set<nat>, n: nat)
    requires forall c :: c in s ==> c < n
    requires |s| >= n
    ensures forall c :: 0 <= c < n ==> c in s
  {
    var r := Range(n);
    assert s <= r;
    if exists c :: 0 <= c < n && c !in s {
      var c :| 0 <= c < n && c !in s;
      assert s <= r - {c};
      SubsetCard(s, r - {c});
      assert false;
    }
  }

  /** The channels held by a set of pins, under the invariant, are as many as the pins. */
  lemma {:induction false} HeldCount(a: set<PinId>, t: PwmTable)
    requires PwmWf(t)
    requires forall q :: q in a ==> q in t && t[q].Some?
    ensures |set q | q in a :: t[q].value| == |a|
    decreases |a|
  {
    if a != {} {
      var q :| q in a;
      var a' := a - {q};
      HeldCount(a', t);
      var img := set x | x in a :: t[x].value;
      var img' := set x | x in a' :: t[x].value;
      assert img == img' + {t[q].value};
      assert t[q].value !in img';
    }
  }

  /** When nine other pins already drive channels, the next pin cannot get one. */
  lemma TenthPinIsRefused(t: PwmTable, p: PinId)
    requires PwmWf(t)
    requires |Holders(t) - {p}| >= ChannelCount
    ensures Allocate(t, p).channel == Err(OutOfChannels)
  {
    var others := Holders(t) - {p};
    HeldCount(others, t);
    assert (set q | q in others :: t[q].value) == HeldByOthers(t, p);
    FullSubset(HeldByOthers(t, p));
  }

  /** A released channel can be handed to another pin: after `q` lets go, `p` is not refused
      because of it. */
  lemma ReleaseFreesChannel(t: PwmTable, q: PinId, p: PinId)
    requires PwmWf(t) && q != p
    requires q in t && t[q].Some?
    ensures t[q].value !in HeldByOthers(Release(t, q), p)
    ensures Allocate(Release(t, q), p).channel.Ok?
  {
    var c := t[q].value;
    var r := Release(t, q);
    assert c < ChannelCount;
    forall x | x in r && x != p && r[x].Some?
      ensures r[x].value != c
    {
    }
  }
}

=== FILE: pyvalue.dfy ===
/** The dynamically typed values the driver and the test scripts pass around. */
module PyValue {

  /** A Python scalar: `None`, `bool`, `int`, `float` (idealised as a real) or `str`. */
  datatype Value = VNone | VBool(b: bool) | VInt(i: int) | VReal(r: real) | VStr(s: string)

  /** Python truthiness, as used by `1 if value else 0` and `if not condition`. */
  predicate Truthy(v: Value) {
    match v
    case VNone => false
    case VBool(b) => b
    case VInt(i) => i != 0
    case VReal(r) => r != 0.0
    case VStr(s) => |s| > 0
  }

  /** `isinstance(v, (int, float))`; `bool` is a subclass of `int` in Python. */
  predicate IsNumber(v: Value) {
    v.VBool? || v.VInt? || v.VReal?
  }

  /** The numeric value of a number (`True` is 1, `False` is 0). */
  function NumValue(v: Value): (r: real)
    requires IsNumber(v)
  {
    match v
    case VBool(b) => if b then 1.0 else 0.0
    case VInt(i) => i as real
    case VReal(r) => r
  }

  /** Python `==` between scalars: numbers compare by value across `bool`/`int`/`float`. */
  predicate PyEq(a: Value, b: Value) {
    if IsNumber(a) && IsNumber(b) then NumValue(a) == NumValue(b)
    else a == b
  }

  /** `tolerance != 0` is false exactly for the zeros of the three numeric types. */
  lemma ZeroTolerance(t: Value)
    ensures PyEq(t, VInt(0)) <==> t == VBool(false) || t == VInt(0) || t == VReal(0.0)
  {
  }

  /** `PyEq` is an equivalence; in particular every value equals itself. */
  lemma PyEqEquivalence(a: Value, b: Value, c: Value)
    ensures PyEq(a, a)
    ensures PyEq(a, b) ==> PyEq(b, a)
    ensures PyEq(a, b) && PyEq(b, c) ==> PyEq(a, c)
  {
  }
}

=== FILE: recorder.dfy ===
/** The result recorder: per test, how often it ran and how often it passed as a whole;
    per expectation call site within it, how often it was checked and passed, and the data
    of every attempt. Dictionaries keep insertion order, so they are sequences here. */
module Recorder {
  import opened Wrappers
  import opened PyValue

  /** An expectation's identity: its kind (`"equal"`, `"non_none"`) and call-site line. */
  datatype ExpectationId = ExpectationId(kind: string, line: int)

  /** The data dictionary recorded for one attempt. */
  type AttemptData = map<string, Value>

  datatype ExpectationResults = ExpectationResults(id: ExpectationId, checks: int, passes: int, attempts: seq<AttemptData>)

  datatype TestResults = TestResults(test: string, executions: int, passes: int, expectations: seq<ExpectationResults>)

  datatype Recorder = Recorder(results: seq<TestResults>, current: string)

  /** A fresh recorder: no results, current test "". */
  const Empty: Recorder := Recorder([], "")

  datatype RecordError = KeyError

  /** Position of the test named `name`, or -1. */
  function FindTest(results: seq<TestResults>, name: string): (i: int)
    ensures -1 <= i < |results|
    ensures i >= 0 ==> results[i].test == name && forall j :: 0 <= j < i ==> results[j].test != name
    ensures i == -1 <==> forall j :: 0 <= j < |results| ==> results[j].test != name
  {
    if |results| == 0 then -1
    else if results[|results| - 1].test == name && FindTest(results[..|results| - 1], name) == -1 then |results| - 1
    else FindTest(results[..|results| - 1], name)
  }

  /** Position of the expectation with identity `id`, or -1. */
  function FindExpectation(exps: seq<ExpectationResults>, id: ExpectationId): (i: int)
    ensures -1 <= i < |exps|
    ensures i >= 0 ==> exps[i].id == id && forall j :: 0 <= j < i ==> exps[j].id != id
    ensures i == -1 <==> forall j :: 0 <= j < |exps| ==> exps[j].id != id
  {
    if |exps| == 0 then -1
    else if exps[|exps| - 1].id == id && FindExpectation(exps[..|exps| - 1], id) == -1 then |exps| - 1
    else FindExpectation(exps[..|exps| - 1], id)
  }

  /** Counters that a well-behaved run keeps: passes never exceed checks, one attempt is
      kept per check, identities are unique. */
  predicate ExpectationWf(e: ExpectationResults) {
    0 <= e.passes <= e.checks && |e.attempts| == e.checks
  }

  predicate TestWf(t: TestResults) {
    && 0 <= t.passes <= t.executions
    && (forall k :: 0 <= k < |t.expectations| ==> ExpectationWf(t.expectations[k]))
    && (forall k, k' :: 0 <= k < k' < |t.expectations| ==> t.expectations[k].id != t.expectations[k'].id)
  }

  predicate RecorderWf(r: Recorder) {
    && (forall i :: 0 <= i < |r.results| ==> TestWf(r.results[i]))
    && (forall i, i' :: 0 <= i < i' < |r.results| ==> r.results[i].test != r.results[i'].test)
  }

  /** `start_test`: make `name` current, create its entry on first use, and count one more
      execution and, optimistically, one more pass. */
  function StartTest(rec: Recorder, name: string): (r: Recorder)
    ensures r.current == name
    ensures var i := FindTest(rec.results, name);
      if i >= 0 then
        r.results == rec.results[i := rec.results[i].(executions := rec.results[i].executions + 1,
                                                      passes := rec.results[i].passes + 1)]
      else
        r.results == rec.results + [TestResults(name, 1, 1, [])]
    ensures FindTest(r.results, name) == if FindTest(rec.results, name) >= 0 then FindTest(rec.results, name) else |rec.results|
    ensures RecorderWf(rec) ==> RecorderWf(r)
  {
    var i := FindTest(rec.results, name);
    if i >= 0 then
      var t := rec.results[i];
      var results := rec.results[i := t.(executions := t.executions + 1, passes := t.passes + 1)];
      FindTestAt(results, name, i);
      Recorder(results, name)
    else
      var results := rec.results + [TestResults(name, 1, 1, [])];
      FindTestAt(results, name, |rec.results|);
      Recorder(results, name)
  }

  lemma FindTestAt(results: seq<TestResults>, name: string, i: nat)
    requires i < |results| && results[i].test == name
    requires forall j :: 0 <= j < i ==> results[j].test != name
    ensures FindTest(results, name) == i
  {
  }

  /** `failed_test`: take back the optimistic pass of `name`; a `KeyError` if it never started. */
  function FailedTest(rec: Recorder, name: string): (r: Result<Recorder, RecordError>)
    ensures r.Err? <==> forall j :: 0 <= j < |rec.results| ==> rec.results[j].test != name
    ensures r.Ok? ==>
              var i := FindTest(rec.results, name);
              r.value.current == rec.current
              && r.value.results == rec.results[i := rec.results[i].(passes := rec.results[i].passes - 1)]
  {
    var i := FindTest(rec.results, name);
    if i < 0 then Err(KeyError)
    else Ok(rec.(results := rec.results[i := rec.results[i].(passes := rec.results[i].passes - 1)]))
  }

  /** One more check of an expectation, passed or not, with its attempt data. */
  function Count(e: ExpectationResults, passed: bool, data: AttemptData): (r: ExpectationResults)
    ensures r.id == e.id && r.checks == e.checks + 1
    ensures r.passes == e.passes + (if passed then 1 else 0)
    ensures r.attempts == e.attempts + [data]
    ensures ExpectationWf(e) ==> ExpectationWf(r)
  {
    ExpectationResults(e.id, e.checks + 1, e.passes + (if passed then 1 else 0), e.attempts + [data])
  }

  /** `record` within one test's entry: count one check of expectation `id`, creating its
      entry on first use; the test's own counters and every other expectation are untouched. */
  function RecordIn(t: TestResults, id: ExpectationId, passed: bool, data: AttemptData): (r: TestResults)
    ensures r.test == t.test && r.executions == t.executions && r.passes == t.passes
    ensures var k := FindExpectation(t.expectations, id);
      if k >= 0 then r.expectations == t.expectations[k := Count(t.expectations[k], passed, data)]
      else r.expectations == t.expectations + [Count(ExpectationResults(id, 0, 0, []), passed, data)]
    ensures TestWf(t) ==> TestWf(r)
  {
    var k := FindExpectation(t.expectations, id);
    if k >= 0 then t.(expectations := t.expectations[k := Count(t.expectations[k], passed, data)])
    else t.(expectations := t.expectations + [Count(ExpectationResults(id, 0, 0, []), passed, data)])
  }

  /** `record`: count one check under the current test; a `KeyError` if no test has started
      under the current name. Only the current test's entry changes. */
  function Record(rec: Recorder, id: ExpectationId, passed: bool, data: AttemptData): (r: Result<Recorder, RecordError>)
    ensures r.Err? <==> forall j :: 0 <= j < |rec.results| ==> rec.results[j].test != rec.current
    ensures r.Ok? ==>
              var i := FindTest(rec.results, rec.current);
              r.value.current == rec.current
              && r.value.results == rec.results[i := RecordIn(rec.results[i], id, passed, data)]
    ensures r.Ok? && RecorderWf(rec) ==> RecorderWf(r.value)
  {
    var i := FindTest(rec.results, rec.current);
    if i < 0 then Err(KeyError)
    else Ok(rec.(results := rec.results[i := RecordIn(rec.results[i], id, passed, data)]))
  }

  /** After `record`, the expectation has been checked exactly once more, has passed once
      more exactly when `passed`, and its history ends with the data. */
  lemma RecordCountsOnce(t: TestResults, id: ExpectationId, passed: bool, data: AttemptData)
    requires TestWf(t)
    ensures var r := RecordIn(t, id, passed, data);
      var k := FindExpectation(t.expectations, id);
      var k' := FindExpectation(r.expectations, id);
      var before := if k >= 0 then t.expectations[k].checks else 0;
      var passesBefore := if k >= 0 then t.expectations[k].passes else 0;
      && k' >= 0
      && r.expectations[k'].checks == before + 1
      && r.expectations[k'].passes == passesBefore + (if passed then 1 else 0)
      && r.expectations[k'].attempts[|r.expectations[k'].attempts| - 1] == data
      && |r.expectations[k'].attempts| == r.expectations[k'].checks
  {
    var r := RecordIn(t, id, passed, data);
    var k := FindExpectation(t.expectations, id);
    if k >= 0 {
      assert r.expectations[k].id == id;
      assert forall j :: 0 <= j < k ==> r.expectations[j] == t.expectations[j];
    } else {
      var n := |t.expectations|;
      assert r.expectations[n].id == id;
      assert forall j :: 0 <= j < n ==> r.expectations[j] == t.expectations[j];
    }
  }

  /** One execution as the scheduler drives it: `start_test`, then `failed_test` at most once.
      This keeps every test's whole-test passes between 0 and its executions. */
  lemma ExecutionKeepsWf(rec: Recorder, name: string, failed: bool)
    requires RecorderWf(rec)
    ensures var s := StartTest(rec, name);
      RecorderWf(s) && (failed ==> FailedTest(s, name).Ok? && RecorderWf(FailedTest(s, name).value))
  {
    var s := StartTest(rec, name);
    if failed {
      var i := FindTest(s.results, name);
      assert s.results[i].passes >= 1;
      var f := FailedTest(s, name).value;
      assert forall j :: 0 <= j < |f.results| && j != i ==> f.results[j] == s.results[j];
      assert TestWf(f.results[i]);
    }
  }

  /** Python's `a // b`, which rounds toward negative infinity. */
  function FloorDiv(a: int, b: int): (r: int)
    requires b != 0
  {
    if b > 0 then a / b else (-a) / (-b)
  }

  /** One printed line of the report. */
  datatype ReportLine =
    | Summary(test: string, passes: int, executions: int, percent: int)
    | Detail(test: string, line: int, kind: string, passes: int, checks: int, percent: int)

  datatype ReportError = ZeroDivisionError

  function DetailOf(test: string, e: ExpectationResults): (r: ReportLine)
    requires e.checks != 0
    ensures r.Detail? && r.test == test && r.line == e.id.line && r.kind == e.id.kind
    ensures e.checks > 0 ==> r.percent * e.checks <= e.passes * 100 < (r.percent + 1) * e.checks
    ensures e.checks < 0 ==> r.percent * e.checks >= e.passes * 100 > (r.percent + 1) * e.checks
  {
    Detail(test, e.id.line, e.id.kind, e.passes, e.checks, FloorDiv(e.passes * 100, e.checks))
  }

  /** The detail lines, in insertion order, for the expectations whose passes differ from
      their checks; a `ZeroDivisionError` if such an expectation was never checked. */
  function Details(test: string, exps: seq<ExpectationResults>): (r: Result<seq<ReportLine>, ReportError>)
    ensures r.Err? <==> exists k :: 0 <= k < |exps| && exps[k].passes != exps[k].checks && exps[k].checks == 0
    ensures r.Ok? ==> |r.value| <= |exps|
  {
    if |exps| == 0 then Ok([])
    else
      var e := exps[0];
      var rest := Details(test, exps[1..]);
      assert forall k :: 1 <= k < |exps| ==> exps[k] == exps[1..][k - 1];
      if e.passes == e.checks then rest
      else if e.checks == 0 then Err(ZeroDivisionError)
      else if rest.Err? then rest
      else Ok([DetailOf(test, e)] + rest.value)
  }

  /** One expectation on its own: no line if it always passed, a division by zero if it was
      never checked, and otherwise its detail line. */
  lemma DetailsSingle(test: string, e: ExpectationResults)
    ensures Details(test, [e]) ==
              if e.passes == e.checks then Ok([])
              else if e.checks == 0 then Err(ZeroDivisionError)
              else Ok([DetailOf(test, e)])
  {
    assert [e][1..] == [];
    assert Details(test, [e][1..]) == Ok([]);
    if e.passes != e.checks && e.checks != 0 {
      assert [DetailOf(test, e)] + [] == [DetailOf(test, e)];
    }
  }

  /** The report of consecutive expectations is the report of each run, one after the other;
      it fails when either run's report fails. */
  lemma {:induction false} DetailsAppend(test: string, a: seq<ExpectationResults>, b: seq<ExpectationResults>)
    ensures Details(test, a + b).Err? <==> Details(test, a).Err? || Details(test, b).Err?
    ensures Details(test, a + b).Ok? ==> Details(test, a + b).value == Details(test, a).value + Details(test, b).value
    decreases |a|
  {
    if |a| == 0 {
      assert a + b == b;
    } else {
      assert (a + b)[0] == a[0];
      assert (a + b)[1..] == a[1..] + b;
      DetailsAppend(test, a[1..], b);
      var e := a[0];
      if e.passes != e.checks && e.checks != 0 && Details(test, a + b).Ok? {
        assert Details(test, a + b).value == [DetailOf(test, e)] + Details(test, a[1..] + b).value;
      }
    }
  }

  /** A detail line is printed for an expectation exactly when it did not always pass. */
  lemma {:induction false} DetailsExactlyFailing(test: string, exps: seq<ExpectationResults>, k: nat)
    requires Details(test, exps).Ok? && k < |exps|
    ensures exps[k].passes != exps[k].checks <==>
              exps[k].checks != 0 && DetailOf(test, exps[k]) in Details(test, exps).value
    decreases |exps|
  {
    var e := exps[0];
    var rest := Details(test, exps[1..]);
    if k > 0 {
      assert exps[k] == exps[1..][k - 1];
      DetailsExactlyFailing(test, exps[1..], k - 1);
      if e.passes != e.checks {
        var lines := Details(test, exps).value;
        assert lines == [DetailOf(test, e)] + rest.value;
        if exps[k].checks != 0 && DetailOf(test, exps[k]) == DetailOf(test, e) {
          assert exps[k].passes == e.passes && exps[k].checks == e.checks;
        }
      }
    } else if e.passes == e.checks && e.checks != 0 && DetailOf(test, e) in rest.value {
      DetailLinesFail(test, exps[1..]);
      assert false;
    }
  }

  /** Every detail line reports a failing ratio. */
  lemma {:induction false} DetailLinesFail(test: string, exps: seq<ExpectationResults>)
    requires Details(test, exps).Ok?
    ensures forall j :: 0 <= j < |Details(test, exps).value| ==>
              Details(test, exps).value[j].Detail? && Details(test, exps).value[j].passes != Details(test, exps).value[j].checks
    decreases |exps|
  {
    if |exps| > 0 {
      DetailLinesFail(test, exps[1..]);
    }
  }

  /** With consistent counters, every detail percentage is below 100. */
  lemma {:induction false} DetailPercentBelowHundred(test: string, exps: seq<ExpectationResults>)
    requires Details(test, exps).Ok?
    requires forall k :: 0 <= k < |exps| ==> ExpectationWf(exps[k])
    ensures forall j :: 0 <= j < |Details(test, exps).value| ==> 0 <= Details(test, exps).value[j].percent < 100
    decreases |exps|
  {
    if |exps| > 0 {
      DetailPercentBelowHundred(test, exps[1..]);
      var e := exps[0];
      if e.passes != e.checks {
        DetailPercentOf(test, e);
      }
    }
  }

  /** One failing expectation's percentage: the floor of a ratio below one, as a percentage. */
  lemma DetailPercentOf(test: string, e: ExpectationResults)
    requires ExpectationWf(e) && e.passes != e.checks
    ensures 0 <= DetailOf(test, e).percent < 100
  {
    var p, c := DetailOf(test, e).percent, e.checks;
    assert p * c <= e.passes * 100 < (p + 1) * c;
    assert (100 - p) * c == 100 * c - p * c;
    PositiveFactor(100 - p, c);
    PositiveFactor(p + 1, c);
  }

  lemma PositiveFactor(x: int, c: int)
    requires c > 0 && x * c > 0
    ensures x > 0
  {
  }

  /** `simple_analysis`: the summary line with the whole-test pass percentage, then the
      detail lines. Percentages are floor divisions; no execution at all would divide by zero. */
  function SimpleAnalysis(t: TestResults): (r: Result<seq<ReportLine>, ReportError>)
    ensures t.executions == 0 ==> r.Err?
    ensures r.Ok? ==> |r.value| >= 1 && r.value[0] == Summary(t.test, t.passes, t.executions, FloorDiv(t.passes * 100, t.executions))
    ensures r.Ok? ==> Details(t.test, t.expectations) == Ok(r.value[1..])
    ensures r.Ok? && TestWf(t) ==> 0 <= r.value[0].percent <= 100
  {
    if t.executions == 0 then Err(ZeroDivisionError)
    else
      var summary := Summary(t.test, t.passes, t.executions, FloorDiv(t.passes * 100, t.executions));
      match Details(t.test, t.expectations)
      case Err(e) => Err(e)
      case Ok(lines) =>
        assert ([summary] + lines)[1..] == lines;
        Ok([summary] + lines)
  }
}

=== FILE: runner.dfy ===
/** The test runner: registration of tests, nominal tests and conditional tests, the
    scheduling loop that gates every test behind the nominal tests, and the clean-up and
    report that a keyboard interrupt triggers.

    A test body is not code here: each execution draws a `Body` from the environment, which
    says which expectations the body recorded and how it ended. Conditions that are callables
    draw their answer from the environment too. The endless `while True` loop is bounded by a
    number of passes. */
module Runner {
  import opened Wrappers
  import opened PyValue
  import opened Recorder

  /** A test's run condition: a fixed value or a callable evaluated before each visit. */
  datatype Condition = Fixed(value: Value) | Callable

  /** The registry: tests in registration order, conditions keyed by test name, nominal tests. */
  datatype TestRunner = TestRunner(tests: seq<string>, conditions: map<string, Condition>, nominals: seq<string>)

  const NewRunner := TestRunner([], map[], [])

  /** Registration as a plain decorator. */
  function Register(runner: TestRunner, name: string): (r: TestRunner)
    ensures r.tests == runner.tests + [name]
    ensures r.conditions == runner.conditions && r.nominals == runner.nominals
  {
    runner.(tests := runner.tests + [name])
  }

  /** `nominal`: a test run before every other test, which must pass. */
  function Nominal(runner: TestRunner, name: string): (r: TestRunner)
    ensures r.nominals == runner.nominals + [name]
    ensures r.tests == runner.tests && r.conditions == runner.conditions
  {
    runner.(nominals := runner.nominals + [name])
  }

  /** `conditional(condition)`: a test plus its condition, replacing an earlier condition
      registered under the same name. */
  function Conditional(runner: TestRunner, name: string, condition: Condition): (r: TestRunner)
    ensures r.tests == runner.tests + [name] && r.nominals == runner.nominals
    ensures ConditionOf(r, name) == condition
    ensures forall other :: other != name ==> ConditionOf(r, other) == ConditionOf(runner, other)
  {
    TestRunner(runner.tests + [name], runner.conditions[name := condition], runner.nominals)
  }

  /** `test_conditions.get(name, True)`. */
  function ConditionOf(runner: TestRunner, name: string): (r: Condition) {
    if name in runner.conditions then runner.conditions[name] else Fixed(VBool(true))
  }

  /** One registration, as the decorators make them. */
  datatype Registration =
    | Plain(name: string)                                  // `@test`
    | AsNominal(name: string)                              // `@test.nominal`
    | WithCondition(name: string, condition: Condition)    // `@test.conditional(condition)`

  /** A registration applied to the registry. */
  function Apply(runner: TestRunner, reg: Registration): (r: TestRunner) {
    match reg
    case Plain(name) => Register(runner, name)
    case AsNominal(name) => Nominal(runner, name)
    case WithCondition(name, condition) => Conditional(runner, name, condition)
  }

  /** A registration history applied in order. */
  function ApplyAll(runner: TestRunner, regs: seq<Registration>): (r: TestRunner)
    decreases |regs|
  {
    if |regs| == 0 then runner else Apply(ApplyAll(runner, regs[..|regs| - 1]), regs[|regs| - 1])
  }

  /** The names a history registers as tests (plain or conditional), in order. */
  function TestsOf(regs: seq<Registration>): (r: seq<string>) {
    if |regs| == 0 then []
    else (if regs[0].AsNominal? then [] else [regs[0].name]) + TestsOf(regs[1..])
  }

  /** The names a history registers as nominal tests, in order. */
  function NominalsOf(regs: seq<Registration>): (r: seq<string>) {
    if |regs| == 0 then []
    else (if regs[0].AsNominal? then [regs[0].name] else []) + NominalsOf(regs[1..])
  }

  /** The condition of the last conditional registration of `name`, or `fallback` when the
      history has none. */
  function LastCondition(regs: seq<Registration>, name: string, fallback: Condition): (r: Condition)
    decreases |regs|
  {
    if |regs| == 0 then fallback
    else
      var reg := regs[|regs| - 1];
      if reg.WithCondition? && reg.name == name then reg.condition
      else LastCondition(regs[..|regs| - 1], name, fallback)
  }

  lemma {:induction false} TestsOfAppend(a: seq<Registration>, b: seq<Registration>)
    ensures TestsOf(a + b) == TestsOf(a) + TestsOf(b) && NominalsOf(a + b) == NominalsOf(a) + NominalsOf(b)
    decreases |a|
  {
    if |a| > 0 {
      assert (a + b)[1..] == a[1..] + b;
      TestsOfAppend(a[1..], b);
    } else {
      assert a + b == b;
    }
  }

  /** Any registration history lists every test and every nominal test in registration
      order, repeated names included. */
  lemma {:induction false} RegistrationOrder(runner: TestRunner, regs: seq<Registration>)
    ensures ApplyAll(runner, regs).tests == runner.tests + TestsOf(regs)
    ensures ApplyAll(runner, regs).nominals == runner.nominals + NominalsOf(regs)
    decreases |regs|
  {
    if |regs| > 0 {
      var init := regs[..|regs| - 1];
      var last := regs[|regs| - 1];
      RegistrationOrder(runner, init);
      TestsOfAppend(init, [last]);
      assert regs == init + [last];
      assert TestsOf([last]) == (if last.AsNominal? then [] else [last.name]) + TestsOf([]);
      assert NominalsOf([last]) == (if last.AsNominal? then [last.name] else []) + NominalsOf([]);
    }
  }

  /** Under any registration history a test's condition is the one its last conditional
      registration gave, whether fixed or callable; a later registration of the same name
      replaces an earlier one, and plain or nominal registrations leave it alone. */
  lemma {:induction false} ConditionIsLastRegistered(runner: TestRunner, regs: seq<Registration>, name: string)
    ensures ConditionOf(ApplyAll(runner, regs), name) == LastCondition(regs, name, ConditionOf(runner, name))
    decreases |regs|
  {
    if |regs| > 0 {
      ConditionIsLastRegistered(runner, regs[..|regs| - 1], name);
    }
  }

  /** A test never registered with a condition always runs, however often and in whatever way
      it or other tests were registered. */
  lemma UnconditionedTestRuns(regs: seq<Registration>, name: string)
    requires forall k :: 0 <= k < |regs| ==> !(regs[k].WithCondition? && regs[k].name == name)
    ensures ConditionOf(ApplyAll(NewRunner, regs), name) == Fixed(VBool(true))
  {
    ConditionIsLastRegistered(NewRunner, regs, name);
    NoConditionFallsBack(regs, name, Fixed(VBool(true)));
  }

  lemma {:induction false} NoConditionFallsBack(regs: seq<Registration>, name: string, fallback: Condition)
    requires forall k :: 0 <= k < |regs| ==> !(regs[k].WithCondition? && regs[k].name == name)
    ensures LastCondition(regs, name, fallback) == fallback
    decreases |regs|
  {
    if |regs| > 0 {
      NoConditionFallsBack(regs[..|regs| - 1], name, fallback);
    }
  }

  /** One expectation check a body records: `recorder.record(id, passed, data)`. */
  datatype Check = Check(id: ExpectationId, passed: bool, data: AttemptData)

  /** How a test body ends. An `AssertionError` raised by an expectation carries
      `(message, (kind, line))`; any other `AssertionError` (a bare `assert`, say) does not, so
      the `e.args[1][1]` that reports it raises `IndexError` out of `execute`. */
  datatype End = Returns | ExpectFailure | OtherAssertion | KeyboardInterrupt | OtherException

  /** The body raised `AssertionError`, so `execute` calls `failed_test`. */
  predicate AssertionFailed(end: End) {
    end == ExpectFailure || end == OtherAssertion
  }

  datatype Body = Body(checks: seq<Check>, end: End)

  /** How a call of a callable condition ends. */
  datatype Call = Returned(value: Value) | CallInterrupted | CallRaised

  /** What the world supplies, each in order: how the calls of callable conditions end, the
      test bodies, and for each `time.sleep(1)` of the gate whether a keyboard interrupt
      arrives during it. */
  datatype Env = Env(answers: seq<Call>, bodies: seq<Body>, sleeps: seq<bool>)

  /** What the run reports through its log: an execution and its verdict, or a skip. */
  datatype Event = Ran(test: string, nominal: bool, passed: bool) | Skipped(test: string)

  /** Why the run stopped: the environment ran dry, a keyboard interrupt, another exception. */
  datatype Stop = Exhausted | Interrupt | Crash

  /** One execution the run performed: the test and the body it ran. */
  datatype Execution = Execution(test: string, body: Body)

  /** What a part of the run did: the environment it left, the log it produced, the executions
      it performed (one that was interrupted or crashed included) and whether it stopped. The
      recorder takes no part in these decisions: its state is the replay of the executions. */
  datatype Progress = Progress(env: Env, events: seq<Event>, runs: seq<Execution>, halt: Option<Stop>)

  /** `p` followed by `q`. */
  function Then(p: Progress, q: Progress): (r: Progress) {
    Progress(q.env, p.events + q.events, p.runs + q.runs, q.halt)
  }

  /** Every test entry has been started at least once, as `start_test` creates them. */
  predicate Healthy(rec: Recorder) {
    RecorderWf(rec) && forall i :: 0 <= i < |rec.results| ==> rec.results[i].executions >= 1
  }

  predicate HasTest(rec: Recorder, name: string) {
    exists j :: 0 <= j < |rec.results| && rec.results[j].test == name
  }

  /** The checks a body records, in order, under the current test. Only expectation entries
      change; every test keeps its name and counters. */
  function RecordAll(rec: Recorder, checks: seq<Check>): (r: Recorder)
    requires HasTest(rec, rec.current)
    ensures r.current == rec.current && |r.results| == |rec.results|
    ensures forall i :: 0 <= i < |r.results| ==>
              r.results[i].test == rec.results[i].test
              && r.results[i].executions == rec.results[i].executions
              && r.results[i].passes == rec.results[i].passes
    ensures Healthy(rec) ==> Healthy(r)
    decreases |checks|
  {
    if |checks| == 0 then rec
    else
      var c := checks[0];
      var next := Record(rec, c.id, c.passed, c.data).value;
      assert next.results[FindTest(rec.results, rec.current)].test == rec.current;
      RecordAll(next, checks[1..])
  }

  /** `start_test` followed by the checks the body records. */
  function RunBody(rec: Recorder, name: string, checks: seq<Check>): (r: Recorder) {
    var started := StartTest(rec, name);
    assert started.results[FindTest(started.results, name)].test == name;
    RecordAll(started, checks)
  }

  /** After the body the test is present with its optimistic pass counted, so `failed_test`
      succeeds, and both outcomes keep the recorder healthy. */
  lemma StartedBody(rec: Recorder, name: string, checks: seq<Check>)
    ensures var ran := RunBody(rec, name, checks);
      && HasTest(ran, name)
      && FailedTest(ran, name).Ok?
      && (Healthy(rec) ==> Healthy(ran) && Healthy(FailedTest(ran, name).value))
  {
    var started := StartTest(rec, name);
    var i := FindTest(started.results, name);
    var ran := RunBody(rec, name, checks);
    assert ran.results[i].test == name;
    if Healthy(rec) {
      StartKeepsHealthy(rec, name);
      assert ran.results[i].passes == started.results[i].passes;
      FailKeepsHealthy(ran, name, i);
    }
  }

  lemma StartKeepsHealthy(rec: Recorder, name: string)
    requires Healthy(rec)
    ensures Healthy(StartTest(rec, name))
    ensures StartTest(rec, name).results[FindTest(StartTest(rec, name).results, name)].passes >= 1
  {
    var started := StartTest(rec, name);
    var i := FindTest(rec.results, name);
    if i >= 0 {
      assert forall k :: 0 <= k < |started.results| && k != i ==> started.results[k] == rec.results[k];
    } else {
      assert forall k :: 0 <= k < |rec.results| ==> started.results[k] == rec.results[k];
    }
  }

  lemma FailKeepsHealthy(ran: Recorder, name: string, i: nat)
    requires Healthy(ran) && i < |ran.results| && ran.results[i].test == name && ran.results[i].passes >= 1
    ensures FailedTest(ran, name).Ok? && Healthy(FailedTest(ran, name).value)
  {
    var j := FindTest(ran.results, name);
    assert j == i;
    var failed := FailedTest(ran, name).value;
    assert forall k :: 0 <= k < |failed.results| && k != i ==> failed.results[k] == ran.results[k];
    assert TestWf(failed.results[i]);
  }

  /** The recorder's side of `execute(test)`: `start_test`, the body's checks, and
      `failed_test` when the body raised `AssertionError`, of either kind. */
  function Perform(rec: Recorder, e: Execution): (r: Recorder)
    ensures Healthy(rec) ==> Healthy(r)
  {
    StartedBody(rec, e.test, e.body.checks);
    var ran := RunBody(rec, e.test, e.body.checks);
    if AssertionFailed(e.body.end) then FailedTest(ran, e.test).value else ran
  }

  /** The recorder after a sequence of executions. */
  function Replay(rec: Recorder, runs: seq<Execution>): (r: Recorder)
    ensures Healthy(rec) ==> Healthy(r)
    decreases |runs|
  {
    if |runs| == 0 then rec else Replay(Perform(rec, runs[0]), runs[1..])
  }

  lemma {:induction false} ReplayAppend(rec: Recorder, a: seq<Execution>, b: seq<Execution>)
    ensures Replay(rec, a + b) == Replay(Replay(rec, a), b)
    decreases |a|
  {
    if |a| == 0 {
      assert a + b == b;
    } else {
      assert (a + b)[1..] == a[1..] + b;
      ReplayAppend(Perform(rec, a[0]), a[1..], b);
    }
  }

  /** One execution counts one more execution of its test and, unless the body raised
      `AssertionError`, one more pass: a test interrupted or crashed by another exception
      counts as passed. */
  lemma PerformCounts(rec: Recorder, e: Execution)
    requires Healthy(rec)
    ensures var r := Perform(rec, e);
      var i := FindTest(rec.results, e.test);
      var j := FindTest(r.results, e.test);
      && j == (if i >= 0 then i else |rec.results|)
      && r.results[j].executions == (if i >= 0 then rec.results[i].executions else 0) + 1
      && r.results[j].passes == (if i >= 0 then rec.results[i].passes else 0) + (if AssertionFailed(e.body.end) then 0 else 1)
  {
    var started := StartTest(rec, e.test);
    var j := FindTest(started.results, e.test);
    var ran := RunBody(rec, e.test, e.body.checks);
    assert ran.results[j].test == e.test;
    FindTestAt(ran.results, e.test, j);
    StartedBody(rec, e.test, e.body.checks);
    if AssertionFailed(e.body.end) {
      var failed := FailedTest(ran, e.test).value;
      assert failed.results[j].test == e.test;
      FindTestAt(failed.results, e.test, j);
    }
  }

  /** `execute(test)` on the scheduling side: draw the next body; `True` when it returned,
      `False` when an expectation failed; a keyboard interrupt, an `AssertionError` without an
      expectation's arguments, or any other exception leaves `execute` and stops the loop. */
  function Execute(env: Env, name: string, nominal: bool): (r: Progress)
    ensures r.halt == Some(Exhausted) <==> |env.bodies| == 0
    ensures |env.bodies| == 0 ==> r == Progress(env, [], [], Some(Exhausted))
    ensures |env.bodies| > 0 ==>
              && r.env == env.(bodies := env.bodies[1..])
              && r.runs == [Execution(name, env.bodies[0])]
              && (r.halt.None? <==> env.bodies[0].end in {Returns, ExpectFailure})
              && (r.halt == Some(Interrupt) <==> env.bodies[0].end == KeyboardInterrupt)
              && (r.halt == Some(Crash) <==> env.bodies[0].end in {OtherAssertion, OtherException})
              && r.events == (if r.halt.None? then [Ran(name, nominal, env.bodies[0].end == Returns)] else [])
  {
    if |env.bodies| == 0 then Progress(env, [], [], Some(Exhausted))
    else
      var body := env.bodies[0];
      var rest := env.(bodies := env.bodies[1..]);
      var runs := [Execution(name, body)];
      match body.end
      case Returns => Progress(rest, [Ran(name, nominal, true)], runs, None)
      case ExpectFailure => Progress(rest, [Ran(name, nominal, false)], runs, None)
      case OtherAssertion => Progress(rest, [], runs, Some(Crash))
      case KeyboardInterrupt => Progress(rest, [], runs, Some(Interrupt))
      case OtherException => Progress(rest, [], runs, Some(Crash))
  }

  /** A bare `assert` that fails in a test is recorded as a failure and then, instead of the
      loop going on, stops the run with an exception that is not a keyboard interrupt. */
  lemma BareAssertStopsRun(rec: Recorder, env: Env, name: string, nominal: bool)
    requires Healthy(rec) && |env.bodies| > 0 && env.bodies[0].end == OtherAssertion
    ensures var p := Execute(env, name, nominal);
      && p.halt == Some(Crash) && p.events == []
      && var r := Replay(rec, p.runs);
         var j := FindTest(r.results, name);
         0 <= j < |r.results| && r.results[j].passes < r.results[j].executions
  {
    var p := Execute(env, name, nominal);
    var e := Execution(name, env.bodies[0]);
    assert p.runs == [e];
    ReplayOne(rec, e);
    PerformCounts(rec, e);
    var i := FindTest(rec.results, name);
    if i >= 0 {
      assert TestWf(rec.results[i]);
    }
  }

  /** Replaying one execution is performing it. */
  lemma ReplayOne(rec: Recorder, e: Execution)
    ensures Replay(rec, [e]) == Perform(rec, e)
  {
    assert [e][1..] == [];
  }

  /** `time.sleep(1)` after a failed nominal run, during which a keyboard interrupt may arrive. */
  function Sleep(env: Env): (r: Progress)
    ensures r.events == [] && r.runs == [] && r.env.answers == env.answers && r.env.bodies == env.bodies
    ensures r.halt == Some(Exhausted) <==> |env.sleeps| == 0
    ensures |env.sleeps| > 0 ==> (r.halt == Some(Interrupt) <==> env.sleeps[0]) && (r.halt.None? <==> !env.sleeps[0])
  {
    if |env.sleeps| == 0 then Progress(env, [], [], Some(Exhausted))
    else
      var rest := env.(sleeps := env.sleeps[1..]);
      if env.sleeps[0] then Progress(rest, [], [], Some(Interrupt)) else Progress(rest, [], [], None)
  }

  /** Projections of the log: the nominal tests that passed, and the visits of main tests
      (runs and skips), each as a sequence of test names. */
  datatype View = NominalPasses | MainVisits

  predicate Shows(e: Event, view: View) {
    match view
    case NominalPasses => e.Ran? && e.nominal && e.passed
    case MainVisits => e.Skipped? || (e.Ran? && !e.nominal)
  }

  function Names(events: seq<Event>, view: View): (r: seq<string>) {
    if |events| == 0 then []
    else (if Shows(events[0], view) then [events[0].test] else []) + Names(events[1..], view)
  }

  lemma {:induction false} NamesAppend(a: seq<Event>, b: seq<Event>, view: View)
    ensures Names(a + b, view) == Names(a, view) + Names(b, view)
    decreases |a|
  {
    if |a| > 0 {
      assert (a + b)[1..] == a[1..] + b;
      NamesAppend(a[1..], b, view);
    } else {
      assert a + b == b;
    }
  }

  /** A log in which no event shows in `view` projects to nothing. */
  lemma {:induction false} NamesHidden(events: seq<Event>, view: View)
    requires forall k :: 0 <= k < |events| ==> !Shows(events[k], view)
    ensures Names(events, view) == []
    decreases |events|
  {
    if |events| > 0 {
      NamesHidden(events[1..], view);
    }
  }

  /** A failed run of a test is immediately followed, if by anything, by another run of it. */
  predicate Retried(events: seq<Event>) {
    forall k :: 0 <= k < |events| - 1 && events[k].Ran? && !events[k].passed ==> events[k + 1].test == events[k].test
  }

  /** The nominal gate: each nominal test in order, executed again and again, a second's sleep
      apart, until it passes. */
  function Gate(env: Env, nominals: seq<string>): (r: Progress)
    ensures forall k :: 0 <= k < |r.events| ==> r.events[k].Ran? && r.events[k].nominal
    ensures |nominals| > 0 && |r.events| > 0 ==> r.events[0].test == nominals[0]
    ensures r.env.answers == env.answers && |r.env.bodies| <= |env.bodies|
    decreases |env.bodies|, |nominals|
  {
    if |nominals| == 0 then Progress(env, [], [], None)
    else
      var p := Execute(env, nominals[0], true);
      if p.halt.Some? then p
      else if p.events[0].passed then Then(p, Gate(p.env, nominals[1..]))
      else
        var s := Sleep(p.env);
        if s.halt.Some? then Then(p, s) else Then(p, Gate(s.env, nominals))
  }

  /** A completed gate saw every nominal test pass, in order, the last run passing. */
  lemma {:induction false} GateLog(env: Env, nominals: seq<string>)
    ensures var r := Gate(env, nominals);
      && (r.halt.None? ==> Names(r.events, NominalPasses) == nominals)
      && (r.halt.None? && |r.events| > 0 ==> r.events[|r.events| - 1].passed)
    decreases |env.bodies|, |nominals|
  {
    if |nominals| > 0 && |env.bodies| > 0 && GoesOn(env) {
      var passed := env.bodies[0].end == Returns;
      var env1 := AfterTurn(env);
      var rest := if passed then nominals[1..] else nominals;
      GateStep(env, nominals);
      GateLog(env1, rest);
      GateLogStep(nominals, passed, Gate(env, nominals), Gate(env1, rest));
    } else if |nominals| > 0 {
      GateHalts(env, nominals);
    }
  }

  /** Otherwise the gate's first turn ends the run: the bodies ran out, the body raised, or
      an interrupt arrived during the sleep. */
  lemma GateHalts(env: Env, nominals: seq<string>)
    requires |nominals| > 0 && !(|env.bodies| > 0 && GoesOn(env))
    ensures Gate(env, nominals).halt.Some?
    ensures |Gate(env, nominals).events| <= 1
  {
  }

  /** The next body returns or fails an expectation and, if it failed, no interrupt arrives
      during the sleep that follows. */
  predicate GoesOn(env: Env)
    requires |env.bodies| > 0
  {
    && env.bodies[0].end in {Returns, ExpectFailure}
    && (env.bodies[0].end == ExpectFailure ==> |env.sleeps| > 0 && !env.sleeps[0])
  }

  /** The environment after one such turn: one body used, and one sleep if the run failed. */
  function AfterTurn(env: Env): (r: Env)
    requires |env.bodies| > 0 && GoesOn(env)
  {
    var env0 := env.(bodies := env.bodies[1..]);
    if env.bodies[0].end == Returns then env0 else env0.(sleeps := env0.sleeps[1..])
  }

  /** One turn of the gate that neither halts nor is interrupted in its sleep: the run of the
      first nominal test, then the gate on the tests that remain, the same test again if it
      failed. */
  lemma GateStep(env: Env, nominals: seq<string>)
    requires |nominals| > 0 && |env.bodies| > 0 && GoesOn(env)
    ensures var passed := env.bodies[0].end == Returns;
      var q := Gate(AfterTurn(env), if passed then nominals[1..] else nominals);
      && Gate(env, nominals).events == [Ran(nominals[0], true, passed)] + q.events
      && Gate(env, nominals).halt == q.halt
  {
  }

  /** The inductive step of `GateLog` on two gate results, the second being the first's tail. */
  lemma GateLogStep(nominals: seq<string>, passed: bool, r: Progress, q: Progress)
    requires |nominals| > 0
    requires r.events == [Ran(nominals[0], true, passed)] + q.events && r.halt == q.halt
    requires forall k :: 0 <= k < |q.events| ==> q.events[k].Ran?
    requires q.halt.None? ==> Names(q.events, NominalPasses) == (if passed then nominals[1..] else nominals)
    requires q.halt.None? && |q.events| > 0 ==> q.events[|q.events| - 1].passed
    ensures r.halt.None? ==> Names(r.events, NominalPasses) == nominals
    ensures r.halt.None? && |r.events| > 0 ==> r.events[|r.events| - 1].passed
  {
    PassesStep(nominals, passed, q.events, q.halt.None?);
  }

  /** The inductive step of `GateLog`, on the log alone: one run of the first nominal test,
      then the log of the gate on what remains. */
  lemma PassesStep(nominals: seq<string>, passed: bool, rest: seq<Event>, completed: bool)
    requires |nominals| > 0
    requires forall k :: 0 <= k < |rest| ==> rest[k].Ran?
    requires completed ==> Names(rest, NominalPasses) == (if passed then nominals[1..] else nominals)
    requires completed && |rest| > 0 ==> rest[|rest| - 1].passed
    ensures completed ==> Names([Ran(nominals[0], true, passed)] + rest, NominalPasses) == nominals
    ensures completed ==> ([Ran(nominals[0], true, passed)] + rest)[|rest|].passed
  {
    var first := Ran(nominals[0], true, passed);
    NamesAppend([first], rest, NominalPasses);
    assert Names([first], NominalPasses) == (if passed then [nominals[0]] else []) + Names([], NominalPasses);
    if completed && passed {
      assert nominals == [nominals[0]] + nominals[1..];
    }
  }

  /** No main test appears in the gate's log. */
  lemma GateHidesMain(env: Env, nominals: seq<string>)
    ensures Names(Gate(env, nominals).events, MainVisits) == []
  {
    NamesHidden(Gate(env, nominals).events, MainVisits);
  }

  /** In the gate's log a failed run is immediately followed, if by anything, by a retry. */
  lemma {:induction false} GateRetries(env: Env, nominals: seq<string>)
    ensures Retried(Gate(env, nominals).events)
    decreases |env.bodies|, |nominals|
  {
    if |nominals| > 0 && |env.bodies| > 0 && GoesOn(env) {
      var passed := env.bodies[0].end == Returns;
      var env1 := AfterTurn(env);
      var rest := if passed then nominals[1..] else nominals;
      GateStep(env, nominals);
      GateRetries(env1, rest);
      RetriedStep(Ran(nominals[0], true, passed), Gate(env1, rest).events);
    } else if |nominals| > 0 {
      GateHalts(env, nominals);
    }
  }

  /** A run put in front of a log keeps failed runs retried, when a failed one is followed by
      a run of the same test. */
  lemma RetriedStep(first: Event, rest: seq<Event>)
    requires Retried(rest)
    requires first.Ran? && !first.passed && |rest| > 0 ==> rest[0].test == first.test
    ensures Retried([first] + rest)
  {
    var events := [first] + rest;
    assert forall k :: 1 <= k < |events| ==> events[k] == rest[k - 1];
  }

  /** One visit of a main test: evaluate its condition, calling it if it is a callable (the
      call may raise, a keyboard interrupt among others); skip the test if the value is falsy,
      otherwise pass the nominal gate and execute it. */
  function Visit(runner: TestRunner, env: Env, name: string): (r: Progress)
    ensures ConditionOf(runner, name).Fixed? ==> r.env.answers == env.answers
    ensures r.halt.None? && ConditionOf(runner, name).Fixed? ==>
              (r.events == [Skipped(name)] <==> !Truthy(ConditionOf(runner, name).value))
    ensures ConditionOf(runner, name).Callable? ==>
              if |env.answers| == 0 then r == Progress(env, [], [], Some(Exhausted))
              else
                && r.env.answers == env.answers[1..]
                && (env.answers[0].CallInterrupted? ==> r.halt == Some(Interrupt) && r.events == [] && r.runs == [])
                && (env.answers[0].CallRaised? ==> r.halt == Some(Crash) && r.events == [] && r.runs == [])
                && (env.answers[0].Returned? && r.halt.None? ==>
                      (r.events == [Skipped(name)] <==> !Truthy(env.answers[0].value)))
    ensures |r.env.answers| <= |env.answers| && |r.env.bodies| <= |env.bodies|
  {
    var condition := ConditionOf(runner, name);
    if condition.Callable? && |env.answers| == 0 then Progress(env, [], [], Some(Exhausted))
    else if condition.Callable? && !env.answers[0].Returned? then
      var stop := if env.answers[0].CallInterrupted? then Interrupt else Crash;
      Progress(env.(answers := env.answers[1..]), [], [], Some(stop))
    else
      var value := if condition.Callable? then env.answers[0].value else condition.value;
      var env1 := if condition.Callable? then env.(answers := env.answers[1..]) else env;
      if !Truthy(value) then Progress(env1, [Skipped(name)], [], None)
      else
        var g := Gate(env1, runner.nominals);
        if g.halt.Some? then g
        else
          var m := Execute(g.env, name, false);
          assert m.halt.None? ==> (g.events + m.events)[|g.events|].Ran?;
          Then(g, m)
  }

  /** A completed visit shows the test once among the main visits; when it ran, every nominal
      test passed, in order, right before it. */
  lemma VisitLog(runner: TestRunner, env: Env, name: string)
    ensures var r := Visit(runner, env, name);
      && (r.halt.None? ==> |r.events| > 0 && Names(r.events, MainVisits) == [name])
      && (r.halt.None? && r.events[|r.events| - 1].Ran? ==>
            r.events[|r.events| - 1] == Ran(name, false, r.events[|r.events| - 1].passed)
            && Names(r.events[..|r.events| - 1], NominalPasses) == runner.nominals)
  {
    var r := Visit(runner, env, name);
    var condition := ConditionOf(runner, name);
    if r.halt.None? && !(condition.Callable? && |env.answers| == 0) {
      var value := if condition.Callable? then env.answers[0].value else condition.value;
      var env1 := if condition.Callable? then env.(answers := env.answers[1..]) else env;
      if !Truthy(value) {
        assert r.events == [Skipped(name)];
        assert Names(r.events, MainVisits) == [name] + Names([], MainVisits);
      } else {
        var g := Gate(env1, runner.nominals);
        var m := Execute(g.env, name, false);
        assert g.halt.None? && m.halt.None?;
        assert r.events == g.events + m.events;
        assert m.events == [Ran(name, false, m.events[0].passed)];
        GateLog(env1, runner.nominals);
        GateHidesMain(env1, runner.nominals);
        NamesAppend(g.events, m.events, MainVisits);
        assert Names(m.events, MainVisits) == [name] + Names([], MainVisits);
        assert r.events[..|r.events| - 1] == g.events;
      }
    }
  }

  /** One pass of `for test in self.tests`, in registration order. */
  function Pass(runner: TestRunner, env: Env, tests: seq<string>): (r: Progress)
    ensures |r.env.answers| <= |env.answers| && |r.env.bodies| <= |env.bodies|
    decreases |tests|
  {
    if |tests| == 0 then Progress(env, [], [], None)
    else
      var v := Visit(runner, env, tests[0]);
      if v.halt.Some? then v else Then(v, Pass(runner, v.env, tests[1..]))
  }

  /** A completed pass visited every test once, in registration order. */
  lemma {:induction false} PassLog(runner: TestRunner, env: Env, tests: seq<string>)
    ensures var r := Pass(runner, env, tests);
      r.halt.None? ==> Names(r.events, MainVisits) == tests
    decreases |tests|
  {
    if |tests| > 0 {
      var v := Visit(runner, env, tests[0]);
      if v.halt.None? {
        var q := Pass(runner, v.env, tests[1..]);
        PassLog(runner, v.env, tests[1..]);
        VisitLog(runner, env, tests[0]);
        NamesAppend(v.events, q.events, MainVisits);
        assert tests == [tests[0]] + tests[1..];
      }
    }
  }

  /** The number of tests in `tests` whose condition is a callable. */
  function Callables(runner: TestRunner, tests: seq<string>): (r: nat) {
    if |tests| == 0 then 0
    else (if ConditionOf(runner, tests[0]).Callable? then 1 else 0) + Callables(runner, tests[1..])
  }

  /** A completed pass calls each callable condition once, in order: it consumes exactly one
      answer per callable test it visits. */
  lemma {:induction false} PassConsumesAnswers(runner: TestRunner, env: Env, tests: seq<string>)
    ensures var r := Pass(runner, env, tests);
      r.halt.None? ==>
        Callables(runner, tests) <= |env.answers| && r.env.answers == env.answers[Callables(runner, tests)..]
    decreases |tests|
  {
    if |tests| > 0 {
      var v := Visit(runner, env, tests[0]);
      var rest := tests[1..];
      if v.halt.None? {
        var q := Pass(runner, v.env, rest);
        assert Pass(runner, env, tests) == Then(v, q);
        if q.halt.None? {
          PassConsumesAnswers(runner, v.env, rest);
          var c := if ConditionOf(runner, tests[0]).Callable? then 1 else 0;
          VisitConsumes(runner, env, tests[0]);
          assert Callables(runner, tests) == c + Callables(runner, rest);
          DropDrop(env.answers, c, Callables(runner, rest));
        }
      }
    }
  }

  /** A completed visit consumes one answer when the condition is a callable, none otherwise. */
  lemma VisitConsumes(runner: TestRunner, env: Env, name: string)
    ensures var v := Visit(runner, env, name); var c := if ConditionOf(runner, name).Callable? then 1 else 0;
      v.halt.None? ==> c <= |env.answers| && v.env.answers == env.answers[c..]
  {
  }

  lemma DropDrop<T>(s: seq<T>, i: nat, j: nat)
    requires i <= |s| && j <= |s[i..]|
    ensures s[i..][j..] == s[i + j..]
  {
  }

  /** `passes` copies of the test list, one after another. */
  function Rounds(tests: seq<string>, passes: nat): (r: seq<string>) {
    if passes == 0 then [] else tests + Rounds(tests, passes - 1)
  }

  /** `while True`, bounded by a number of passes. */
  function Loop(runner: TestRunner, env: Env, passes: nat): (r: Progress)
    ensures |r.env.answers| <= |env.answers| && |r.env.bodies| <= |env.bodies|
    decreases passes
  {
    if passes == 0 then Progress(env, [], [], None)
    else
      var p := Pass(runner, env, runner.tests);
      if p.halt.Some? then p else Then(p, Loop(runner, p.env, passes - 1))
  }

  /** Without an interrupt the loop visits the tests round after round, in registration order. */
  lemma {:induction false} LoopLog(runner: TestRunner, env: Env, passes: nat)
    ensures var r := Loop(runner, env, passes);
      r.halt.None? ==> Names(r.events, MainVisits) == Rounds(runner.tests, passes)
    decreases passes
  {
    if passes > 0 {
      var p := Pass(runner, env, runner.tests);
      if p.halt.None? {
        var q := Loop(runner, p.env, passes - 1);
        LoopLog(runner, p.env, passes - 1);
        PassLog(runner, env, runner.tests);
        NamesAppend(p.events, q.events, MainVisits);
      }
    }
  }

  /** The clean-up after a keyboard interrupt: every nominal test executed once more, whatever
      its verdict. */
  function Cleanup(env: Env, nominals: seq<string>): (r: Progress)
    ensures r.halt.None? ==> |r.events| == |nominals|
    ensures forall k :: 0 <= k < |r.events| && k < |nominals| ==>
              r.events[k].Ran? && r.events[k] == Ran(nominals[k], true, r.events[k].passed)
    decreases |nominals|
  {
    if |nominals| == 0 then Progress(env, [], [], None)
    else
      var p := Execute(env, nominals[0], true);
      if p.halt.Some? then p
      else
        var q := Cleanup(p.env, nominals[1..]);
        var r := Then(p, q);
        assert forall k :: 1 <= k < |r.events| ==> r.events[k] == q.events[k - 1];
        r
  }

  /** The names of the tests in the recorder, in insertion order. */
  function TestNames(results: seq<TestResults>): (r: seq<string>) {
    if |results| == 0 then [] else [results[0].test] + TestNames(results[1..])
  }

  /** The tests named by summary lines, in order. */
  function SummaryNames(lines: seq<ReportLine>): (r: seq<string>) {
    if |lines| == 0 then []
    else (if lines[0].Summary? then [lines[0].test] else []) + SummaryNames(lines[1..])
  }

  lemma {:induction false} SummaryNamesAppend(a: seq<ReportLine>, b: seq<ReportLine>)
    ensures SummaryNames(a + b) == SummaryNames(a) + SummaryNames(b)
    decreases |a|
  {
    if |a| > 0 {
      assert (a + b)[1..] == a[1..] + b;
      SummaryNamesAppend(a[1..], b);
    } else {
      assert a + b == b;
    }
  }

  lemma {:induction false} DetailsHaveNoSummary(lines: seq<ReportLine>)
    requires forall j :: 0 <= j < |lines| ==> lines[j].Detail?
    ensures SummaryNames(lines) == []
    decreases |lines|
  {
    if |lines| > 0 {
      DetailsHaveNoSummary(lines[1..]);
    }
  }

  /** `for result in recorder.results.values(): result.simple_analysis()`: each test's report
      in insertion order; the first division by zero ends it. */
  function Report(results: seq<TestResults>): (r: Result<seq<ReportLine>, ReportError>)
    ensures r.Ok? ==> SummaryNames(r.value) == TestNames(results)
    decreases |results|
  {
    if |results| == 0 then Ok([])
    else
      match SimpleAnalysis(results[0])
      case Err(e) => Err(e)
      case Ok(lines) =>
        match Report(results[1..])
        case Err(e) => Err(e)
        case Ok(more) =>
          OneSummary(results[0]);
          SummaryNamesAppend(lines, more);
          Ok(lines + more)
  }

  /** A test's own report names it once, in its summary line. */
  lemma OneSummary(t: TestResults)
    requires SimpleAnalysis(t).Ok?
    ensures SummaryNames(SimpleAnalysis(t).value) == [t.test]
  {
    var lines := SimpleAnalysis(t).value;
    DetailLinesFail(t.test, t.expectations);
    DetailsHaveNoSummary(lines[1..]);
    SummaryNamesAppend([lines[0]], lines[1..]);
    assert lines == [lines[0]] + lines[1..];
    assert SummaryNames([lines[0]]) == [t.test] + SummaryNames([]);
  }

  /** With every test started and its counters consistent, the report divides by zero nowhere. */
  lemma {:induction false} ReportSucceeds(rec: Recorder)
    requires Healthy(rec)
    ensures Report(rec.results).Ok?
  {
    ReportSucceedsFrom(rec.results);
  }

  lemma {:induction false} ReportSucceedsFrom(results: seq<TestResults>)
    requires forall i :: 0 <= i < |results| ==> TestWf(results[i]) && results[i].executions >= 1
    ensures Report(results).Ok?
    decreases |results|
  {
    if |results| > 0 {
      var t := results[0];
      assert forall k :: 0 <= k < |t.expectations| ==> ExpectationWf(t.expectations[k]);
      assert Details(t.test, t.expectations).Ok?;
      ReportSucceedsFrom(results[1..]);
    }
  }

  /** How the run ends: the environment ran dry (the run would go on), an exception other than
      a keyboard interrupt escaped, or an interrupt led to the clean-up and the report. */
  datatype Final =
    | Unfinished(rec: Recorder, env: Env)
    | Crashed(rec: Recorder)
    | Reported(rec: Recorder, cleanup: seq<Event>, report: Result<seq<ReportLine>, ReportError>)

  /** `run()`: the loop, and on a keyboard interrupt the clean-up and the report. A second
      interrupt, or another exception, during the clean-up escapes `run`. */
  function Run(runner: TestRunner, rec: Recorder, env: Env, passes: nat): (r: Final)
    ensures Healthy(rec) ==> Healthy(r.rec)
    ensures Healthy(rec) && r.Reported? ==>
              r.report.Ok? && SummaryNames(r.report.value) == TestNames(r.rec.results)
    ensures r.Reported? ==> |r.cleanup| == |runner.nominals|
    ensures r.Reported? ==>
              forall k :: 0 <= k < |r.cleanup| ==>
                r.cleanup[k].Ran? && r.cleanup[k] == Ran(runner.nominals[k], true, r.cleanup[k].passed)
  {
    var p := Loop(runner, env, passes);
    var looped := Replay(rec, p.runs);
    if p.halt == Some(Crash) then Crashed(looped)
    else if p.halt != Some(Interrupt) then Unfinished(looped, p.env)
    else
      var c := Cleanup(p.env, runner.nominals);
      var cleaned := Replay(looped, c.runs);
      if c.halt == Some(Exhausted) then Unfinished(cleaned, c.env)
      else if c.halt.Some? then Crashed(cleaned)
      else
        if Healthy(rec) then ReportSucceeds(cleaned); Reported(cleaned, c.events, Report(cleaned.results))
        else Reported(cleaned, c.events, Report(cleaned.results))
  }

  /** The whole-run bookkeeping: the recorder at the end is the replay of every execution the
      loop and the clean-up performed, in order. */
  lemma RunReplays(runner: TestRunner, rec: Recorder, env: Env, passes: nat)
    ensures var p := Loop(runner, env, passes);
      var c := Cleanup(p.env, runner.nominals);
      var r := Run(runner, rec, env, passes);
      r.Reported? ==> r.rec == Replay(rec, p.runs + c.runs)
  {
    var p := Loop(runner, env, passes);
    var c := Cleanup(p.env, runner.nominals);
    ReplayAppend(rec, p.runs, c.runs);
  }
}

=== FILE: text.dfy ===
/** String and number helpers: the parts of Python's `str`/`int` behaviour the driver relies on.
    Strings are Python `str` values; the drivers make them with `bytes.decode('ascii')`. */
module Text {
  import opened Wrappers

  predicate IsDigit(c: char) {
    '0' <= c <= '9'
  }

  /** Python's `str.isdigit()` on ASCII text: non-empty and only digits. */
  predicate IsDigits(s: string) {
    |s| > 0 && forall i :: 0 <= i < |s| ==> IsDigit(s[i])
  }

  function DigitValue(c: char): (r: nat)
    requires IsDigit(c)
  {
    (c as int) - ('0' as int)
  }

  function DigitChar(d: nat): (c: char)
    requires d < 10
    ensures IsDigit(c) && DigitValue(c) == d
  {
    ['0', '1', '2', '3', '4', '5', '6', '7', '8', '9'][d]
  }

  /** Value of a run of decimal digits (most significant first). */
  function DigitsValue(s: string): (r: nat)
    requires forall i :: 0 <= i < |s| ==> IsDigit(s[i])
  {
    if |s| == 0 then 0 else 10 * DigitsValue(s[..|s| - 1]) + DigitValue(s[|s| - 1])
  }

  /** Decimal rendering of a natural number, no leading zeros. */
  function NatStr(n: nat): (s: string)
    ensures IsDigits(s)
    ensures DigitsValue(s) == n
    ensures n < 10 ==> |s| == 1
    ensures 10 <= n < 100 ==> |s| == 2
  {
    if n < 10 then [DigitChar(n)]
    else
      var s := NatStr(n / 10) + [DigitChar(n % 10)];
      assert s[..|s| - 1] == NatStr(n / 10);
      s
  }

  /** Python's `f"{i}"` for an integer. */
  function IntStr(i: int): (s: string)
    ensures i >= 0 ==> s == NatStr(i)
    ensures i < 0 ==> s == "-" + NatStr(-i)
  {
    if i >= 0 then NatStr(i) else "-" + NatStr(-i)
  }

  /** Python's `f"{i:02d}"`: zero-padded to width two, the sign counting towards the width. */
  function Pad2(i: int): (s: string)
    ensures 0 <= i < 100 ==> |s| == 2 && IsDigits(s) && DigitsValue(s) == i
    ensures i >= 100 ==> s == NatStr(i)
    ensures i < 0 ==> s == IntStr(i)
  {
    if 0 <= i < 10 then
      var s := "0" + NatStr(i);
      assert s[..1] == "0";
      s
    else IntStr(i)
  }

  /** Python's `int(s)` restricted to an optional sign followed by decimal digits;
      any other text is a `ValueError` (None here). */
  function ParseInt(s: string): (r: Option<int>)
    ensures IsDigits(s) ==> r == Some(DigitsValue(s))
    ensures r.Some? ==> IsDigits(s) || (|s| > 1 && (s[0] == '+' || s[0] == '-') && IsDigits(s[1..]))
  {
    if IsDigits(s) then Some(DigitsValue(s))
    else if |s| > 1 && s[0] == '+' && IsDigits(s[1..]) then Some(DigitsValue(s[1..]))
    else if |s| > 1 && s[0] == '-' && IsDigits(s[1..]) then Some((0 - DigitsValue(s[1..])) as int)
    else None
  }

  /** Round trip: reading back a rendered natural number gives the number. */
  lemma ParseIntNatStr(n: nat)
    ensures ParseInt(NatStr(n)) == Some(n)
  {
  }

  /** Index of the first occurrence of `c`, or -1 (Python's `str.find` on one character). */
  function FindChar(s: string, c: char): (i: int)
    ensures -1 <= i < |s|
    ensures i >= 0 ==> s[i] == c && forall j :: 0 <= j < i ==> s[j] != c
    ensures i == -1 <==> forall j :: 0 <= j < |s| ==> s[j] != c
  {
    if |s| == 0 then -1
    else if s[0] == c then 0
    else
      var k := FindChar(s[1..], c);
      if k < 0 then -1 else k + 1
  }

  predicate OccursAt(s: string, p: string, i: int) {
    0 <= i && i + |p| <= |s| && s[i..i + |p|] == p
  }

  /** Index of the first occurrence of the substring `p`, or -1 (Python's `str.find`). */
  function FindSub(s: string, p: string): (i: int)
    ensures -1 <= i <= |s|
    ensures i >= 0 ==> OccursAt(s, p, i) && forall j :: 0 <= j < i ==> !OccursAt(s, p, j)
    ensures i == -1 <==> forall j :: 0 <= j <= |s| ==> !OccursAt(s, p, j)
  {
    FindSubFrom(s, p, 0)
  }

  function FindSubFrom(s: string, p: string, k: nat): (i: int)
    requires k <= |s| + 1
    requires forall j :: 0 <= j < k ==> !OccursAt(s, p, j)
    ensures -1 <= i <= |s|
    ensures i >= 0 ==> OccursAt(s, p, i) && forall j :: 0 <= j < i ==> !OccursAt(s, p, j)
    ensures i == -1 <==> forall j :: 0 <= j <= |s| ==> !OccursAt(s, p, j)
    decreases |s| + 1 - k
  {
    if k + |p| > |s| then
      assert forall j :: k <= j <= |s| ==> !OccursAt(s, p, j);
      -1
    else if s[k..k + |p|] == p then k
    else FindSubFrom(s, p, k + 1)
  }

  /** Upper-case hexadecimal digit. */
  function HexChar(d: nat): (r: char)
    requires d < 16
  {
    "0123456789ABCDEF"[d]
  }

  predicate IsHexChar(c: char) {
    '0' <= c <= '9' || 'A' <= c <= 'F'
  }

  function HexValue(c: char): (r: nat)
    requires IsHexChar(c)
  {
    if '0' <= c <= '9' then (c as int) - ('0' as int) else (c as int) - ('A' as int) + 10
  }

  lemma HexCharValue(d: nat)
    requires d < 16
    ensures IsHexChar(HexChar(d)) && HexValue(HexChar(d)) == d
  {
  }

  /** Upper-case hexadecimal rendering, no leading zeros. */
  function HexStr(n: nat): (s: string)
    ensures |s| >= 1
    ensures forall i :: 0 <= i < |s| ==> IsHexChar(s[i])
    ensures n < 16 ==> |s| == 1
    ensures n < 256 ==> |s| <= 2
    ensures n < 4096 ==> |s| <= 3
    ensures HexDigitsValue(s) == n
  {
    HexCharValue(n % 16);
    if n < 16 then [HexChar(n)]
    else
      var s := HexStr(n / 16) + [HexChar(n % 16)];
      assert s[..|s| - 1] == HexStr(n / 16);
      s
  }

  function HexDigitsValue(s: string): (r: nat)
    requires forall i :: 0 <= i < |s| ==> IsHexChar(s[i])
  {
    if |s| == 0 then 0 else 16 * HexDigitsValue(s[..|s| - 1]) + HexValue(s[|s| - 1])
  }

  function Zeros(k: nat): (s: string)
    ensures |s| == k && forall i :: 0 <= i < k ==> s[i] == '0'
  {
    if k == 0 then "" else "0" + Zeros(k - 1)
  }

  /** Python's `f"{n:0wX}"` for a non-negative integer. */
  function HexPad(n: nat, w: nat): (s: string)
    ensures |s| == if |HexStr(n)| >= w then |HexStr(n)| else w
    ensures forall i :: 0 <= i < |s| ==> IsHexChar(s[i])
  {
    var h := HexStr(n);
    if |h| >= w then h else Zeros(w - |h|) + h
  }

  lemma {:induction false} HexValueLeadingZero(z: string, h: string)
    requires forall i :: 0 <= i < |z| ==> z[i] == '0'
    requires forall i :: 0 <= i < |h| ==> IsHexChar(h[i])
    ensures forall i :: 0 <= i < |z + h| ==> IsHexChar((z + h)[i])
    ensures HexDigitsValue(z + h) == HexDigitsValue(h)
    decreases |h|
  {
    var s := z + h;
    if |h| == 0 {
      assert s == z;
      ZerosValue(z);
    } else {
      assert s[..|s| - 1] == z + h[..|h| - 1];
      HexValueLeadingZero(z, h[..|h| - 1]);
    }
  }

  lemma {:induction false} ZerosValue(z: string)
    requires forall i :: 0 <= i < |z| ==> z[i] == '0'
    ensures forall i :: 0 <= i < |z| ==> IsHexChar(z[i])
    ensures HexDigitsValue(z) == 0
    decreases |z|
  {
    if |z| > 0 {
      ZerosValue(z[..|z| - 1]);
    }
  }

  /** Reading back a padded hexadecimal rendering gives the number. */
  lemma HexPadValue(n: nat, w: nat)
    ensures HexDigitsValue(HexPad(n, w)) == n
  {
    var h := HexStr(n);
    if |h| < w {
      HexValueLeadingZero(Zeros(w - |h|), h);
    }
  }

  /** Python slicing `s[i:j]` for non-negative bounds: clamped to the string. */
  function Slice(s: string, i: nat, j: nat): (r: string)
    ensures i <= j <= |s| ==> r == s[i..j]
    ensures |r| == if i <= j && j <= |s| then j - i else if i <= j && i <= |s| then |s| - i else 0
  {
    var hi := if j <= |s| then j else |s|;
    if i <= hi then s[i..hi] else ""
  }
}

=== FILE: topology.dfy ===
/** The tester's fixed channel topology: ten slots, each with two PWM-capable ("PPS") pins,
    two analog-only pins and two digital pins, addressed on the wire by a selector. */
module Topology {
  import opened Wrappers
  import opened Text

  const SlotCount: nat := 10

  /** The three pin classes; each fixes the role letters of its two pins. */
  datatype PinKind = Digital | Analog | Pps

  /** A pin's identity: its 1-based slot number and its role letter. */
  datatype PinId = PinId(slot: int, role: char)

  /** The role letter of pin `number` (0 or 1) of a kind: "de", "ab" or "pq". */
  function RoleLetter(kind: PinKind, number: nat): (r: char)
    requires number < 2
  {
    match kind
    case Digital => "de"[number]
    case Analog => "ab"[number]
    case Pps => "pq"[number]
  }

  function MakePin(kind: PinKind, slot: int, number: nat): (r: PinId)
    requires number < 2
  {
    PinId(slot, RoleLetter(kind, number))
  }

  /** The wire address of a pin: the 0-based slot index followed by the role letter. */
  function Selector(p: PinId): (r: string) {
    IntStr(p.slot - 1) + [p.role]
  }

  /** A slot owns two pins of each kind, index 0 and index 1. */
  datatype Slot = Slot(pps: seq<PinId>, an: seq<PinId>, d: seq<PinId>)

  function MakeSlot(n: int): (s: Slot)
    ensures |s.pps| == 2 && |s.an| == 2 && |s.d| == 2
    ensures forall j :: 0 <= j < 2 ==>
              s.pps[j] == MakePin(Pps, n, j) && s.an[j] == MakePin(Analog, n, j) && s.d[j] == MakePin(Digital, n, j)
  {
    Slot([MakePin(Pps, n, 0), MakePin(Pps, n, 1)],
         [MakePin(Analog, n, 0), MakePin(Analog, n, 1)],
         [MakePin(Digital, n, 0), MakePin(Digital, n, 1)])
  }

  /** The slots the driver builds: slot `i + 1` at list position `i`. */
  function HiltSlots(): (slots: seq<Slot>)
    ensures |slots| == SlotCount
    ensures forall i :: 0 <= i < SlotCount ==> slots[i] == MakeSlot(i + 1)
  {
    seq(SlotCount, i => MakeSlot(i + 1))
  }

  /** `hilt[n]`, which is `slots[n - 1]` with Python's negative indexing: slot numbers
      -9..0 wrap around to the end of the list; anything else is an `IndexError` (None). */
  function SlotAt(slots: seq<Slot>, n: int): (r: Option<Slot>)
    ensures 1 <= n <= |slots| ==> r == Some(slots[n - 1])
    ensures -|slots| < n <= 0 ==> r == Some(slots[n - 1 + |slots|])
    ensures r.None? <==> n > |slots| || n <= -|slots|
  {
    var i := n - 1;
    if 0 <= i < |slots| then Some(slots[i])
    else if -|slots| <= i < 0 then Some(slots[i + |slots|])
    else None
  }

  /** A pin the driver creates. */
  predicate IsHiltPin(p: PinId) {
    1 <= p.slot <= SlotCount && p.role in "deabpq"
  }

  /** Every pin of every slot is a driver pin and lives in its own slot. */
  lemma HiltSlotPins(i: nat, j: nat)
    requires i < SlotCount && j < 2
    ensures var s := HiltSlots()[i];
      IsHiltPin(s.pps[j]) && IsHiltPin(s.an[j]) && IsHiltPin(s.d[j])
      && s.pps[j].slot == s.an[j].slot == s.d[j].slot == i + 1
      && s.pps[j] != s.an[j] && s.an[j] != s.d[j] && s.pps[j] != s.d[j]
  {
  }

  /** Selectors of driver pins are two characters: one digit and the role letter. */
  lemma SelectorShape(p: PinId)
    requires IsHiltPin(p)
    ensures var sel := Selector(p);
      |sel| == 2 && IsDigit(sel[0]) && DigitValue(sel[0]) == p.slot - 1 && sel[1] == p.role
  {
  }

  /** Distinct driver pins have distinct selectors, so a reply's selector names one pin. */
  lemma SelectorInjective(p: PinId, q: PinId)
    requires IsHiltPin(p) && IsHiltPin(q)
    ensures Selector(p) == Selector(q) <==> p == q
  {
    SelectorShape(p);
    SelectorShape(q);
    if Selector(p) == Selector(q) {
      assert Selector(p)[0] == Selector(q)[0];
      assert Selector(p)[1] == Selector(q)[1];
    }
  }
}

=== FILE: wire.dfy ===
/** The outbound command strings of the serial protocol, with a decoder that reads them back. */
module Wire {
  import opened Wrappers
  import opened Text

  /** An outbound command, addressed by a pin selector. */
  datatype Command =
    | DigitalReadReq(sel: string)
    | AnalogReadReq(sel: string)
    | DigitalWriteReq(sel: string, level: bool)
    | PwmWriteReq(sel: string, channel: nat, duty: int)
    | CanSend(sid: nat, data: seq<nat>)

  /** The ASCII text the driver writes for a command. */
  function Encode(c: Command): (r: string)
    ensures |r| >= 2 && r[|r| - 1] == ';'
    ensures r[0] == if c.CanSend? then 'm' else ';'
  {
    match c
    case DigitalReadReq(sel) => ";d" + sel + ";"
    case AnalogReadReq(sel) => ";a" + sel + ";"
    case DigitalWriteReq(sel, level) => ";e" + sel + (if level then "1" else "0") + ";"
    case PwmWriteReq(sel, channel, duty) => ";b" + sel + IntStr(channel) + Pad2(duty) + ";"
    case CanSend(sid, data) => "m" + HexPad(sid, 3) + "," + HexBytes(data) + ";"
  }

  /** The payload bytes as two-digit upper-case hex, comma separated. */
  function HexBytes(data: seq<nat>): (r: string) {
    if |data| == 0 then ""
    else if |data| == 1 then HexPad(data[0], 2)
    else HexPad(data[0], 2) + "," + HexBytes(data[1..])
  }

  /** A command whose text the decoder can read back: two-character selectors,
      a one-digit PWM channel, a duty in 0..99 and payload bytes in 0..255. */
  predicate Decodable(c: Command) {
    match c
    case DigitalReadReq(sel) => |sel| == 2
    case AnalogReadReq(sel) => |sel| == 2
    case DigitalWriteReq(sel, _) => |sel| == 2
    case PwmWriteReq(sel, channel, duty) => |sel| == 2 && channel < 10 && 0 <= duty < 100
    case CanSend(_, data) => forall i :: 0 <= i < |data| ==> data[i] < 256
  }

  predicate AllHex(s: string) {
    forall i :: 0 <= i < |s| ==> IsHexChar(s[i])
  }

  /** Reads back one outbound command; None for text that is not one. */
  function Decode(s: string): (r: Option<Command>) {
    if |s| < 2 || s[|s| - 1] != ';' then None
    else if s[0] == ';' then DecodePinCommand(s[1..|s| - 1])
    else if s[0] == 'm' then DecodeCanBody(s[1..|s| - 1])
    else None
  }

  function DecodeCanBody(body: string): (r: Option<Command>) {
    var k := FindChar(body, ',');
    if k < 1 || !AllHex(body[..k]) then None
    else match DecodeBytes(body[k + 1..])
      case None => None
      case Some(data) => Some(CanSend(HexDigitsValue(body[..k]), data))
  }

  function DecodePinCommand(b: string): (r: Option<Command>) {
    if |b| == 3 && b[0] == 'd' then Some(DigitalReadReq(b[1..3]))
    else if |b| == 3 && b[0] == 'a' then Some(AnalogReadReq(b[1..3]))
    else if |b| == 4 && b[0] == 'e' && (b[3] == '0' || b[3] == '1') then Some(DigitalWriteReq(b[1..3], b[3] == '1'))
    else if |b| == 6 && b[0] == 'b' && IsDigit(b[3]) && IsDigits(b[4..6]) then
      Some(PwmWriteReq(b[1..3], DigitValue(b[3]), DigitsValue(b[4..6])))
    else None
  }

  function DecodeBytes(s: string): (r: Option<seq<nat>>)
    decreases |s|
  {
    if |s| == 0 then Some([])
    else if |s| == 2 && AllHex(s) then Some([HexDigitsValue(s)])
    else if |s| > 3 && AllHex(s[..2]) && s[2] == ',' then
      match DecodeBytes(s[3..])
      case None => None
      case Some(rest) => Some([HexDigitsValue(s[..2])] + rest)
    else None
  }

  lemma HexPadByte(b: nat)
    requires b < 256
    ensures |HexPad(b, 2)| == 2 && AllHex(HexPad(b, 2)) && HexDigitsValue(HexPad(b, 2)) == b
  {
    HexPadValue(b, 2);
  }

  lemma {:induction false} HexBytesRoundTrip(data: seq<nat>)
    requires forall i :: 0 <= i < |data| ==> data[i] < 256
    ensures DecodeBytes(HexBytes(data)) == Some(data)
    ensures |data| > 0 ==> |HexBytes(data)| >= 2
    ensures forall i :: 0 <= i < |HexBytes(data)| ==> HexBytes(data)[i] != ';'
    decreases |data|
  {
    if |data| == 1 {
      HexPadByte(data[0]);
      assert [data[0]] == data;
    } else if |data| > 1 {
      HexPadByte(data[0]);
      HexBytesRoundTrip(data[1..]);
      var s := HexBytes(data);
      assert s[..2] == HexPad(data[0], 2);
      assert s[2] == ',';
      assert s[3..] == HexBytes(data[1..]);
      assert DecodeBytes(s) == Some([data[0]] + data[1..]);
      assert [data[0]] + data[1..] == data;
    }
  }

  /** Every well-formed outbound command is read back as itself: the command strings
      are unambiguous, so the device can tell them apart. */
  lemma DecodeEncode(c: Command)
    requires Decodable(c)
    ensures Decode(Encode(c)) == Some(c)
  {
    match c
    case DigitalReadReq(sel) =>
      var s := Encode(c);
      var b := s[1..|s| - 1];
      assert b == "d" + sel;
      assert b[1..3] == sel;
    case AnalogReadReq(sel) =>
      var s := Encode(c);
      var b := s[1..|s| - 1];
      assert b == "a" + sel;
      assert b[1..3] == sel;
    case DigitalWriteReq(sel, level) =>
      var s := Encode(c);
      assert s[1..|s| - 1] == "e" + sel + (if level then "1" else "0");
    case PwmWriteReq(sel, channel, duty) =>
      DecodeEncodePwm(sel, channel, duty);
    case CanSend(sid, data) =>
      DecodeEncodeCan(sid, data);
  }

  lemma DecodeEncodePwm(sel: string, channel: nat, duty: int)
    requires |sel| == 2 && channel < 10 && 0 <= duty < 100
    ensures Decode(Encode(PwmWriteReq(sel, channel, duty))) == Some(PwmWriteReq(sel, channel, duty))
  {
    var s := Encode(PwmWriteReq(sel, channel, duty));
    var b := s[1..|s| - 1];
    assert b == "b" + sel + IntStr(channel) + Pad2(duty);
    assert b[1..3] == sel;
    assert IntStr(channel) == [b[3]];
    assert b[4..6] == Pad2(duty);
  }

  lemma FindCommaAfterHex(h: string, t: string)
    requires AllHex(h)
    ensures FindChar(h + "," + t, ',') == |h|
  {
    var body := h + "," + t;
    assert body[|h|] == ',';
    assert forall j :: 0 <= j < |h| ==> body[j] == h[j] && body[j] != ',';
  }

  lemma DecodeEncodeCan(sid: nat, data: seq<nat>)
    requires forall i :: 0 <= i < |data| ==> data[i] < 256
    ensures Decode(Encode(CanSend(sid, data))) == Some(CanSend(sid, data))
  {
    var h := HexPad(sid, 3);
    var t := HexBytes(data);
    HexPadValue(sid, 3);
    HexBytesRoundTrip(data);
    var body := h + "," + t;
    FindCommaAfterHex(h, t);
    assert body[..|h|] == h;
    assert body[|h| + 1..] == t;
    assert AllHex(body[..|h|]);
    assert DecodeCanBody(body) == Some(CanSend(sid, data));
    EncodeCanShape(sid, data);
  }

  lemma EncodeCanShape(sid: nat, data: seq<nat>)
    ensures var s := Encode(CanSend(sid, data));
      |s| >= 2 && s[0] == 'm' && s[|s| - 1] == ';' && s[1..|s| - 1] == HexPad(sid, 3) + "," + HexBytes(data)
  {
  }
}

=== FILE: wrappers.dfy ===
/** Failure-carrying wrappers used across the model. */
module Wrappers {

  /** A value that may be missing (Python's `None`). */
  datatype Option<+T> = None | Some(value: T)

  /** The outcome of an operation that may raise. */
  datatype Result<+T, +E> = Ok(value: T) | Err(error: E)
}
